=== FILE: README.md ===
# Worlty gateway integration for Home Assistant, modelled in Dafny

This project models the core of the Worlty integration. The integration
talks to a Worlty wall pad, a home-automation gateway, over a socket
carrying JSON messages. It has two clients: the newer one in
`custom_components/worlty/` and an older single-file one in
`custom_components/`. What the model covers:

- **Gateway session** (modules `DeviceTree`, `GatewaySession`, `UniqueIds`,
  `PkSort`). An `update` batch is sorted by primary key (`pk`), and each
  device's children are sorted and tagged with their parent's key (`fk`)
  and root id. Each record is filed under its unique id in the entity map
  and in its platform's bucket, with `dict.update` semantics. This fires
  the registered entity's callback or the platform's discovery callback.
  The last-changed time (`lct`) of every device goes into a health map,
  and a `health` report is diffed against it to choose which devices to
  re-fetch.
- **Command queue** (`CommandQueue`, `Entities`). There is at most one
  pending command per device. A quiet-period timer flushes the queue as
  one `set` message. An entity's `set_device` decides which key its
  command goes under; a child writes through its parent.
- **Handshake and framing** (`Auth`, `Framer`). `Auth` classifies the
  authentication exchange into success, `cannot_connect`, `unreachable`
  or `invalid_access_token`. `Framer` accumulates socket reads until the
  buffer holds one JSON document. Parsing is a parameter.
- **The older client** (`LegacyClient`, and the `Legacy*` members of
  `Framer`, `CommandQueue`, `Auth`, `Entities`):
  - hidden children are skipped;
  - classification uses the type only;
  - there is no health map;
  - a flush publishes twice;
  - reads are decoded strictly.
- **Classification tables** (`Const`). These cover the Worlty type codes,
  the type/class to platform mapping and the description table. They
  also cover the per-language display names, which fall back to the
  input.
- **Platform entities.** Climate, fan and water heater (`Climate`, `Fan`,
  `WaterHeater`, over the shared `ModeTables`) decode capability bitmasks
  into ordered mode lists and feature flags, invert their mode tables,
  read state from `stt`/`m`/`a` and build the keyword arguments of each
  control. The time entity (`TimeEntity`) parses keyword times with
  `±H:MM` offsets; its writer raises before sending anything, and the
  corrected writer sends `HH:MM`. The number entity (`NumberEntity`)
  looks up ranges and scales `_ms` names. The two light entities (`Light`,
  `LegacyLight`) read brightness and colour modes and build turn-on
  commands.

Records are `map<string, Value>` over a JSON-like `Value` datatype, and
`dict.update` is map union. Operations are pure functions returning the
new state together with the observable effects: events, or messages
published. Where Python would raise, the result is `None`, `Raised` or
`Malformed`. Home Assistant helpers and the clock are parameters:
`value_to_brightness`, the percentage helpers, the astral helper, the
JSON parser, the float parser and `_connect`'s result.

## Model

| member | source | states |
|---|---|---|
| UniqueIds.RootIdInjective | custom_components/worlty/worlty.py:555-561 | two top-level records of one gateway share an id only if their pk and name agree |
| UniqueIds.ChildIdInjective | custom_components/worlty/worlty.py:555-561 | two child ids are equal only if parent key, pk and name all agree |
| UniqueIds.RootAndChildIdsDiffer | custom_components/worlty/worlty.py:555-561 | a child id (fk ≠ 0) never equals a root id, whatever the keys and names |
| UniqueIds.ChildThreeOfSevenIsNotRootThree | custom_components/worlty.py:380-386 | example: under the older client's identical formula, child 3 of device 7 and root device 3 get different ids |
| UniqueIds.NumeralPrefix | custom_components/worlty/worlty.py:558-560 | `str(pk)` followed by a separator is read back unambiguously, which is what makes the id formula injective |
| Values.ParseIntRoundTrip | custom_components/worlty/worlty.py:516 | `int(str(pk)) == pk`: the health key written for a device parses back to its pk |
| Values.IntToStringInjective | custom_components/worlty/worlty.py:516 | distinct pks get distinct health-map keys |
| Values.ScalarText | custom_components/worlty/worlty.py:555-561 | how scalars render in the id f-string; lists, objects and floats are the cases not modelled |
| PkSort.SortIsOrderedPermutation | custom_components/worlty/worlty.py:505 | `sorted(..., key=pk)` returns the records ordered by pk and is a permutation of the input |
| PkSort.SortIsStable | custom_components/worlty/worlty.py:505 | for every key, records with that key keep their input order (Python's sort is stable) |
| DeviceTree.ObjectsOfWrap | custom_components/worlty/worlty.py:507-509 | storing the sorted children as a JSON list and reading them back gives the same records |
| DeviceTree.StampThenSort | custom_components/worlty/worlty.py:507-513 | tagging children with `fk` does not touch their pks, so it commutes with sorting them |
| DeviceTree.StampAllTags | custom_components/worlty/worlty.py:507-513 | every tagged child carries the parent's pk as `fk`, and the parent's root id that `update_device` adds as `parent_unique_id`; every other field is unchanged |
| DeviceTree.NormaliseKeepsFields | custom_components/worlty/worlty.py:507-509 | normalising a device changes only its `children` field |
| DeviceTree.NormaliseChildren | custom_components/worlty/worlty.py:507-513 | the stored children are the tagged input children, stably sorted by pk |
| DeviceTree.NormaliseTagsChildren | custom_components/worlty/worlty.py:507-513 | stored children are ordered by pk, are a permutation of the input children, and each has `fk` = parent pk |
| DeviceTree.FlattenAt | custom_components/worlty/worlty.py:563-572 | each device's records sit together at its offset in the merge order: the device, then its children, then the next device |
| DeviceTree.MergeFrame | custom_components/worlty/worlty.py:574-599 | merging a record changes the entity map and buckets only under that record's own id |
| DeviceTree.MergeStoresRecord | custom_components/worlty/worlty.py:574-587 | afterwards the entry holds every field of the record. A registered id's entry is replaced outright; an unregistered one keeps its other old fields |
| DeviceTree.MergeEvents | custom_components/worlty/worlty.py:580-599 | a registered entity gets the record. Otherwise discovery fires exactly when the stored record classifies to a platform with a listener, and is handed the bucket entry |
| DeviceTree.MergeIdempotent | custom_components/worlty/worlty.py:574-599 | merging the same record twice leaves the tree as after one merge |
| DeviceTree.MergeEstablishesSettled | custom_components/worlty/worlty.py:574-599 | after a merge, merging the record again would change nothing |
| DeviceTree.MergeKeepsSettled | custom_components/worlty/worlty.py:574-599 | merging a record with another id does not disturb a settled one |
| DeviceTree.MergeAllTouchesOnly | custom_components/worlty/worlty.py:563-599 | a run of merges leaves every id that none of its records has untouched |
| DeviceTree.MergeAllSettles | custom_components/worlty/worlty.py:563-599 | after a run with distinct ids, every record of the run is settled |
| DeviceTree.MergeAllIdempotent | custom_components/worlty/worlty.py:505-515 | replaying a run of records with distinct ids changes nothing |
| DeviceTree.RegisteredEntityReceivesUpdates | custom_components/worlty/worlty.py:580-605 | once an entity with a type is registered, the next merge of its record replaces the entry and notifies it; an entity without a type is never registered |
| GatewaySession.ProcessSplits | custom_components/worlty/worlty.py:507-516 | the update loop is merging the flattened batch in order plus the health writes, and the two do not interact |
| GatewaySession.UpdateRecordsHealth | custom_components/worlty/worlty.py:505-516 | after `update`, `health[str(pk)]` is the `lct` of the last device with that pk in the batch's own order; other keys keep their entry |
| GatewaySession.RecordHealthIsUnion | custom_components/worlty/worlty.py:516 | the health writes of a batch overlay the old map |
| GatewaySession.RecordHealthTwice | custom_components/worlty/worlty.py:516 | writing a batch's health entries twice is the same as once |
| GatewaySession.UpdateIdempotent | custom_components/worlty/worlty.py:498-519 | re-applying the same batch, with distinct record ids, leaves the session as after the first application |
| GatewaySession.ChangedPksExact | custom_components/worlty/worlty.py:487-527 | the request lists exactly the reported keys whose lct differs from the stored one (absent counts as 0); `int()` raises exactly when such a key is not an integer |
| GatewaySession.EchoRequestsNothing | custom_components/worlty/worlty.py:487-527 | a health report echoing the batch just applied requests nothing |
| GatewaySession.HealthExample | custom_components/worlty/worlty.py:520-526 | example: with device 5 unchanged at lct 100 and device 6 new, only 6 is requested |
| GatewaySession.HandleHealth | custom_components/worlty/worlty.py:520-532 | a health report never changes the session, publishes one `get` for the changed keys, and publishes nothing when none changed |
| GatewaySession.UpdatePersistsOnce | custom_components/worlty/worlty.py:498-519 | an update publishes nothing. A non-empty batch persists the entity map once, last, as it stands after the batch; an empty one persists nothing |
| Entities.EntityIdIsRecordId | custom_components/worlty/worlty.py:694-716 | with `pk` read with the synchroniser's default 0, an entity built from a record claims exactly the id under which the synchroniser files that record |
| Entities.AsWrittenAgreesOnIntegerPk | custom_components/worlty/worlty.py:694-716 | for a record with an integer `pk`, the entity as written is that same entity |
| Entities.PklessIdMismatch | custom_components/worlty/worlty.py:699-718 | as written, an entity built from a record without `pk` claims an id the synchroniser never files it under |
| Entities.PklessChildExample | custom_components/worlty/worlty.py:699-718 | example: child `ch1` without `pk` under device 7 claims `7_None:ch1` while its record is filed as `7_0:ch1` |
| Entities.StampedChildEntity | custom_components/worlty/worlty.py:694-699 | a stamped child becomes a child entity of its device exactly when the device's pk is positive |
| Entities.NewEntity | custom_components/worlty/worlty.py:690-711 | construction raises on a null, text, list or object `fk`; a top-level record is built exactly when its `did` is text with a `_`; a child is built exactly when its `parent_unique_id` names an entry of the entity map whose `did` is text with a `_` and its `cid` is hashable, so a child without `parent_unique_id` never is |
| Entities.ChildOfFiledDevice | custom_components/worlty/worlty.py:704-711 | once a top-level device is filed, its tagged children can be built exactly when the device's `did` carries a `_` and the child's `cid` is hashable |
| Entities.SetDevice | custom_components/worlty/worlty.py:795-813 | a child queues `{name: stt}` under its parent's pk (nothing for a null stt; raises without stt); a root queues all kwargs under its own pk |
| Entities.LegacyWriteKeepsOtherKeys | custom_components/worlty.py:588-595 | in the older client a write, a child's included, is queued under the writer's own pk and supersedes only that key; pending writes to the parent or a sibling stay queued, unlike the newer client's `ChildWriteSupersedesParentKey` |
| Entities.ChildWriteSupersedesParentKey | custom_components/worlty/worlty.py:795-806 | a child's write supersedes any pending write to its parent or to a sibling |
| Entities.SiblingWritesCollide | custom_components/worlty/worlty.py:795-806 | example: when two channels of one device are switched in one quiet period, only the second channel's state is sent |
| CommandQueue.Enqueue | custom_components/worlty/worlty.py:623-626 | the new command is last |
| CommandQueue.EnqueueKeepsOthers | custom_components/worlty/worlty.py:623-626 | apart from the new command, the queue holds exactly the earlier commands for other devices |
| CommandQueue.DropKeepsOrder | custom_components/worlty/worlty.py:625 | the commands that survive the filter keep their relative order |
| CommandQueue.EnqueueKeepsCoalesced | custom_components/worlty/worlty.py:623-626 | queueing keeps at most one pending command per pk |
| CommandQueue.DropMembers | custom_components/worlty/worlty.py:625 | the filter keeps exactly the commands for other pks |
| CommandQueue.EnqueueAllIsLatest | custom_components/worlty/worlty.py:623-626 | queueing a run equals the old queue minus the superseded pks, followed by the latest command of each pk in order |
| CommandQueue.EnqueueAllCoalesced | custom_components/worlty/worlty.py:623-626 | any run of queueing keeps one command per pk |
| CommandQueue.BurstIsCoalesced | custom_components/worlty/worlty.py:611-626 | commands queued in one quiet period go out as a single `set` holding the latest command per device |
| CommandQueue.OnThenOffSendsOff | custom_components/worlty/worlty.py:611-626 | on then off within the quiet period sends only off |
| CommandQueue.LegacyFlush | custom_components/worlty.py:428-454 | the older flush publishes the `set` message and then the raw queue, and keeps the queue when a publish raises |
| Auth.AuthOutcomes | custom_components/worlty/worlty.py:186-266 | each outcome and exactly when it occurs: cannot_connect, unreachable (error or no type on the first read, error on the second), invalid_access_token, success, with data only without an entry |
| Auth.AuthEffects | custom_components/worlty/worlty.py:196-209 | the token is sent once, exactly when the greeting is `auth_required`; the socket is closed only on a refused greeting |
| Auth.AuthBindsIdentity | custom_components/worlty/worlty.py:217-259 | the newer client builds the gateway identity only on the first successful run with an entry, the older one on every such run |
| Auth.TokenExchange | custom_components/worlty/worlty.py:205-259 | the usual exchange sends `{type: auth, access_token, platform: ha}` and succeeds |
| Framer.Subscribe | custom_components/worlty/worlty.py:387-421 | the loop returns what the reference definition of the framer gives, and never raises |
| Framer.FrameAccumulates | custom_components/worlty/worlty.py:399-418 | while no prefix parses, chunks accumulate and the call keeps waiting |
| Framer.FrameFindsFirstDocument | custom_components/worlty/worlty.py:399-407 | the first prefix of the reads that parses is the document returned |
| Framer.FrameStops | custom_components/worlty/worlty.py:393-421 | a zero-byte read yields `{}`, a timeout `{"error": "timeout"}`, a lost connection `{"error": "connection"}` |
| Framer.SplitChunksJoin | custom_components/worlty/worlty.py:393-418 | a message split over two reads gives the same result as the whole message |
| Framer.StuckBufferWaits | custom_components/worlty/worlty.py:399-418 | a buffer no continuation can parse returns only through a zero read, timeout or lost connection |
| Framer.LegacySubscribe | custom_components/worlty.py:284-305 | the older loop, with a strict decode and only JSON errors caught |
| Framer.LegacySplitCharacterRaises | custom_components/worlty.py:296-301 | a multi-byte character split across two reads raises, though the same bytes in one read do not |
| Framer.PatientSplitChunksJoin | custom_components/worlty.py:289-302 | treating a decode failure as incomplete input, splitting a message never changes the outcome |
| Framer.PatientAgreesWhenDecodable | custom_components/worlty.py:284-305 | the corrected loop agrees with the older loop wherever the latter does not raise on decoding |
| Framer.PatientSplitCharacter | custom_components/worlty.py:296-301 | the split character comes through the corrected loop exactly as the whole message |
| LegacyClient.HiddenChildrenSkipped | custom_components/worlty.py:388-396 | every stored child gets `fk`; only visible children get the root id and are merged, after the device |
| LegacyClient.HiddenChildNotFiled | custom_components/worlty.py:391-396 | merging a device leaves a hidden child's entry untouched |
| LegacyClient.LegacyClassifyIgnoresClass | custom_components/worlty.py:410 | the older classification looks at `type` only |
| LegacyClient.LegacyHealthRequestsAll | custom_components/worlty.py:355-358 | a health report requests every listed pk, in order, whatever its lct |
| LegacyClient.LegacyRequestsSuperset | custom_components/worlty.py:355-358 | the older client requests every key the newer client's lct diff would request, and fails whenever that diff fails |
| LegacyClient.LegacyHandleHealth | custom_components/worlty.py:355-358 | a health report publishes exactly one `get` of every reported key in order, even for none, and raises exactly when a key is not an integer |
| LegacyClient.LegacyUpdateNeedsNoLct | custom_components/worlty.py:339-353 | an update batch is refused exactly when a device falls outside the shape both loops handle; the older loop never needs `lct` |
| Const.TypeOfCode | custom_components/worlty/const.py:37-48 | a Worlty type exists exactly for codes 1..9, with that code |
| Const.TypeCodesAreOneToNine | custom_components/worlty/const.py:37-48 | the type codes are pairwise distinct and are exactly 1..9 |
| Const.PlatformOf | custom_components/worlty/const.py:139-154 | a list or object type raises, whatever the class; type 8 with class 1 is a water heater, otherwise climate; event and sensor types map to sensor; INPUT and unknown hashable types have no platform |
| Const.GetDescription | custom_components/worlty/const.py:157-746 | raises exactly when the type or the class is a list or object; a description exists exactly for a listed class of a listed type; otherwise the all-None tuple |
| Const.DescribedTypesHavePlatform | custom_components/worlty/const.py:139-154 | every described type/class has a platform; INPUT and COVER have no descriptions, and raise only for a list or object class |
| Const.MapState | custom_components/worlty/const.py:51-96 | a list or object state raises, whatever the language; otherwise unknown languages and states pass through, and a changed value was a listed state |
| Const.MapSub | custom_components/worlty/const.py:99-136 | a list or object id raises, whatever the language; otherwise unknown languages and sub ids pass through, and a changed value was a listed id |
| Const.LanguagesCoverSameKeys | custom_components/worlty/const.py:51-136 | both languages translate the same states and the same sub ids |
| ModeTables.DecodeSpec | custom_components/climate.py:175-177 | a name is listed exactly when its key's bit is set, and the list is in ascending key order |
| ModeTables.DecodeDistinct | custom_components/climate.py:175-177 | no name is listed twice |
| ModeTables.ToKeyInverts | custom_components/climate.py:87-116 | every name of an injective table maps back to its key |
| ModeTables.ToKeyExact | custom_components/climate.py:87-116 | a name outside the table has no key |
| ModeTables.MaskOf | custom_components/climate.py:173 | an absent mask is 0, a boolean is 0/1, any other non-integer makes `&` raise |
| ModeTables.ModeFeature | custom_components/worlty/fan.py:122-148 | a table with consecutive keys decodes to a non-empty list exactly when one of those bits is set |
| Climate.ToKeyInvertsTables | custom_components/climate.py:87-117 | each `*_to_key` inverts its table |
| Climate.OffListedTwice | custom_components/climate.py:173-178 | with bit 0 of `sm` set, the loop lists `off` twice |
| Climate.HvacModesSpec | custom_components/climate.py:173-178 | the corrected list has `off` first, then exactly the other modes whose bit is set, each once |
| Climate.UpdateModeLists | custom_components/climate.py:165-198 | the hvac list is `off` followed by exactly the modes whose bit is set, `off` again for bit 0; preset, fan and swing lists are exactly the names whose bits are set; all in key order, presets headed by `none` |
| Climate.UpdateFeatures | custom_components/climate.py:200-208 | turn on/off are always offered; temperature and humidity targets exactly when a target or reading exists |
| Climate.PresetFeature | custom_components/climate.py:209-210 | preset control iff one of bits 6..9 of `sm` is set |
| Climate.FanFeature | custom_components/climate.py:211-212 | fan-mode control iff one of bits 0..10 of `sf` is set |
| Climate.SwingFeature | custom_components/climate.py:213-214 | swing control iff one of bits 0..4 of `ssw` is set |
| Climate.HvacActionSpec | custom_components/climate.py:218-228 | no action without `a`; raises exactly for a list or object `a` while the device is on; `off` exactly when the device is off or reports 0; `idle` for any other unknown value |
| Climate.HvacModeSpec | custom_components/climate.py:231-239 | `off` whenever the device is off; while on, raises exactly for a list or object `m`, otherwise the mode its key names (`off` outside the table) |
| Climate.SetHvacModeRoundTrip | custom_components/climate.py:342-347 | a mode written reads back as itself; `off` sends `stt` alone |
| Climate.SetPresetModeRoundTrip | custom_components/climate.py:349-358 | only `away` and `none` send anything, and each reads back as itself |
| Climate.SetFanModeRoundTrip | custom_components/climate.py:360-364 | nothing is sent while in `auto` or when reading the mode raises; otherwise a listed fan mode reads back as itself |
| Climate.SetSwingModeRoundTrip | custom_components/climate.py:366-368 | a listed swing mode reads back as itself, with the device on |
| Climate.PowerCommands | custom_components/climate.py:330-340 | on, off and toggle set the state the reader sees |
| Climate.SetTargets | custom_components/climate.py:370-380 | temperature and humidity writes are dropped exactly in `fan_only` or when reading the mode raises, and otherwise read back |
| Fan.ToKeyInvertsTables | custom_components/worlty/fan.py:19-73 | each `fan_*_to_key` inverts its table, and a listed name's key looks up to that name |
| Fan.UpdateModeLists | custom_components/worlty/fan.py:122-135 | modes, speeds and swings are exactly the names whose bits are set, in key order |
| Fan.PresetFeature | custom_components/worlty/fan.py:142-143 | preset control iff one of bits 1..10 of `sm` is set |
| Fan.SpeedFeature | custom_components/worlty/fan.py:144-145 | speed control iff one of bits 1..8 of `ssp` is set |
| Fan.DirectionFeature | custom_components/worlty/fan.py:146-147 | direction control iff one of bits 0..4 of `ssw` is set |
| Fan.PowerFeatures | custom_components/worlty/fan.py:138-141 | turn on and off are offered together, exactly when presets or speeds are |
| Fan.PercentageGuard | custom_components/worlty/fan.py:161-170 | no percentage without speeds; 0 while off; while on, raises exactly for a list or object `sp` or when the speed's name, `off` for a code outside the table, is not one of the fan's speeds, and otherwise reads that speed's percentage |
| Fan.ReportedSpeedPercentage | custom_components/worlty/fan.py:126-170 | `off` is never a reported speed, so a switched-on fan reads a percentage exactly when `sp` is a speed key whose bit is set in `ssp`; an absent, null or unknown code raises |
| Fan.CurrentPresetSpec | custom_components/worlty/fan.py:177-185 | no preset without modes; raises exactly for a list or object `m`; a listed code reads as its name, any other as `on`/`off` by power |
| Fan.SetPercentageRoundTrip | custom_components/worlty/fan.py:192-205 | nothing is sent exactly when reading the current preset raises; otherwise 0 switches off without a speed and a positive percentage reads back as the percentage of the speed chosen |
| Fan.PresetRequestIgnored | custom_components/worlty/fan.py:207-210 | as written, choosing a preset ignores the request and re-sends the current one: a fan in any listed preset keeps it, a fan reading `off` is switched on and reads `on`, and nothing is sent when reading the preset raises |
| Fan.EcoRequestStaysOn | custom_components/worlty/fan.py:207-210 | example: a fan in `on` that is asked for `eco` stays in `on` |
| Fan.SetPresetModeRoundTrip | custom_components/worlty/fan.py:207-212 | writing the requested preset's key reads back as that preset; `off` writes `stt = False` only |
| Fan.TurnOnSpeedUnreadable | custom_components/worlty/fan.py:214-231 | as written, turn-on with a percentage stores a speed name where readers expect a key, so the speed table misses and the next percentage read raises |
| Fan.TurnOnRoundTrip | custom_components/worlty/fan.py:214-231 | with the key sent, the speed or the requested preset reads back as chosen, and the fan is on |
| Fan.TurnOffReadsZero | custom_components/worlty/fan.py:233-235 | turn-off sends `stt = False` alone and then reads percentage 0 |
| WaterHeater.ToKeyInvertsTable | custom_components/worlty/water_heater.py:27-46 | `hvac_mode_to_key` inverts the table; an unknown name has no key |
| WaterHeater.NamedKeys | custom_components/worlty/water_heater.py:27-46 | `away` maps to 6 and `heat` to 1 |
| WaterHeater.UpdateModes | custom_components/worlty/water_heater.py:88-96 | `off` first, then exactly the modes whose bit is set, in key order |
| WaterHeater.UpdateFeatures | custom_components/worlty/water_heater.py:98-105 | on/off, target temperature and operation mode always; away mode iff bit 6 of `sm` is set |
| WaterHeater.AwayRoundTrip | custom_components/worlty/water_heater.py:143-169 | away on reads back as away; away off and a temperature write read back as not away, in heating mode |
| WaterHeater.AwayNeedsPower | custom_components/worlty/water_heater.py:143-181 | away implies the heater is on (operation `gas`); turning off ends away mode |
| WaterHeater.OperationRoundTrip | custom_components/worlty/water_heater.py:150-181 | the operation reads back as `gas` exactly when `gas` was set |
| TimeEntity.OffsetRoundTrip | custom_components/worlty/time.py:106-110 | an offset rendered as `±H:MM` parses back to the same number of minutes |
| TimeEntity.OffsetShapeParses | custom_components/worlty/time.py:76-110 | every accepted suffix parses to its sign times hours·60 + minutes; the sign is positive iff the text has `+` |
| TimeEntity.SplitJoin | custom_components/worlty/time.py:109 | `"a:b".split(":")` is `[a, b]` when neither part has a colon |
| TimeEntity.SpecialAccepts | custom_components/worlty/time.py:81-104 | only texts starting with one of the four keywords are accepted, and the result is a time of day |
| TimeEntity.KeywordWithOffset | custom_components/worlty/time.py:81-103 | a keyword with no suffix reads as its base time; with a suffix, as base time plus offset wrapped into one day |
| TimeEntity.NoonAndMidnight | custom_components/worlty/time.py:96-103 | `noon` is 12:00 and `midnight` 00:00 |
| TimeEntity.ClockIsNoKeyword | custom_components/worlty/time.py:76-104 | an `HH:MM` text matches no keyword |
| TimeEntity.ClockTextUnreadable | custom_components/worlty/time.py:60-74 | as written, every `HH:MM` state the gateway reports reads as no time |
| TimeEntity.ClockTextReads | custom_components/worlty/time.py:60-74 | with `HH:MM` read after the keywords, every reported `HH:MM` state reads as that time of day |
| TimeEntity.SetValueRaises | custom_components/worlty/time.py:112-115 | as written, setting a time raises before `set_device`, so nothing is ever sent |
| TimeEntity.WrittenTimeRoundTrip | custom_components/worlty/time.py:60-115 | with writer and reader corrected, a time is sent as one `stt` text and reads back as itself |
| TimeEntity.NativeValueExtends | custom_components/worlty/time.py:60-74 | the corrected reader agrees with the original wherever the original yields a time or raises |
| TimeEntity.ClockTextUntranslated | custom_components/worlty/const.py:51-96 | the state translation leaves a clock text alone |
| NumberEntity.RangeDefault | custom_components/worlty/number.py:72-88 | an unlisted name gets min 0, max 100, step 1; a listed one its own entry |
| NumberEntity.RangesWellFormed | custom_components/worlty/number.py:15-21 | every range has min < max and a positive step |
| NumberEntity.MillisecondRanges | custom_components/worlty/number.py:15-21 | the two `_ms` entries span 30 min–5 h and 1 min–1 h in whole minutes |
| NumberEntity.WriteScaling | custom_components/worlty/number.py:90-94 | a written value is multiplied by 1000 for `_ms` names and passes through otherwise |
| NumberEntity.ReadScaling | custom_components/worlty/number.py:61-68 | a numeric state is divided by 1000 for `_ms` names and passes through otherwise |
| NumberEntity.NonNumericIsNone | custom_components/worlty/number.py:61-70 | null, lists, objects and unparsable text read as no value |
| NumberEntity.WriteThenRead | custom_components/worlty/number.py:61-94 | writing a value and reading the echoed state gives the value back, even through the state translation |
| NumberEntity.ReadThenWrite | custom_components/worlty/number.py:61-94 | reading a numeric state and writing it back writes the same state |
| Light.DimLevelFollowsMax | custom_components/worlty/light.py:66-72 | after a read the level list is `[1..lvm]` and `wt_level_max` is `lvm` |
| Light.LevelOverride | custom_components/worlty/light.py:66-76 | the level overrides `bri` exactly when `lvm >= lv`, with no positivity check |
| Light.LastBrightnessOnlyPositive | custom_components/worlty/light.py:77-79 | `wt_last_bri` changes only to, and always to, a positive brightness |
| Light.ReadFailures | custom_components/worlty/light.py:66-79 | a missing `lvm` or a null `lv` raises; integer `lvm`/`lv` with a comparable `bri` read fine |
| Light.SupportedModesSpec | custom_components/worlty/light.py:87-97 | exactly one mode: brightness iff bit 1 or 2 of `sc`, which also sets the colour mode |
| Light.NoScIsOnOff | custom_components/worlty/light.py:87-97 | without `sc` the light is on/off only |
| Light.TurnOnSingleLevel | custom_components/worlty/light.py:99-110 | with `wt_level_max <= 1`, turn-on sends only `stt = True` |
| Light.TurnOnDimmable | custom_components/worlty/light.py:99-108 | one command per set bit, each switching on: a level for bit 1, then the requested brightness for bit 2; none with neither bit |
| Light.PowerRoundTrip | custom_components/worlty/light.py:61-114 | every turn-on command reads back as on, turn-off as off, and a missing `stt` as off |
| Light.LevelRoundTrip | custom_components/worlty/light.py:66-105 | the level written lies in `1..lvm`, so it reads back as that level's brightness |
| Light.LevelWriteSuperseded | custom_components/worlty/light.py:99-110 | with both bits set the two writes share a pk, so `queue` keeps only the raw-brightness write |
| LegacyLight.LevelOverride | custom_components/light.py:64-75 | the level overrides `bri` exactly when 0 < lv <= lvm |
| LegacyLight.LastBrightnessOnlyPositive | custom_components/light.py:73-75 | `wt_last_bri` changes only to, and always to, a positive brightness |
| LegacyLight.NoLevelIgnoresMax | custom_components/light.py:64-75 | without a level the older light never looks at `lvm`; the newer one raises without it |
| LegacyLight.SupportedModesSpec | custom_components/light.py:82-89 | on/off is always first; brightness follows exactly when bit 2 is set |
| LegacyLight.ModesComparedWithNewer | custom_components/light.py:82-89 | both clients offer brightness for bit 2; only the older keeps on/off beside it; bit 1 alone means brightness only in the newer |
| LegacyLight.ReadComparedWithNewer | custom_components/light.py:64-75 | both read the same brightness for a level in `1..lvm`; at level 0 or below only the newer overrides `bri` |
| LegacyLight.TurnOnSpec | custom_components/light.py:91-101 | at most one level sends `stt = True` only. With more, the brightness argument is required and its scaled value is sent |
| LegacyLight.TurnOnInitially | custom_components/light.py:51-101 | before any read, turn-on only switches on |
| LegacyLight.TurnOnRoundTrip | custom_components/light.py:59-101 | a turn-on reads back as on, and its brightness reads back when the device sends no level |

## Left out

- Sockets, asyncio tasks, sleeps, reconnect and re-authentication loops, the health-check timer and `listen_for_message`. These are I/O. The framer sees reads as a sequence and the handshake gets `_connect`'s result as a parameter.
- JSON encoding and decoding, and UTF-8 decoding in the newer client, are the parameter `parse`. The older client's strict decode is modelled by a UTF-8 validity predicate.
- Home Assistant glue is left out: config-entry persistence (kept only as a `Persisted` event), the device registry, entity-id generation, `map_worlty_entity_description` and state-write scheduling.
- Library helpers are uninterpreted parameters: `value_to_brightness`, `percentage_to_ordered_list_item`, `ordered_list_item_to_percentage`, `percentage_to_ranged_value` with `math.ceil`, `round`, and `get_astral_event_date`. Of `percentage_to_ordered_list_item`, the fan round trips assume only that it returns an item of its non-empty list (`PicksListItem`); the `ValueError` of `ordered_list_item_to_percentage` for an item outside the list is modelled in `Fan.Percentage`.
- Floating point: numbers are exact reals, so IEEE-754 rounding in the `_ms` scaling is not modelled.
- Python `int()` accepts only an optional `-` or `+` sign and ASCII digits here. Surrounding whitespace, underscores and non-ASCII digits are not modelled.
- Dict keys compare by Python equality across types (`True == 1`). The model keys records by string and compares `Value`s structurally, so a boolean or an integral float attribute misses the mode tables, where Python's `.get` would hit key 0 or 1 (or the float's integer).
- The state an entity keeps after an exception is not tracked. A read that raises returns `Raised` without the partial state change (`wt_level_max` is already written when the brightness comparison raises).
- Real-valued `lv`, `lvm` or `sc` are treated as raising. Python would compare a float level, and `&` on a float raises.
- Malformed `update` batches are reported as `Malformed`, by both clients, without modelling how far the loop got or what it stored: a missing or non-integer device `pk` (which Python may render into an id, or fail on when sorting mixed keys), a non-integer child `pk` or device `fk`, non-object children, names that are lists or objects, a device or child `type` that is a list or object (which `map_worlty_to_platform` cannot hash; the older client is held to the same shape), and, in the newer client only, a missing `lct`.
- Device ids in f-strings: lists, objects and floats in name fields are not rendered.
- The older client's classification table is a parameter (`byType`). Its own constant module is not part of this model.
- `device/list` and `device/delete` are modelled only as what they publish or log.
- Sunrise and sunset times are the parameter `sun`. The offset added to them follows the model's integer seconds.
- Const.MapState: it is not proved that the translation is idempotent. Translated names that are themselves keys would be translated again (`idle` maps to `idle`); that is left unstated.
- Entities.NewEntity: the display name `worlty_sub` is not kept, only whether computing it raises. A boolean or real `fk` reads as 0, where Python compares it and `True` makes the record a child.
- DeviceTree.Classify: a record stored before with a list or object `type`, merged again with a record that has no `type`, reads as no platform where Python raises. Update batches carrying such a type are refused, so only earlier stored state can reach this.
- Entities.EntityIdIsRecordId: it assumes a non-negative `fk`. Gateway keys are positive, and a negative one would make the entity read `did` where the synchroniser reads `cid`. It is stated for the corrected entity; as written the ids differ for a record without `pk` (see Findings).
- Entities.SetDevice: commands carry integer keys, so a top-level entity whose record has no `pk` queues under 0 in the model where Python queues `"pk": None`. The older client's children are affected the same way through `LegacySetDevice`.
- Climate: the entity's `wt_last_*` memo fields are not modelled, except `wt_last_state` as the toggle's input.

## Findings

| source | as written | input that shows it | evidently intended | confidence | as-written member | corrected member |
|---|---|---|---|---|---|---|
| custom_components/worlty/fan.py:207-210 | `async_set_preset_mode` writes the key of `self.preset_mode`, the current preset, not the argument | fan in preset `on` (`m = 1`) asked for `eco` | write `fan_mode_to_key(preset_mode)` | high (not executed) | Fan.PresetRequestIgnored | Fan.SetPresetModeRoundTrip |
| custom_components/worlty/fan.py:214-231 | `async_turn_on` with a percentage stores the speed name in `sp`, so the next percentage read raises `ValueError` | any positive percentage on a fan with speeds | store `fan_speed_to_key(speed)` as `async_set_percentage` does | high (not executed) | Fan.TurnOnSpeedUnreadable | Fan.TurnOnRoundTrip |
| custom_components/worlty/time.py:60-74 | every text state goes to `_parse_special_time`, so the `HH:MM` branch is unreachable for text | the gateway reports `07:30`; it reads as no time | parse `HH:MM` when the keyword parser does not match | high (not executed) | TimeEntity.ClockTextUnreadable | TimeEntity.ClockTextReads |
| custom_components/worlty/time.py:112-115 | `time.strftime("%H:%M", value)` calls the method through the class `datetime.time` with the format text as the instance, which raises `TypeError` | setting any time, such as 07:30 | `value.strftime("%H:%M")` | high (not executed) | TimeEntity.SetValueRaises | TimeEntity.WrittenTimeRoundTrip |
| custom_components/worlty/worlty.py:699-718 | the entity's id uses `entity_info.get("pk")`, `None` when absent, while the synchroniser files the record under `device.get("pk", 0)` | a child `{"cid": "ch1"}` without `pk` under device 7: `7_None:ch1` against `7_0:ch1` | read `pk` with the default 0 | low (not executed) | Entities.PklessIdMismatch | Entities.EntityIdIsRecordId |
| custom_components/climate.py:173-178 | `off` is listed first and again for bit 0 of `sm` | `sm = 1` gives `[off, off]` | list `off` once | medium (not executed) | Climate.OffListedTwice | Climate.HvacModesSpec |
| custom_components/worlty.py:284-305 | strict `buffer.decode()` with only `JSONDecodeError` caught | `"한"` read as `22 ED 95` then `9C 22` raises `UnicodeDecodeError` | treat an undecodable buffer as incomplete, like a JSON error | medium (not executed) | Framer.LegacySplitCharacterRaises | Framer.PatientSplitCharacter |

The climate entity's `Update` keeps the hvac list exactly as the loop builds it, `off` twice for bit 0 included; the corrected list is `HvacModes`, whose property `HvacModesSpec` states. The time entity's writer is modelled as written (`SetValueAsWritten`, which never produces a command) next to the corrected `SetValue`; entities are built with the corrected `EntityOf`, and `EntityOfAsWritten` agrees with it whenever the record has an integer `pk`.

=== FILE: auth.dfy ===
/** The authentication handshake: connect if needed, read the gateway's
    greeting, answer `auth_required` with the access token, and classify
    the gateway's reply. The two messages are the documents `subscribe`
    returned (see module `Framer`). */
module Auth {
  import opened Values
  import opened Protocol

  /** Which client runs the handshake. The older one sends no `platform`
      field and rebuilds the gateway identity on every run with an entry. */
  datatype Variant = Current | Legacy

  /** The pair `auth` returns. `Authenticated` is `(True, None)`,
      `AuthenticatedWith(data)` is `(True, data)` for a run without a config
      entry, the rest are `(False, reason)`. `Raised`: a reply that is not a
      JSON object, on which `.get` raises. */
  datatype Outcome =
    | Authenticated
    | AuthenticatedWith(data: Value)
    | CannotConnect
    | Unreachable
    | InvalidAccessToken
    | Raised

  /** `connected`: the socket is open. `entryBound`: `self._entry` is set. */
  datatype Client = Client(connected: bool, entryBound: bool)

  /** The outcome, the messages published, whether the socket was closed,
      and the `data` the gateway identity was rebuilt from on this run. */
  datatype AuthRun = AuthRun(outcome: Outcome, client: Client, sent: seq<Outgoing>, terminated: bool, identity: Option<Value>)

  predicate Succeeded(o: Outcome)
  {
    o.Authenticated? || o.AuthenticatedWith?
  }

  /** `message.get("data", {})`. */
  function DataOf(m: Record): Value
  {
    if "data" in m then m["data"] else Obj(map[])
  }

  /** The greeting is refused: an error marker, or no `type`. */
  predicate Refused(m: Record)
  {
    Truthy(Get(m, "error")) || Get(m, "type") == Null
  }

  function AuthMessage(v: Variant, token: string): Outgoing
  {
    Auth(token, if v == Current then Some("ha") else None)
  }

  /** `auth(entry)`. `connectOk` is what `_connect` would return; `first`
      and `second` are the two documents read; `entry` says whether a
      config entry was passed. */
  function Authenticate(v: Variant, c: Client, connectOk: bool, first: Value, second: Value,
                        token: string, entry: bool): AuthRun
  {
    if !c.connected && !connectOk then AuthRun(CannotConnect, c, [], false, None)
    else
      var c1 := c.(connected := true);
      if !first.Obj? then AuthRun(Raised, c1, [], false, None)
      else if Refused(first.fields) then AuthRun(Unreachable, c1, [], true, None)
      else
        var sent := if Get(first.fields, "type") == Str("auth_required") then [AuthMessage(v, token)] else [];
        if !second.Obj? then AuthRun(Raised, c1, sent, false, None)
        else if Truthy(Get(second.fields, "error")) then AuthRun(Unreachable, c1, sent, false, None)
        else if Get(second.fields, "type") != Str("authenticated") then AuthRun(InvalidAccessToken, c1, sent, false, None)
        else
          var data := DataOf(second.fields);
          if !entry then AuthRun(AuthenticatedWith(data), c1, sent, false, None)
          else if v == Current && c.entryBound then AuthRun(Authenticated, c1, sent, false, None)
          else AuthRun(Authenticated, c1.(entryBound := true), sent, false, Some(data))
  }

  /** The socket is usable for the handshake. */
  predicate Connects(c: Client, connectOk: bool)
  {
    c.connected || connectOk
  }

  /** The greeting was an object the client accepted. */
  predicate Greeted(first: Value)
  {
    first.Obj? && !Refused(first.fields)
  }

  /** The reply was an object without an error marker. */
  predicate Answered(second: Value)
  {
    second.Obj? && !Truthy(Get(second.fields, "error"))
  }

  /** Each outcome, and exactly when it occurs. */
  lemma AuthOutcomes(v: Variant, c: Client, connectOk: bool, first: Value, second: Value, token: string, entry: bool)
    ensures var r := Authenticate(v, c, connectOk, first, second, token, entry);
      && (r.outcome == CannotConnect <==> !Connects(c, connectOk))
      && (r.outcome == Unreachable <==>
            Connects(c, connectOk) && first.Obj?
            && (Refused(first.fields) || (second.Obj? && Truthy(Get(second.fields, "error")))))
      && (r.outcome == InvalidAccessToken <==>
            Connects(c, connectOk) && Greeted(first) && Answered(second)
            && Get(second.fields, "type") != Str("authenticated"))
      && (Succeeded(r.outcome) <==>
            Connects(c, connectOk) && Greeted(first) && Answered(second)
            && Get(second.fields, "type") == Str("authenticated"))
      && (r.outcome.AuthenticatedWith? <==> Succeeded(r.outcome) && !entry)
      && (r.outcome.AuthenticatedWith? ==> r.outcome.data == DataOf(second.fields))
  {
  }

  /** The token is sent once, exactly when the greeting asked for it; the
      socket is closed only when the greeting is refused; the client is
      connected after every run that got past connecting. */
  lemma AuthEffects(v: Variant, c: Client, connectOk: bool, first: Value, second: Value, token: string, entry: bool)
    ensures var r := Authenticate(v, c, connectOk, first, second, token, entry);
      && (r.sent != [] <==> Connects(c, connectOk) && Greeted(first) && Get(first.fields, "type") == Str("auth_required"))
      && (r.sent != [] ==> r.sent == [AuthMessage(v, token)])
      && (r.terminated <==> Connects(c, connectOk) && first.Obj? && Refused(first.fields))
      && (r.client.connected <==> Connects(c, connectOk))
  {
  }

  /** The newer client builds the gateway identity from the reply's `data`
      only on the first successful run with an entry; the older one on
      every successful run with an entry. Either way the entry is bound
      afterwards, and a failed run changes nothing but the connection. */
  lemma AuthBindsIdentity(v: Variant, c: Client, connectOk: bool, first: Value, second: Value, token: string, entry: bool)
    ensures var r := Authenticate(v, c, connectOk, first, second, token, entry);
      && (r.identity.Some? <==> Succeeded(r.outcome) && entry && (v == Legacy || !c.entryBound))
      && (r.identity.Some? ==> r.identity.value == DataOf(second.fields))
      && (r.client.entryBound <==> c.entryBound || (Succeeded(r.outcome) && entry))
  {
  }

  /** The usual exchange: greeting `auth_required`, reply `authenticated`. */
  lemma TokenExchange(token: string)
    ensures var r := Authenticate(Current, Client(false, false), true,
                                  Obj(map["type" := Str("auth_required")]),
                                  Obj(map["type" := Str("authenticated"), "data" := Obj(map[])]),
                                  token, true);
      r.outcome == Authenticated && r.sent == [Auth(token, Some("ha"))]
      && r.identity == Some(Obj(map[])) && r.client == Client(true, true)
  {
    var first: Record := map["type" := Str("auth_required")];
    var second: Record := map["type" := Str("authenticated"), "data" := Obj(map[])];
    assert Get(first, "type") == Str("auth_required");
    assert !Truthy(Get(first, "error"));
    assert !Truthy(Get(second, "error"));
    assert Get(second, "type") == Str("authenticated");
  }
}

=== FILE: climate.dfy ===
/** The climate entity of the older integration: the mode tables, the
    capability bitmasks `sm`/`sf`/`ssw` decoded into mode lists and feature
    flags, the state readers over `stt`/`m`/`a`/`f`/`sw`, and the keyword
    arguments each control passes to `set_device` (`None`: nothing sent). */
module Climate {
  import opened Values
  import opened ModeTables

  const HvacTable: Table := [(0, "off"), (1, "heat"), (2, "cool"), (3, "auto"), (4, "dry"), (5, "fan_only")]
  const FanTable: Table := [(0, "off"), (1, "on"), (2, "auto"), (3, "low"), (4, "medium"), (5, "high"),
                            (6, "focus"), (7, "diffuse"), (8, "natural"), (9, "weak"), (10, "turbo")]
  const PresetTable: Table := [(6, "away"), (7, "eco"), (8, "sleep"), (9, "boost")]
  const ActionTable: Table := [(0, "off"), (1, "heating"), (2, "cooling"), (4, "drying"), (5, "fan"), (10, "idle")]

  lemma HvacTableWellFormed() ensures Ascending(HvacTable) && Injective(HvacTable) {}
  lemma FanTableAscending() ensures Ascending(FanTable) {}
  lemma FanTableInjective() ensures Injective(FanTable) {}
  lemma PresetTableWellFormed() ensures Ascending(PresetTable) && Injective(PresetTable) {}
  lemma ActionTableAscending() ensures Ascending(ActionTable) {}

  lemma TablesWellFormed()
    ensures Ascending(HvacTable) && Injective(HvacTable)
    ensures Ascending(FanTable) && Injective(FanTable)
    ensures Ascending(PresetTable) && Injective(PresetTable)
    ensures Ascending(SwingTable) && Injective(SwingTable)
    ensures Ascending(ActionTable)
  {
    HvacTableWellFormed();
    FanTableAscending();
    FanTableInjective();
    PresetTableWellFormed();
    SwingTableWellFormed();
    ActionTableAscending();
  }

  datatype Feature = TargetTemperature | TargetHumidity | FanModes | PresetModes | SwingModes | TurnOff | TurnOn

  datatype Capabilities = Capabilities(
    hvacModes: seq<string>,
    presetModes: seq<string>,
    fanModes: seq<string>,
    swingModes: seq<string>,
    features: set<Feature>)

  /** `_hvac_modes` as the loop builds it: `off` first, then every mode
      whose bit is set, including `off` itself when bit 0 is set. */
  function HvacModesAsWritten(sm: int): seq<string>
  {
    ["off"] + Decode(HvacTable, sm)
  }

  /** `_hvac_modes` with `off` listed once: the modes of keys 1 to 5. */
  function HvacModes(sm: int): seq<string>
  {
    ["off"] + Decode(HvacTable[1..], sm)
  }

  /** The feature set `_update_entity` computes from the attributes and
      the three decoded lists. */
  function FeaturesOf(a: Record, presets: seq<string>, fans: seq<string>, swings: seq<string>): set<Feature>
  {
    set f | f in AllFeatures && Offered(a, presets, fans, swings, f)
  }

  const AllFeatures: set<Feature> := {TargetTemperature, TargetHumidity, FanModes, PresetModes, SwingModes, TurnOff, TurnOn}

  /** The test `_update_entity` applies for each flag. */
  predicate Offered(a: Record, presets: seq<string>, fans: seq<string>, swings: seq<string>, f: Feature)
  {
    match f
    case TurnOn => true
    case TurnOff => true
    case TargetTemperature => Get(a, "tt") != Null || Get(a, "tc") != Null
    case TargetHumidity => Get(a, "ht") != Null || Get(a, "hc") != Null
    case PresetModes => |presets| > 1
    case FanModes => |fans| > 0
    case SwingModes => |swings| > 0
  }

  /** `_update_entity`. `None` when one of the masks is not an integer and
      `&` raises. */
  function Update(a: Record): Option<Capabilities>
  {
    var sm := MaskOf(a, "sm");
    var sf := MaskOf(a, "sf");
    var ssw := MaskOf(a, "ssw");
    if sm.None? || sf.None? || ssw.None? then None
    else
      var presets := ["none"] + Decode(PresetTable, sm.value);
      var fans := Decode(FanTable, sf.value);
      var swings := Decode(SwingTable, ssw.value);
      Some(Capabilities(HvacModesAsWritten(sm.value), presets, fans, swings, FeaturesOf(a, presets, fans, swings)))
  }

  /** `hvac_action`: `None` without an `a` attribute; the table is only
      consulted while the device is on. */
  function HvacAction(a: Record): Reading<string>
  {
    var action := Get(a, "a");
    if action == Null then Nothing
    else if Truthy(Get(a, "stt")) then TableGet(ActionTable, action, "idle")
    else Reads("off")
  }

  /** `hvac_mode`: the table is only consulted while the device is on. */
  function HvacMode(a: Record): Reading<string>
  {
    if Truthy(Get(a, "stt")) then TableGet(HvacTable, Get(a, "m"), "off") else Reads("off")
  }

  /** `preset_mode`. */
  function PresetMode(a: Record): Reading<string>
  {
    TableGet(PresetTable, Get(a, "m"), "none")
  }

  /** `fan_mode`. */
  function FanMode(a: Record): Reading<string>
  {
    TableGet(FanTable, Get(a, "f"), "off")
  }

  /** `swing_mode`. */
  function SwingMode(a: Record): Reading<string>
  {
    TableGet(SwingTable, Get(a, "sw"), "off")
  }

  function TurnOnCommand(): Record { map["stt" := Bool(true)] }

  function TurnOffCommand(): Record { map["stt" := Bool(false)] }

  /** `async_toggle`, from the last `stt` the entity saw. */
  function ToggleCommand(lastState: Value): Record
  {
    map["stt" := Bool(!Truthy(lastState))]
  }

  /** `async_set_hvac_mode`. */
  function SetHvacMode(mode: string): Record
  {
    if mode == "off" then TurnOffCommand()
    else map["stt" := Bool(true), "m" := KeyValue(ToKey(HvacTable, mode))]
  }

  /** `async_set_preset_mode`: `away` writes its own key, `none` writes
      the heating mode, any other preset sends nothing. */
  function SetPresetMode(preset: string): Option<Record>
  {
    var m := if preset == "away" then ToKey(PresetTable, "away")
             else if preset == "none" then ToKey(HvacTable, "heat")
             else None;
    if m.None? then None else Some(map["stt" := Bool(true), "m" := Int(m.value)])
  }

  /** `async_set_fan_mode`: nothing is sent while the mode is `auto`, nor
      when reading the mode raises. */
  function SetFanMode(a: Record, fan: string): Option<Record>
  {
    if HvacMode(a) == Reads("auto") || HvacMode(a).Raises? then None
    else Some(map["stt" := Bool(true), "f" := KeyValue(ToKey(FanTable, fan))])
  }

  /** `async_set_swing_mode`. */
  function SetSwingMode(swing: string): Record
  {
    map["stt" := Bool(true), "sw" := KeyValue(ToKey(SwingTable, swing))]
  }

  /** `async_set_temperature`: nothing is sent in `fan_only`, nor when
      reading the mode raises. */
  function SetTemperature(a: Record, kwargs: Record): Option<Record>
  {
    if HvacMode(a) == Reads("fan_only") || HvacMode(a).Raises? then None
    else Some(map["stt" := Bool(true), "tt" := Get(kwargs, "temperature")])
  }

  /** `async_set_humidity`: nothing is sent in `fan_only`, nor when
      reading the mode raises. */
  function SetHumidity(a: Record, humidity: Value): Option<Record>
  {
    if HvacMode(a) == Reads("fan_only") || HvacMode(a).Raises? then None
    else Some(map["stt" := Bool(true), "ht" := humidity])
  }

  // ---------------------------------------------------------------------
  // Properties
  // ---------------------------------------------------------------------

  /** Every mode name maps back to its key, and a name outside a table has
      no key. */
  lemma ToKeyInvertsTables(k: int)
    ensures Lookup(HvacTable, k).Some? ==> ToKey(HvacTable, Lookup(HvacTable, k).value) == Some(k)
    ensures Lookup(FanTable, k).Some? ==> ToKey(FanTable, Lookup(FanTable, k).value) == Some(k)
    ensures Lookup(PresetTable, k).Some? ==> ToKey(PresetTable, Lookup(PresetTable, k).value) == Some(k)
    ensures Lookup(SwingTable, k).Some? ==> ToKey(SwingTable, Lookup(SwingTable, k).value) == Some(k)
  {
    TablesWellFormed();
    InvertsAt(HvacTable, k);
    InvertsAt(FanTable, k);
    InvertsAt(PresetTable, k);
    InvertsAt(SwingTable, k);
  }

  /** With bit 0 of `sm` set, the loop as written lists `off` twice. */
  lemma OffListedTwice(sm: int)
    requires BitSet(sm, 0)
    ensures HvacModesAsWritten(sm)[0] == "off" && HvacModesAsWritten(sm)[1] == "off"
  {
    assert HvacTable[0] == (0, "off");
  }

  /** The corrected list holds `off` first and then exactly the other modes
      whose bit is set, each once, in key order. */
  lemma HvacModesSpec(sm: int)
    ensures HvacModes(sm)[0] == "off"
    ensures forall name :: name in HvacModes(sm)[1..] <==>
      name != "off" && ToKey(HvacTable, name).Some? && BitSet(sm, ToKey(HvacTable, name).value)
    ensures forall i, j :: 0 <= i < j < |HvacModes(sm)| ==> HvacModes(sm)[i] != HvacModes(sm)[j]
  {
    TablesWellFormed();
    var tail := HvacTable[1..];
    TailKeeps(HvacTable);
    DecodeSpec(tail, sm);
    DecodeDistinct(tail, sm);
    HeadNotInTail(HvacTable, sm);
    assert HvacModes(sm)[1..] == Decode(tail, sm);
    forall name | name != "off"
      ensures ToKey(HvacTable, name) == ToKey(tail, name)
    {
    }
    assert ToKey(tail, "off").None? by {
      ToKeyExact(tail, "off");
    }
    var d := HvacModes(sm);
    forall i, j | 0 <= i < j < |d|
      ensures d[i] != d[j]
    {
      assert d[j] == Decode(tail, sm)[j - 1];
      if i > 0 {
        assert d[i] == Decode(tail, sm)[i - 1];
      }
    }
  }

  /** The mode lists as the loop builds them: the hvac list is `off`
      followed by exactly the names whose bit is set (`off` included when
      bit 0 is), the preset list is `none` followed by exactly the presets
      whose bit is set, and every list is in key order. */
  lemma UpdateModeLists(a: Record)
    ensures Update(a).None? <==> MaskOf(a, "sm").None? || MaskOf(a, "sf").None? || MaskOf(a, "ssw").None?
    ensures Update(a).Some? ==>
      var c := Update(a).value;
      var sm, sf, ssw := MaskOf(a, "sm").value, MaskOf(a, "sf").value, MaskOf(a, "ssw").value;
      && c.hvacModes[0] == "off"
      && (forall name :: name in c.hvacModes[1..] <==>
            ToKey(HvacTable, name).Some? && BitSet(sm, ToKey(HvacTable, name).value))
      && KeysAscend(HvacTable, c.hvacModes[1..])
      && c.presetModes[0] == "none"
      && (forall name :: name in c.presetModes[1..] <==>
            ToKey(PresetTable, name).Some? && BitSet(sm, ToKey(PresetTable, name).value))
      && KeysAscend(PresetTable, c.presetModes[1..])
      && (forall name :: name in c.fanModes <==>
            ToKey(FanTable, name).Some? && BitSet(sf, ToKey(FanTable, name).value))
      && KeysAscend(FanTable, c.fanModes)
      && (forall name :: name in c.swingModes <==>
            ToKey(SwingTable, name).Some? && BitSet(ssw, ToKey(SwingTable, name).value))
      && KeysAscend(SwingTable, c.swingModes)
  {
    if Update(a).Some? {
      TablesWellFormed();
      var sm, sf, ssw := MaskOf(a, "sm").value, MaskOf(a, "sf").value, MaskOf(a, "ssw").value;
      DecodeSpec(HvacTable, sm);
      DecodeSpec(PresetTable, sm);
      DecodeSpec(FanTable, sf);
      DecodeSpec(SwingTable, ssw);
      assert Update(a).value.hvacModes[1..] == Decode(HvacTable, sm);
      assert Update(a).value.presetModes[1..] == Decode(PresetTable, sm);
    }
  }

  lemma PresetKeysFromSix() ensures forall i :: 0 <= i < |PresetTable| ==> PresetTable[i].0 == 6 + i {}
  lemma FanKeysFromZero() ensures forall i :: 0 <= i < |FanTable| ==> FanTable[i].0 == i {}

  lemma PresetsOffered(mask: int)
    ensures |Decode(PresetTable, mask)| > 0 <==> exists k :: 6 <= k < 10 && BitSet(mask, k)
  {
    PresetKeysFromSix();
    ModeFeature(PresetTable, 6, mask);
  }

  lemma FansOffered(mask: int)
    ensures |Decode(FanTable, mask)| > 0 <==> exists k :: 0 <= k < 11 && BitSet(mask, k)
  {
    FanKeysFromZero();
    ModeFeature(FanTable, 0, mask);
  }

  /** Turning on and off are always offered; temperature and humidity
      targets exactly when the entity reports a target or a reading. */
  lemma UpdateFeatures(a: Record)
    requires MaskOf(a, "sm").Some? && MaskOf(a, "sf").Some? && MaskOf(a, "ssw").Some?
    ensures TurnOn in Update(a).value.features && TurnOff in Update(a).value.features
    ensures TargetTemperature in Update(a).value.features <==> Get(a, "tt") != Null || Get(a, "tc") != Null
    ensures TargetHumidity in Update(a).value.features <==> Get(a, "ht") != Null || Get(a, "hc") != Null
  {
    var c := Update(a).value;
    UpdateParts(a);
    FixedMembers(a, c.presetModes, c.fanModes, c.swingModes);
  }

  /** The lists and flags `Update` computes, in terms of the masks. */
  lemma UpdateParts(a: Record)
    requires MaskOf(a, "sm").Some? && MaskOf(a, "sf").Some? && MaskOf(a, "ssw").Some?
    ensures var c := Update(a).value;
      && c.presetModes == ["none"] + Decode(PresetTable, MaskOf(a, "sm").value)
      && c.fanModes == Decode(FanTable, MaskOf(a, "sf").value)
      && c.swingModes == Decode(SwingTable, MaskOf(a, "ssw").value)
      && c.features == FeaturesOf(a, c.presetModes, c.fanModes, c.swingModes)
  {
  }

  lemma OfferedMembers(a: Record, presets: seq<string>, fans: seq<string>, swings: seq<string>)
    ensures PresetModes in FeaturesOf(a, presets, fans, swings) <==> |presets| > 1
    ensures FanModes in FeaturesOf(a, presets, fans, swings) <==> |fans| > 0
    ensures SwingModes in FeaturesOf(a, presets, fans, swings) <==> |swings| > 0
  {
  }

  lemma FixedMembers(a: Record, presets: seq<string>, fans: seq<string>, swings: seq<string>)
    ensures TurnOn in FeaturesOf(a, presets, fans, swings) && TurnOff in FeaturesOf(a, presets, fans, swings)
    ensures TargetTemperature in FeaturesOf(a, presets, fans, swings) <==> Get(a, "tt") != Null || Get(a, "tc") != Null
    ensures TargetHumidity in FeaturesOf(a, presets, fans, swings) <==> Get(a, "ht") != Null || Get(a, "hc") != Null
  {
  }

  /** Preset control is offered exactly when one of bits 6 to 9 of `sm`
      is set. */
  lemma PresetFeature(a: Record)
    requires MaskOf(a, "sm").Some? && MaskOf(a, "sf").Some? && MaskOf(a, "ssw").Some?
    ensures PresetModes in Update(a).value.features <==> exists k :: 6 <= k < 10 && BitSet(MaskOf(a, "sm").value, k)
  {
    var c := Update(a).value;
    UpdateParts(a);
    OfferedMembers(a, c.presetModes, c.fanModes, c.swingModes);
    PresetsOffered(MaskOf(a, "sm").value);
  }

  /** Fan control is offered exactly when one of bits 0 to 10 of `sf` is
      set. */
  lemma FanFeature(a: Record)
    requires MaskOf(a, "sm").Some? && MaskOf(a, "sf").Some? && MaskOf(a, "ssw").Some?
    ensures FanModes in Update(a).value.features <==> exists k :: 0 <= k < 11 && BitSet(MaskOf(a, "sf").value, k)
  {
    var c := Update(a).value;
    UpdateParts(a);
    OfferedMembers(a, c.presetModes, c.fanModes, c.swingModes);
    FansOffered(MaskOf(a, "sf").value);
  }

  /** Swing control is offered exactly when one of bits 0 to 4 of `ssw` is
      set. */
  lemma SwingFeature(a: Record)
    requires MaskOf(a, "sm").Some? && MaskOf(a, "sf").Some? && MaskOf(a, "ssw").Some?
    ensures SwingModes in Update(a).value.features <==> exists k :: 0 <= k < 5 && BitSet(MaskOf(a, "ssw").value, k)
  {
    var c := Update(a).value;
    UpdateParts(a);
    OfferedMembers(a, c.presetModes, c.fanModes, c.swingModes);
    SwingsOffered(MaskOf(a, "ssw").value);
  }

  /** The action is `None` exactly without an `a` attribute, raises
      exactly for a list or object action while the device is on, reads
      `off` exactly when the device is off or reports action 0, and `idle`
      for any other action outside the table. */
  lemma HvacActionSpec(a: Record)
    ensures HvacAction(a) == Nothing <==> Get(a, "a") == Null
    ensures HvacAction(a).Raises? <==> Truthy(Get(a, "stt")) && (Get(a, "a").List? || Get(a, "a").Obj?)
    ensures HvacAction(a) == Reads("off") <==>
      Get(a, "a") != Null && (!Truthy(Get(a, "stt")) || Get(a, "a") == Int(0))
    ensures var action := Get(a, "a");
      action != Null && Truthy(Get(a, "stt")) && !(action.List? || action.Obj?) && LookupValue(ActionTable, action).None? ==>
        HvacAction(a) == Reads("idle")
  {
    TablesWellFormed();
    var action := Get(a, "a");
    if action.Int? && Truthy(Get(a, "stt")) && LookupValue(ActionTable, action) == Some("off") {
      LookupMisses(ActionTable, action.i);
      var i :| 0 <= i < |ActionTable| && ActionTable[i] == (action.i, "off");
    }
  }

  /** The mode reads `off` whenever the device is off; while it is on, a
      list or object `m` raises and any other value reads as the mode its
      key names, `off` outside the table. */
  lemma HvacModeSpec(a: Record)
    ensures HvacMode(a).Raises? <==> Truthy(Get(a, "stt")) && (Get(a, "m").List? || Get(a, "m").Obj?)
    ensures HvacMode(a) != Nothing
    ensures !Truthy(Get(a, "stt")) ==> HvacMode(a) == Reads("off")
    ensures HvacMode(a).Reads? && HvacMode(a).v != "off" ==>
      Get(a, "m").Int? && Lookup(HvacTable, Get(a, "m").i) == Some(HvacMode(a).v)
    ensures HvacMode(a).Reads? ==> ToKey(HvacTable, HvacMode(a).v).Some?
  {
    var m := Get(a, "m");
    if Truthy(Get(a, "stt")) && LookupValue(HvacTable, m).Some? {
      TablesWellFormed();
      LookupMisses(HvacTable, m.i);
      var i :| 0 <= i < |HvacTable| && HvacTable[i] == (m.i, HvacMode(a).v);
      ToKeyInverts(HvacTable, i);
    }
  }

  /** Setting a mode of the table and reading back the attributes the
      gateway reports after applying the command gives that mode; `off`
      sends `stt` alone. */
  lemma SetHvacModeRoundTrip(a: Record, mode: string)
    requires ToKey(HvacTable, mode).Some?
    ensures HvacMode(a + SetHvacMode(mode)) == Reads(mode)
    ensures mode == "off" <==> SetHvacMode(mode).Keys == {"stt"}
  {
    TablesWellFormed();
    if mode != "off" {
      ToKeyThenLookup(HvacTable, mode);
      assert "m" in SetHvacMode(mode);
    } else {
      assert SetHvacMode(mode).Keys == {"stt"};
    }
  }

  /** Only `away` and `none` send anything, and each reads back as itself. */
  lemma SetPresetModeRoundTrip(a: Record, preset: string)
    ensures SetPresetMode(preset).Some? <==> preset == "away" || preset == "none"
    ensures SetPresetMode(preset).Some? ==> PresetMode(a + SetPresetMode(preset).value) == Reads(preset)
  {
  }

  /** A fan mode is sent unless the climate runs in `auto` or reading its
      mode raises, and a mode of the table reads back as itself. */
  lemma SetFanModeRoundTrip(a: Record, fan: string)
    ensures SetFanMode(a, fan).None? <==> HvacMode(a) == Reads("auto") || HvacMode(a).Raises?
    ensures SetFanMode(a, fan).Some? && ToKey(FanTable, fan).Some? ==>
      FanMode(a + SetFanMode(a, fan).value) == Reads(fan)
  {
    if SetFanMode(a, fan).Some? && ToKey(FanTable, fan).Some? {
      TablesWellFormed();
      ToKeyThenLookup(FanTable, fan);
      assert "f" in SetFanMode(a, fan).value;
    }
  }

  lemma SetSwingModeRoundTrip(a: Record, swing: string)
    requires ToKey(SwingTable, swing).Some?
    ensures SwingMode(a + SetSwingMode(swing)) == Reads(swing)
    ensures Truthy(Get(a + SetSwingMode(swing), "stt"))
  {
    TablesWellFormed();
    ToKeyThenLookup(SwingTable, swing);
    assert "sw" in SetSwingMode(swing);
  }

  /** Turning on, off and toggling set the state the reader sees. */
  lemma PowerCommands(a: Record, lastState: Value)
    ensures Truthy(Get(a + TurnOnCommand(), "stt"))
    ensures HvacMode(a + TurnOffCommand()) == Reads("off")
    ensures Truthy(Get(a + ToggleCommand(lastState), "stt")) <==> !Truthy(lastState)
  {
  }

  /** Temperature and humidity writes are dropped exactly in `fan_only`
      or when reading the mode raises; otherwise they switch the device on
      and carry the requested value. */
  lemma SetTargets(a: Record, kwargs: Record, humidity: Value)
    ensures SetTemperature(a, kwargs).None? <==> HvacMode(a) == Reads("fan_only") || HvacMode(a).Raises?
    ensures SetHumidity(a, humidity).None? <==> HvacMode(a) == Reads("fan_only") || HvacMode(a).Raises?
    ensures SetTemperature(a, kwargs).Some? ==>
      Get(a + SetTemperature(a, kwargs).value, "tt") == Get(kwargs, "temperature")
    ensures SetHumidity(a, humidity).Some? ==>
      Get(a + SetHumidity(a, humidity).value, "ht") == humidity
  {
    if SetTemperature(a, kwargs).Some? {
      assert "tt" in SetTemperature(a, kwargs).value;
    }
    if SetHumidity(a, humidity).Some? {
      assert "ht" in SetHumidity(a, humidity).value;
    }
  }
}

=== FILE: const.dfy ===
/** The integration's classification tables: Worlty type codes, the
    type/class to platform mapping, the type/class to entity description
    table and the per-language display lookups. */
module Const {
  import opened Values

  /** The Worlty device type codes. */
  datatype WorltyType =
    | BinarySensorType
    | SensorType
    | LightType
    | SwitchType
    | EventType
    | FanType
    | InputType
    | ClimateType
    | CoverType
  {
    /** The integer code the gateway sends in a record's `type`. */
    function Code(): int
    {
      match this
      case BinarySensorType => 1
      case SensorType => 2
      case LightType => 3
      case SwitchType => 4
      case EventType => 5
      case FanType => 6
      case InputType => 7
      case ClimateType => 8
      case CoverType => 9
    }
  }

  /** The Worlty type with a given code, if any. */
  function TypeOfCode(n: int): (r: Option<WorltyType>)
    ensures r.Some? ==> r.value.Code() == n
    ensures r.Some? <==> 1 <= n <= 9
  {
    match n
    case 1 => Some(BinarySensorType)
    case 2 => Some(SensorType)
    case 3 => Some(LightType)
    case 4 => Some(SwitchType)
    case 5 => Some(EventType)
    case 6 => Some(FanType)
    case 7 => Some(InputType)
    case 8 => Some(ClimateType)
    case 9 => Some(CoverType)
    case _ => None
  }

  /** The type codes are pairwise distinct and are exactly 1..9. */
  lemma TypeCodesAreOneToNine()
    ensures forall t: WorltyType, u: WorltyType :: t.Code() == u.Code() ==> t == u
    ensures forall t: WorltyType :: 1 <= t.Code() <= 9 && TypeOfCode(t.Code()) == Some(t)
  {
  }

  /** Home Assistant platforms the integration forwards entities to. */
  datatype Platform =
    | BinarySensor
    | Climate
    | Cover
    | Fan
    | Light
    | Sensor
    | Switch
    | WaterHeater
    | Number
    | Time
    | Date

  /** The platform a record of this type and class is exposed on;
      `Nothing` for a type with no platform (INPUT, or any unknown code),
      and `Raises` for a list or object type, which `mapping.get` cannot
      hash. The class is only compared, so it never raises. */
  function PlatformOf(worltyType: Value, worltyClass: Value): (r: Reading<Platform>)
    ensures r.Raises? <==> Unhashable(worltyType)
    ensures worltyType == Int(ClimateType.Code()) ==>
              r == (if worltyClass == Int(1) then Reads(WaterHeater) else Reads(Climate))
    ensures worltyType == Int(EventType.Code()) || worltyType == Int(SensorType.Code()) ==> r == Reads(Sensor)
    ensures r.Nothing? <==>
              !Unhashable(worltyType) && !(worltyType.Int? && 1 <= worltyType.i <= 9 && worltyType.i != InputType.Code())
  {
    var mapping: map<int, Platform> := map[
      BinarySensorType.Code() := BinarySensor,
      ClimateType.Code() := Climate,
      CoverType.Code() := Cover,
      EventType.Code() := Sensor,
      FanType.Code() := Fan,
      LightType.Code() := Light,
      SensorType.Code() := Sensor,
      SwitchType.Code() := Switch
    ];
    if Unhashable(worltyType) then Raises
    else
      var haType := if worltyType.Int? && worltyType.i in mapping then Reads(mapping[worltyType.i]) else Nothing;
      if worltyType == Int(ClimateType.Code()) && worltyClass == Int(1) then Reads(WaterHeater) else haType
  }

  /** A description key: a literal translation key, or the value of a
      Home Assistant enum member named by its qualified name. */
  datatype KeyText = Literal(text: string) | EnumValue(member: string)

  /** The (key, device class, icon, unit) tuple of a known entity
      description. Device classes and units name Home Assistant constants.
      The all-`None` tuple of an unknown type or class is `None` here. */
  datatype Description = Description(
    key: KeyText,
    deviceClass: Option<string>,
    icon: Option<string>,
    unit: Option<string>)

  /** Descriptions of type 1 (BINARY_SENSOR), by class. */
  const BinarySensorDescriptions: map<int, Description> :=
    map[
      0 := Description(Literal("binary_sensor"), None, None, None),
      1 := Description(EnumValue("BinarySensorDeviceClass.BATTERY"), Some("BinarySensorDeviceClass.BATTERY"), None, None),
      2 := Description(EnumValue("BinarySensorDeviceClass.BATTERY_CHARGING"), Some("BinarySensorDeviceClass.BATTERY_CHARGING"), None, None),
      3 := Description(EnumValue("BinarySensorDeviceClass.CO"), Some("BinarySensorDeviceClass.CO"), None, None),
      4 := Description(EnumValue("BinarySensorDeviceClass.COLD"), Some("BinarySensorDeviceClass.COLD"), None, None),
      5 := Description(EnumValue("BinarySensorDeviceClass.CONNECTIVITY"), Some("BinarySensorDeviceClass.CONNECTIVITY"), None, None),
      6 := Description(EnumValue("BinarySensorDeviceClass.DOOR"), Some("BinarySensorDeviceClass.DOOR"), None, None),
      7 := Description(Literal("error"), Some("BinarySensorDeviceClass.PROBLEM"), None, None),
      8 := Description(Literal("filter"), Some("BinarySensorDeviceClass.PROBLEM"), None, None),
      9 := Description(Literal("fire"), Some("BinarySensorDeviceClass.SAFETY"), None, None),
      10 := Description(EnumValue("BinarySensorDeviceClass.GARAGE_DOOR"), Some("BinarySensorDeviceClass.GARAGE_DOOR"), None, None),
      11 := Description(EnumValue("BinarySensorDeviceClass.GAS"), Some("BinarySensorDeviceClass.GAS"), None, None),
      12 := Description(EnumValue("BinarySensorDeviceClass.HEAT"), Some("BinarySensorDeviceClass.HEAT"), None, None),
      13 := Description(EnumValue("BinarySensorDeviceClass.LIGHT"), Some("BinarySensorDeviceClass.LIGHT"), None, None),
      14 := Description(EnumValue("BinarySensorDeviceClass.LOCK"), Some("BinarySensorDeviceClass.LOCK"), None, None),
      15 := Description(EnumValue("BinarySensorDeviceClass.MOISTURE"), Some("BinarySensorDeviceClass.MOISTURE"), None, None),
      16 := Description(EnumValue("BinarySensorDeviceClass.MOTION"), Some("BinarySensorDeviceClass.MOTION"), None, None),
      17 := Description(EnumValue("BinarySensorDeviceClass.MOVING"), Some("BinarySensorDeviceClass.MOVING"), None, None),
      18 := Description(EnumValue("BinarySensorDeviceClass.OCCUPANCY"), Some("BinarySensorDeviceClass.OCCUPANCY"), None, None),
      19 := Description(EnumValue("BinarySensorDeviceClass.OPENING"), Some("BinarySensorDeviceClass.OPENING"), None, None),
      20 := Description(EnumValue("BinarySensorDeviceClass.PLUG"), Some("BinarySensorDeviceClass.PLUG"), None, None),
      21 := Description(EnumValue("BinarySensorDeviceClass.POWER"), Some("BinarySensorDeviceClass.POWER"), None, None),
      22 := Description(EnumValue("BinarySensorDeviceClass.PRESENCE"), Some("BinarySensorDeviceClass.PRESENCE"), None, None),
      23 := Description(EnumValue("BinarySensorDeviceClass.PROBLEM"), Some("BinarySensorDeviceClass.PROBLEM"), None, None),
      24 := Description(EnumValue("BinarySensorDeviceClass.RUNNING"), Some("BinarySensorDeviceClass.RUNNING"), None, None),
      25 := Description(EnumValue("BinarySensorDeviceClass.SAFETY"), Some("BinarySensorDeviceClass.SAFETY"), None, None),
      26 := Description(EnumValue("BinarySensorDeviceClass.SMOKE"), Some("BinarySensorDeviceClass.SMOKE"), None, None),
      27 := Description(EnumValue("BinarySensorDeviceClass.SOUND"), Some("BinarySensorDeviceClass.SOUND"), None, None),
      28 := Description(EnumValue("BinarySensorDeviceClass.TAMPER"), Some("BinarySensorDeviceClass.TAMPER"), None, None),
      29 := Description(EnumValue("BinarySensorDeviceClass.UPDATE"), Some("BinarySensorDeviceClass.UPDATE"), None, None),
      30 := Description(EnumValue("BinarySensorDeviceClass.VIBRATION"), Some("BinarySensorDeviceClass.VIBRATION"), None, None),
      31 := Description(EnumValue("BinarySensorDeviceClass.WINDOW"), Some("BinarySensorDeviceClass.WINDOW"), None, None),
      32 := Description(Literal("guard"), Some("BinarySensorDeviceClass.SAFETY"), None, None)
    ]

  /** Descriptions of type 8 (CLIMATE), by class. */
  const ClimateDescriptions: map<int, Description> :=
    map[
      1 := Description(Literal("boiler"), None, None, None),
      2 := Description(Literal("ac"), None, None, None)
    ]

  /** Descriptions of type 5 (EVENT), by class. */
  const EventDescriptions: map<int, Description> :=
    map[
      0 := Description(Literal("event"), None, None, None),
      1 := Description(Literal("event_uss"), None, None, None)
    ]

  /** Descriptions of type 6 (FAN), by class. */
  const FanDescriptions: map<int, Description> :=
    map[
      0 := Description(Literal("fan"), None, None, None),
      1 := Description(Literal("sysclein"), None, None, None),
      2 := Description(Literal("airone"), None, None, None)
    ]

  /** Descriptions of type 3 (LIGHT), by class. */
  const LightDescriptions: map<int, Description> :=
    map[
      0 := Description(Literal("light"), None, None, None),
      1 := Description(Literal("dimming"), None, None, None)
    ]

  /** Descriptions of type 2 (SENSOR), by class. */
  const SensorDescriptions: map<int, Description> :=
    map[
      0 := Description(Literal("sensor"), None, None, None),
      1 := Description(EnumValue("SensorDeviceClass.APPARENT_POWER"), Some("SensorDeviceClass.APPARENT_POWER"), None, Some("UnitOfApparentPower.VOLT_AMPERE")),
      2 := Description(EnumValue("SensorDeviceClass.AQI"), Some("SensorDeviceClass.AQI"), None, None),
      3 := Description(EnumValue("SensorDeviceClass.ATMOSPHERIC_PRESSURE"), Some("SensorDeviceClass.ATMOSPHERIC_PRESSURE"), None, Some("UnitOfPressure.HPA")),
      4 := Description(EnumValue("SensorDeviceClass.BATTERY"), Some("SensorDeviceClass.BATTERY"), None, Some("PERCENTAGE")),
      5 := Description(EnumValue("SensorDeviceClass.CO2"), Some("SensorDeviceClass.CO2"), None, Some("CONCENTRATION_PARTS_PER_MILLION")),
      6 := Description(EnumValue("SensorDeviceClass.CO"), Some("SensorDeviceClass.CO"), None, Some("CONCENTRATION_PARTS_PER_MILLION")),
      7 := Description(EnumValue("SensorDeviceClass.CURRENT"), Some("SensorDeviceClass.CURRENT"), None, None),
      8 := Description(EnumValue("SensorDeviceClass.DATA_RATE"), Some("SensorDeviceClass.DATA_RATE"), None, None),
      9 := Description(EnumValue("SensorDeviceClass.DATA_SIZE"), Some("SensorDeviceClass.DATA_SIZE"), None, None),
      10 := Description(EnumValue("SensorDeviceClass.DATE"), Some("SensorDeviceClass.DATE"), None, None),
      11 := Description(EnumValue("SensorDeviceClass.DISTANCE"), Some("SensorDeviceClass.DISTANCE"), None, None),
      12 := Description(EnumValue("SensorDeviceClass.DURATION"), Some("SensorDeviceClass.DURATION"), None, None),
      13 := Description(EnumValue("SensorDeviceClass.ENERGY"), Some("SensorDeviceClass.ENERGY"), None, Some("UnitOfEnergy.KILO_WATT_HOUR")),
      14 := Description(EnumValue("SensorDeviceClass.ENUM"), Some("SensorDeviceClass.ENUM"), None, None),
      15 := Description(Literal("floor"), None, Some("mdi:elevator"), None),
      16 := Description(EnumValue("SensorDeviceClass.FREQUENCY"), Some("SensorDeviceClass.FREQUENCY"), None, None),
      17 := Description(EnumValue("SensorDeviceClass.GAS"), Some("SensorDeviceClass.GAS"), None, Some("UnitOfVolume.CUBIC_METERS")),
      18 := Description(Literal("heat"), Some("SensorDeviceClass.VOLUME_FLOW_RATE"), None, Some("UnitOfVolumeFlowRate.CUBIC_METERS_PER_HOUR")),
      19 := Description(Literal("hotwater"), Some("SensorDeviceClass.VOLUME_FLOW_RATE"), None, Some("UnitOfVolumeFlowRate.CUBIC_METERS_PER_HOUR")),
      20 := Description(EnumValue("SensorDeviceClass.HUMIDITY"), Some("SensorDeviceClass.HUMIDITY"), None, Some("PERCENTAGE")),
      21 := Description(EnumValue("SensorDeviceClass.ILLUMINANCE"), Some("SensorDeviceClass.ILLUMINANCE"), None, Some("LIGHT_LUX")),
      22 := Description(EnumValue("SensorDeviceClass.IRRADIANCE"), Some("SensorDeviceClass.IRRADIANCE"), None, None),
      23 := Description(EnumValue("SensorDeviceClass.MOISTURE"), Some("SensorDeviceClass.MOISTURE"), None, Some("PERCENTAGE")),
      24 := Description(EnumValue("SensorDeviceClass.MONETARY"), Some("SensorDeviceClass.MONETARY"), None, None),
      25 := Description(EnumValue("SensorDeviceClass.NITROGEN_DIOXIDE"), Some("SensorDeviceClass.NITROGEN_DIOXIDE"), None, Some("CONCENTRATION_MICROGRAMS_PER_CUBIC_METER")),
      26 := Description(EnumValue("SensorDeviceClass.NITROGEN_MONOXIDE"), Some("SensorDeviceClass.NITROGEN_MONOXIDE"), None, Some("CONCENTRATION_MICROGRAMS_PER_CUBIC_METER")),
      27 := Description(EnumValue("SensorDeviceClass.NITROUS_OXIDE"), Some("SensorDeviceClass.NITROUS_OXIDE"), None, Some("CONCENTRATION_MICROGRAMS_PER_CUBIC_METER")),
      28 := Description(EnumValue("SensorDeviceClass.OZONE"), Some("SensorDeviceClass.OZONE"), None, Some("CONCENTRATION_MICROGRAMS_PER_CUBIC_METER")),
      29 := Description(Literal("percentage"), None, Some("mdi:percent"), Some("PERCENTAGE")),
      30 := Description(EnumValue("SensorDeviceClass.PM1"), Some("SensorDeviceClass.PM1"), None, Some("CONCENTRATION_MICROGRAMS_PER_CUBIC_METER")),
      31 := Description(EnumValue("SensorDeviceClass.PM10"), Some("SensorDeviceClass.PM10"), None, Some("CONCENTRATION_MICROGRAMS_PER_CUBIC_METER")),
      32 := Description(EnumValue("SensorDeviceClass.PM25"), Some("SensorDeviceClass.PM25"), None, Some("CONCENTRATION_MICROGRAMS_PER_CUBIC_METER")),
      33 := Description(EnumValue("SensorDeviceClass.POWER_FACTOR"), Some("SensorDeviceClass.POWER_FACTOR"), None, Some("PERCENTAGE")),
      34 := Description(EnumValue("SensorDeviceClass.POWER"), Some("SensorDeviceClass.POWER"), None, Some("UnitOfPower.WATT")),
      35 := Description(EnumValue("SensorDeviceClass.PRECIPITATION"), Some("SensorDeviceClass.PRECIPITATION"), None, Some("UnitOfPrecipitationDepth.MILLIMETERS")),
      36 := Description(EnumValue("SensorDeviceClass.PRECIPITATION_INTENSITY"), Some("SensorDeviceClass.PRECIPITATION_INTENSITY"), None, None),
      37 := Description(EnumValue("SensorDeviceClass.PRESSURE"), Some("SensorDeviceClass.PRESSURE"), None, Some("UnitOfPressure.HPA")),
      38 := Description(EnumValue("SensorDeviceClass.REACTIVE_POWER"), Some("SensorDeviceClass.REACTIVE_POWER"), None, Some("POWER_VOLT_AMPERE_REACTIVE")),
      39 := Description(EnumValue("SensorDeviceClass.SIGNAL_STRENGTH"), Some("SensorDeviceClass.SIGNAL_STRENGTH"), None, None),
      40 := Description(EnumValue("SensorDeviceClass.SOUND_PRESSURE"), Some("SensorDeviceClass.SOUND_PRESSURE"), None, None),
      41 := Description(EnumValue("SensorDeviceClass.SPEED"), Some("SensorDeviceClass.SPEED"), None, None),
      42 := Description(Literal("string"), None, Some("mdi:format-text"), None),
      43 := Description(EnumValue("SensorDeviceClass.SULPHUR_DIOXIDE"), Some("SensorDeviceClass.SULPHUR_DIOXIDE"), None, Some("CONCENTRATION_MICROGRAMS_PER_CUBIC_METER")),
      44 := Description(EnumValue("SensorDeviceClass.TEMPERATURE"), Some("SensorDeviceClass.TEMPERATURE"), None, Some("UnitOfTemperature.CELSIUS")),
      45 := Description(EnumValue("SensorDeviceClass.TIMESTAMP"), Some("SensorDeviceClass.TIMESTAMP"), None, None),
      46 := Description(EnumValue("SensorDeviceClass.VOLATILE_ORGANIC_COMPOUNDS"), Some("SensorDeviceClass.VOLATILE_ORGANIC_COMPOUNDS"), None, Some("CONCENTRATION_MICROGRAMS_PER_CUBIC_METER")),
      47 := Description(EnumValue("SensorDeviceClass.VOLTAGE"), Some("SensorDeviceClass.VOLTAGE"), None, Some("UnitOfElectricPotential.VOLT")),
      48 := Description(EnumValue("SensorDeviceClass.VOLUME"), Some("SensorDeviceClass.VOLUME"), None, None),
      49 := Description(EnumValue("SensorDeviceClass.WATER"), Some("SensorDeviceClass.VOLUME_FLOW_RATE"), None, Some("UnitOfVolumeFlowRate.CUBIC_METERS_PER_HOUR")),
      50 := Description(Literal("weather"), None, None, None),
      51 := Description(EnumValue("SensorDeviceClass.WEIGHT"), Some("SensorDeviceClass.WEIGHT"), None, None),
      52 := Description(EnumValue("SensorDeviceClass.WIND_SPEED"), Some("SensorDeviceClass.WIND_SPEED"), None, Some("UnitOfSpeed.METERS_PER_SECOND")),
      53 := Description(Literal("multisensor"), None, None, None)
    ]

  /** Descriptions of type 4 (SWITCH), by class. */
  const SwitchDescriptions: map<int, Description> :=
    map[
      0 := Description(EnumValue("SwitchDeviceClass.SWITCH"), Some("SwitchDeviceClass.SWITCH"), None, None),
      1 := Description(EnumValue("SwitchDeviceClass.OUTLET"), Some("SwitchDeviceClass.OUTLET"), None, None),
      2 := Description(Literal("valve"), Some("SwitchDeviceClass.SWITCH"), Some("mdi:pipe-valve"), None),
      3 := Description(Literal("open"), Some("SwitchDeviceClass.SWITCH"), Some("mdi:lock-open"), None),
      4 := Description(Literal("lock"), Some("SwitchDeviceClass.SWITCH"), Some("mdi:lock"), None),
      5 := Description(Literal("cook"), Some("SwitchDeviceClass.SWITCH"), Some("mdi:chef-hat"), None),
      6 := Description(Literal("elevator"), Some("SwitchDeviceClass.SWITCH"), Some("mdi:elevator"), None),
      7 := Description(Literal("interphone"), Some("SwitchDeviceClass.SWITCH"), Some("mdi:phone"), None)
    ]

  /** The descriptions of one type code by class; empty for a type with no
      table entry. */
  function ClassDescriptions(code: int): map<int, Description>
  {
    if code == BinarySensorType.Code() then BinarySensorDescriptions
    else if code == ClimateType.Code() then ClimateDescriptions
    else if code == EventType.Code() then EventDescriptions
    else if code == FanType.Code() then FanDescriptions
    else if code == LightType.Code() then LightDescriptions
    else if code == SensorType.Code() then SensorDescriptions
    else if code == SwitchType.Code() then SwitchDescriptions
    else map[]
  }

  /** The description of a type/class pair: the table entry, or `Nothing`
      (the all-`None` tuple) for an unknown type or an unknown class of a
      known type. Both `.get` calls hash their key, the second one even on
      the empty table of an unknown type, so a list or object type or
      class raises. */
  function GetDescription(worltyType: Value, worltyClass: Value): (r: Reading<Description>)
    ensures r.Raises? <==> Unhashable(worltyType) || Unhashable(worltyClass)
    ensures r.Reads? <==>
              worltyType.Int? && worltyClass.Int? && worltyClass.i in ClassDescriptions(worltyType.i)
    ensures r.Reads? ==> r.v == ClassDescriptions(worltyType.i)[worltyClass.i]
  {
    if Unhashable(worltyType) then Raises
    else
      var byClass := if worltyType.Int? then ClassDescriptions(worltyType.i) else map[];
      if Unhashable(worltyClass) then Raises
      else if worltyClass.Int? && worltyClass.i in byClass then Reads(byClass[worltyClass.i]) else Nothing
  }

  /** Every type that has descriptions is also exposed on some platform, so a
      described record is never left without a platform; INPUT and COVER have
      no descriptions at all. */
  lemma DescribedTypesHavePlatform(worltyType: Value, worltyClass: Value)
    ensures GetDescription(worltyType, worltyClass).Reads? ==> PlatformOf(worltyType, worltyClass).Reads?
    ensures worltyType == Int(InputType.Code()) || worltyType == Int(CoverType.Code()) ==>
              GetDescription(worltyType, worltyClass) == (if Unhashable(worltyClass) then Raises else Nothing)
  {
  }

  /** Display names of gateway states, per language. */
  const StateNames: map<string, map<string, string>> :=
    map[
      "en" := map[
        "high" := "High", "medium" := "Medium", "low" := "Low", "auto" := "Auto",
        "weak" := "Weak", "boost" := "Boost", "eco" := "Eco", "arrive" := "Arrive",
        "call" := "Call", "detect" := "Detect", "down" := "Down", "idle" := "idle",
        "left" := "Left", "move" := "Move", "open" := "Open", "right" := "Right",
        "ring" := "Ring", "up" := "Up", "wait" := "Wait"],
      "ko" := map[
        "high" := "강", "medium" := "중", "low" := "약", "auto" := "자동",
        "weak" := "최저", "boost" := "최고", "eco" := "절전", "arrive" := "도착",
        "call" := "통화", "detect" := "감지", "down" := "아래쪽", "idle" := "대기",
        "left" := "왼쪽", "move" := "이동", "open" := "열기", "right" := "오른쪽",
        "ring" := "벨소리", "up" := "위쪽", "wait" := "기다림"]
    ]

  /** Display names of sub ids, per language. */
  const SubNames: map<string, map<string, string>> :=
    map[
      "en" := map[
        "ctrl_mode" := "Controller Mode", "ctrl_speed" := "Controller Speed",
        "target_speed" := "Worlty Speed", "blr-err" := "Boiler Error", "front" := "Front of Door",
        "event" := "Event", "cook" := "GasValve", "bell" := "Bell",
        "direction" := "Elevator Direction", "floor" := "Elevator Floor", "location" := "Location",
        "apt-0" := "APT Gate", "apt-1" := "APT Gate(book)", "home-0" := "Home Gate",
        "home-1" := "Home Gate(book)"],
      "ko" := map[
        "ctrl_mode" := "리모컨모드", "ctrl_speed" := "리모컨속도",
        "target_speed" := "월티속도", "blr-err" := "보일러에러", "front" := "현관앞",
        "event" := "이벤트", "cook" := "가스밸브", "bell" := "초인종",
        "direction" := "엘리베이터 방향", "floor" := "엘리베이터 층", "location" := "위치",
        "apt-0" := "공동현관", "apt-1" := "공동현관(예약)", "home-0" := "세대현관",
        "home-1" := "세대현관(예약)"]
    ]

  /** `tables.get(lang, {}).get(v, v)`: a two-level lookup that falls back
      to the input itself. `None` where the lookup raises `TypeError`,
      which it does for a list or an object, unhashable even when the
      language is unknown. */
  function Translate(tables: map<string, map<string, string>>, lang: string, v: Value): (r: Option<Value>)
    ensures r.None? <==> v.List? || v.Obj?
    ensures r.Some? && !(lang in tables && v.Str? && v.s in tables[lang]) ==> r.value == v
    ensures lang in tables && v.Str? && v.s in tables[lang] ==> r == Some(Str(tables[lang][v.s]))
  {
    if v.List? || v.Obj? then None
    else if lang in tables && v.Str? && v.s in tables[lang] then Some(Str(tables[lang][v.s]))
    else Some(v)
  }

  /** The display name of a state; unknown languages and states pass
      through, and a list or object state raises. */
  function MapState(lang: string, state: Value): (r: Option<Value>)
    ensures r.None? <==> state.List? || state.Obj?
    ensures r.Some? && lang !in StateNames ==> r.value == state
    ensures r.Some? && r.value != state ==> state.Str? && r.value.Str? && state.s in StateNames[lang]
  {
    Translate(StateNames, lang, state)
  }

  /** The display name of a sub id; unknown languages and ids pass
      through, and a list or object id raises. */
  function MapSub(lang: string, sub: Value): (r: Option<Value>)
    ensures r.None? <==> sub.List? || sub.Obj?
    ensures r.Some? && lang !in SubNames ==> r.value == sub
    ensures r.Some? && r.value != sub ==> sub.Str? && r.value.Str? && sub.s in SubNames[lang]
  {
    Translate(SubNames, lang, sub)
  }

  /** Both languages translate the same states and the same sub ids. */
  lemma LanguagesCoverSameKeys()
    ensures StateNames.Keys == SubNames.Keys == {"en", "ko"}
    ensures StateNames["en"].Keys == StateNames["ko"].Keys
    ensures SubNames["en"].Keys == SubNames["ko"].Keys
  {
  }
}

=== FILE: entity.dfy ===
/** What an entity derives from its record (`WorltyBaseEntity.__init__`)
    and how it turns a write into a queued command (`set_device`). */
module Entities {
  import opened Values
  import opened Const
  import opened Protocol
  import opened UniqueIds
  import opened PkSort
  import opened DeviceTree
  import opened CommandQueue

  /** The identity an entity takes from its record. `pk` is the integer
      key its commands carry. */
  datatype EntityInfo = EntityInfo(
    isChild: bool,
    parent: int,
    pk: int,
    name: string,
    uid: string,
    worltyType: Value)

  /** `make_unique_id(pk, fk, name)` with `pk` rendered as the f-string
      renders whatever the record holds, `None` included. */
  function EntityIdText(dev: string, pk: Value, fk: int, name: string): string
  {
    var p := ScalarText(pk).GetOr("");
    if fk == 0 then dev + ":" + p + ":" + name
    else dev + ":" + IntToString(fk) + "_" + p + ":" + name
  }

  /** `WorltyBaseEntity.__init__` as written: the id is built from
      `entity_info.get("pk")`, which is `None` for a record without `pk`,
      where the synchroniser reads `device.get("pk", 0)`. */
  function EntityOfAsWritten(dev: string, rec: Record): EntityInfo
  {
    var parent := FkOf(rec);
    var isChild := parent > 0;
    var name := TextOf(rec, if isChild then "cid" else "did");
    EntityInfo(isChild, parent, PkOf(rec), name, EntityIdText(dev, Get(rec, "pk"), parent, name), Get(rec, "type"))
  }

  /** `worlty_is_child`, `worlty_parent`, `worlty_pk`, `worlty_name` and
      `worlty_unique_id` of an entity built from `rec` under gateway `dev`,
      with `pk` read with the synchroniser's default 0. */
  function EntityOf(dev: string, rec: Record): EntityInfo
  {
    var parent := FkOf(rec);
    var isChild := parent > 0;
    var name := TextOf(rec, if isChild then "cid" else "did");
    EntityInfo(isChild, parent, PkOf(rec), name, UniqueId(dev, PkOf(rec), parent, name), Get(rec, "type"))
  }

  /** A `did` that `split("_")[1]` can take apart: text with a `_`. */
  predicate HasSubId(v: Value)
  {
    v.Str? && '_' in v.s
  }

  /** `entity_info.get("fk", 0) > 0` compares an absent, integer, boolean
      or real `fk`, and raises on a null, text, list or object one. */
  predicate FkComparable(rec: Record)
  {
    "fk" !in rec || rec["fk"].Int? || rec["fk"].Bool? || rec["fk"].Real?
  }

  /** The entry `get_worlty_entity(parent_unique_id)` finds for a child.
      `parent_unique_id` defaults to the `fk` itself, which no key of the
      entity map (all text) equals. */
  function ParentEntry(entities: map<string, Record>, rec: Record): Option<Record>
  {
    var pid := if "parent_unique_id" in rec then rec["parent_unique_id"] else Int(FkOf(rec));
    if pid.Str? && pid.s in entities then Some(entities[pid.s]) else None
  }

  /** `WorltyBaseEntity.__init__` given the coordinator's entity map: the
      entity `EntityOf` describes, or `None` where construction raises. A
      top-level record needs a `did` with a sub id; a child needs its
      parent's entry, whose `did` must have a sub id, and a `cid` that
      `map_worlty_sub` can hash. */
  function NewEntity(entities: map<string, Record>, dev: string, rec: Record): (r: Option<EntityInfo>)
    ensures r.Some? ==> r.value == EntityOf(dev, rec)
    ensures !FkComparable(rec) ==> r.None?
    ensures FkComparable(rec) && FkOf(rec) <= 0 ==> (r.Some? <==> HasSubId(Get(rec, "did")))
    ensures FkComparable(rec) && FkOf(rec) > 0 && "parent_unique_id" !in rec ==> r.None?
    ensures FkComparable(rec) && FkOf(rec) > 0 && "parent_unique_id" in rec ==>
      var pid := rec["parent_unique_id"];
      (r.Some? <==> pid.Str? && pid.s in entities && HasSubId(Get(entities[pid.s], "did")) && !Unhashable(Get(rec, "cid")))
  {
    if !FkComparable(rec) then None
    else if FkOf(rec) > 0 then
      var parent := ParentEntry(entities, rec);
      if parent.None? || !HasSubId(Get(parent.value, "did")) || Unhashable(Get(rec, "cid")) then None
      else Some(EntityOf(dev, rec))
    else if HasSubId(Get(rec, "did")) then Some(EntityOf(dev, rec))
    else None
  }

  /** Once a top-level device is filed, each of its tagged children can be
      built exactly when the device's `did` carries a sub id and the
      child's own `cid` is hashable: a device whose `did` has no `_`
      leaves every child entity unbuildable. */
  lemma ChildOfFiledDevice(t: Tree, d: Record, c: Record, classify: Record -> Option<Platform>)
    requires FkOf(d) == 0 && PkOf(d) > 0 && "did" in d
    ensures var t1 := MergeRecord(t, d, classify).0;
      NewEntity(t1.entities, t.deviceId, Stamp(c, PkOf(d), ParentId(t.deviceId, d))).Some? <==>
        HasSubId(d["did"]) && !Unhashable(Get(c, "cid"))
  {
    var t1 := MergeRecord(t, d, classify).0;
    var pid := ParentId(t.deviceId, d);
    MergeStoresRecord(t, d, classify);
    assert RecordId(t.deviceId, d) == pid;
    var child := Stamp(c, PkOf(d), pid);
    assert FkOf(child) == PkOf(d) && child["parent_unique_id"] == Str(pid);
    assert Get(t1.entities[pid], "did") == d["did"];
    assert Get(child, "cid") == Get(c, "cid");
  }

  /** An entity built from a record claims exactly the id under which the
      synchroniser files that record, so registering it routes the record's
      later updates to it. Parent keys are primary keys of devices, which
      the gateway numbers from 1; a negative `fk` would make the entity read
      `did` where the synchroniser reads `cid`. */
  lemma EntityIdIsRecordId(dev: string, rec: Record)
    requires FkOf(rec) >= 0
    ensures EntityOf(dev, rec).uid == RecordId(dev, rec)
    ensures EntityOf(dev, rec).isChild <==> FkOf(rec) != 0
  {
  }

  /** For a record with an integer `pk` the entity as written is the one
      above, so it too claims the record's id. */
  lemma AsWrittenAgreesOnIntegerPk(dev: string, rec: Record)
    requires "pk" in rec && rec["pk"].Int?
    ensures EntityOfAsWritten(dev, rec) == EntityOf(dev, rec)
  {
  }

  /** As written, an entity built from a record without `pk` claims an id
      with `None` where the synchroniser files the record under 0, so the
      entity never receives the record's updates. */
  lemma PklessIdMismatch(dev: string, rec: Record)
    requires "pk" !in rec && FkOf(rec) >= 0
    ensures EntityOfAsWritten(dev, rec).uid != RecordId(dev, rec)
  {
    var fk := FkOf(rec);
    var mine := EntityOfAsWritten(dev, rec).uid;
    var filed := RecordId(dev, rec);
    assert IntToString(0) == "0";
    var k := if fk == 0 then |dev| + 1 else |dev| + 1 + |IntToString(fk)| + 1;
    assert mine[k] == 'N';
    assert filed[k] == '0';
  }

  /** Example: a child `ch1` without `pk` under device 7. */
  lemma PklessChildExample(dev: string)
    ensures var c := Stamp(map["cid" := Str("ch1")], 7, dev + ":7:d");
      && EntityOfAsWritten(dev, c).uid == dev + ":7_None:ch1"
      && RecordId(dev, c) == dev + ":7_0:ch1"
  {
    var c := Stamp(map["cid" := Str("ch1")], 7, dev + ":7:d");
    assert Get(c, "pk") == Null && FkOf(c) == 7 && TextOf(c, "cid") == "ch1";
    assert IntToString(7) == "7" && IntToString(0) == "0";
  }

  /** A child of a normalised device becomes a child entity of that device
      exactly when the device's key is positive, with the device as parent. */
  lemma StampedChildEntity(dev: string, c: Record, parentPk: int, parentId: string)
    ensures var e := EntityOf(dev, Stamp(c, parentPk, parentId));
      e.parent == parentPk && (e.isChild <==> parentPk > 0) && e.pk == PkOf(c)
  {
    StampKeepsPk(c, parentPk, parentId);
  }

  /** `set_device(**kwargs)` in the newer client. A child writes its own
      channel through its parent: the command goes to the parent's key and
      carries only `{name: stt}` (nothing when `stt` is None). `None` where
      `kwargs["stt"]` raises `KeyError`. A top-level entity sends all of
      `kwargs` under its own key. */
  function SetDevice(e: EntityInfo, kwargs: Record): (r: Option<Command>)
    ensures e.isChild ==> (r.None? <==> "stt" !in kwargs)
    ensures e.isChild && r.Some? ==>
      && r.value.pk == e.parent
      && r.value.payload.Keys <= {e.name}
      && (e.name in r.value.payload <==> kwargs["stt"] != Null)
      && (e.name in r.value.payload ==> r.value.payload[e.name] == kwargs["stt"])
    ensures !e.isChild ==> r == Some(Command(e.pk, kwargs))
  {
    if e.isChild then
      if "stt" !in kwargs then None
      else Some(Command(e.parent, if kwargs["stt"] != Null then map[e.name := kwargs["stt"]] else map[]))
    else Some(Command(e.pk, kwargs))
  }

  /** `set_device(**kwargs)` in the older client: every entity, child or
      not, sends all of `kwargs` under its own key. */
  function LegacySetDevice(e: EntityInfo, kwargs: Record): (r: Command)
    ensures r.pk == e.pk && r.payload == kwargs
  {
    Command(e.pk, kwargs)
  }

  /** Because a child's write is queued under its parent's key, it
      supersedes any write to the parent, or to a sibling, that is still
      waiting for the timer: only the last one reaches the gateway. */
  lemma ChildWriteSupersedesParentKey(q: seq<Command>, child: EntityInfo, kwargs: Record)
    requires child.isChild && "stt" in kwargs
    ensures var c := SetDevice(child, kwargs).value;
      var r := Enqueue(q, c);
      forall x :: x in r && x.pk == child.parent ==> x == c
  {
    var c := SetDevice(child, kwargs).value;
    var r := Enqueue(q, c);
    EnqueueKeepsOthers(q, c);
    assert r == r[..|r| - 1] + [c];
  }

  /** In the older client every write is queued under the writer's own
      key, so it supersedes only that entity's earlier pending write: a
      pending write to any other key, the parent's or a sibling's among
      them, stays queued and is sent alongside it. */
  lemma LegacyWriteKeepsOtherKeys(q: seq<Command>, e: EntityInfo, kwargs: Record)
    ensures var r := Enqueue(q, LegacySetDevice(e, kwargs));
      && r[|r| - 1] == Command(e.pk, kwargs)
      && (forall x :: x in q && x.pk != e.pk ==> x in r)
      && (forall x :: x in r && x.pk == e.pk ==> x == Command(e.pk, kwargs))
  {
    var c := LegacySetDevice(e, kwargs);
    var r := Enqueue(q, c);
    EnqueueKeepsOthers(q, c);
    assert r == r[..|r| - 1] + [c];
  }

  /** Two channels of one device switched within one quiet period: the
      `set` message carries only the second channel's state. */
  lemma SiblingWritesCollide(parentPk: int, dev: string)
    requires parentPk > 0
    ensures
      var a := EntityInfo(true, parentPk, 11, "ch1", UniqueId(dev, 11, parentPk, "ch1"), Int(3));
      var b := EntityInfo(true, parentPk, 12, "ch2", UniqueId(dev, 12, parentPk, "ch2"), Int(3));
      var on := map["stt" := Bool(true)];
      var q := Enqueue(Enqueue([], SetDevice(a, on).value), SetDevice(b, on).value);
      Flush(q).1 == [SetDevices([Command(parentPk, map["ch2" := Bool(true)])])]
  {
    var a := EntityInfo(true, parentPk, 11, "ch1", UniqueId(dev, 11, parentPk, "ch1"), Int(3));
    var b := EntityInfo(true, parentPk, 12, "ch2", UniqueId(dev, 12, parentPk, "ch2"), Int(3));
    var on := map["stt" := Bool(true)];
    var ca := SetDevice(a, on).value;
    var cb := SetDevice(b, on).value;
    assert ca == Command(parentPk, map["ch1" := Bool(true)]);
    assert cb == Command(parentPk, map["ch2" := Bool(true)]);
    DropSingle(ca, {parentPk});
    assert Enqueue([], ca) == [ca];
    assert Enqueue([ca], cb) == [cb];
  }
}

=== FILE: fan.dfy ===
/** The fan entity: preset modes, speeds and swing directions decoded from
    the `sm`/`ssp`/`ssw` bitmasks, the feature flags, the `percentage` and
    `preset_mode` readers, and the keyword arguments each control passes to
    `set_device`. Home Assistant's percentage helpers are parameters:
    `toPercent(list, item)` is `ordered_list_item_to_percentage` and
    `toItem(list, percentage)` is `percentage_to_ordered_list_item`. */
module Fan {
  import opened Values
  import opened ModeTables

  const ModeTable: Table := [(1, "on"), (2, "eco"), (3, "boost"), (4, "sleep"), (5, "auto"), (6, "cook"),
                             (7, "purifier"), (8, "purifier_eco"), (9, "purifier_boost"), (10, "bypass")]
  const SpeedTable: Table := [(1, "on"), (2, "auto"), (3, "low"), (4, "medium"), (5, "high"), (6, "weak"),
                              (7, "boost"), (8, "eco")]

  lemma ModeTableAscending() ensures Ascending(ModeTable) {}
  lemma ModeTableInjective() ensures Injective(ModeTable) {}
  lemma SpeedTableAscending() ensures Ascending(SpeedTable) {}
  lemma SpeedTableInjective() ensures Injective(SpeedTable) {}

  lemma TablesWellFormed()
    ensures Ascending(ModeTable) && Injective(ModeTable)
    ensures Ascending(SpeedTable) && Injective(SpeedTable)
    ensures Ascending(SwingTable) && Injective(SwingTable)
  {
    ModeTableAscending();
    ModeTableInjective();
    SpeedTableAscending();
    SpeedTableInjective();
    SwingTableWellFormed();
  }

  lemma ModeKeysFromOne() ensures forall i :: 0 <= i < |ModeTable| ==> ModeTable[i].0 == 1 + i {}
  lemma SpeedKeysFromOne() ensures forall i :: 0 <= i < |SpeedTable| ==> SpeedTable[i].0 == 1 + i {}

  lemma ModesOffered(mask: int)
    ensures |Decode(ModeTable, mask)| > 0 <==> exists k :: 1 <= k < 11 && BitSet(mask, k)
  {
    ModeKeysFromOne();
    ModeFeature(ModeTable, 1, mask);
  }

  lemma SpeedsOffered(mask: int)
    ensures |Decode(SpeedTable, mask)| > 0 <==> exists k :: 1 <= k < 9 && BitSet(mask, k)
  {
    SpeedKeysFromOne();
    ModeFeature(SpeedTable, 1, mask);
  }

  datatype Feature = TurnOn | TurnOff | PresetMode | SetSpeed | Direction

  const AllFeatures: set<Feature> := {TurnOn, TurnOff, PresetMode, SetSpeed, Direction}

  /** The test `_update_entity` applies for each flag. */
  predicate Offered(modes: seq<string>, speeds: seq<string>, swings: seq<string>, f: Feature)
  {
    match f
    case TurnOn => |modes| > 0 || |speeds| > 0
    case TurnOff => |modes| > 0 || |speeds| > 0
    case PresetMode => |modes| > 0
    case SetSpeed => |speeds| > 0
    case Direction => |swings| > 0
  }

  function FeaturesOf(modes: seq<string>, speeds: seq<string>, swings: seq<string>): set<Feature>
  {
    set f | f in AllFeatures && Offered(modes, speeds, swings, f)
  }

  datatype Capabilities = Capabilities(modes: seq<string>, speeds: seq<string>, swings: seq<string>, features: set<Feature>)

  /** `_update_entity`. `None` when a mask is not an integer and `&`
      raises. */
  function Update(a: Record): Option<Capabilities>
  {
    var sm := MaskOf(a, "sm");
    var ssp := MaskOf(a, "ssp");
    var ssw := MaskOf(a, "ssw");
    if sm.None? || ssp.None? || ssw.None? then None
    else
      var modes := Decode(ModeTable, sm.value);
      var speeds := Decode(SpeedTable, ssp.value);
      var swings := Decode(SwingTable, ssw.value);
      Some(Capabilities(modes, speeds, swings, FeaturesOf(modes, speeds, swings)))
  }

  /** `percentage`: `None` for a fan without speeds, 0 while it is off.
      While it is on, `ordered_list_item_to_percentage` raises `ValueError`
      unless the reported speed's name (`off` for a code outside the table)
      is one of the fan's speeds. */
  function Percentage(a: Record, speeds: seq<string>, toPercent: (seq<string>, string) -> int): Reading<int>
  {
    if |speeds| == 0 then Nothing
    else if Truthy(Get(a, "stt")) then
      match TableGet(SpeedTable, Get(a, "sp"), "off")
      case Reads(speed) => if speed in speeds then Reads(toPercent(speeds, speed)) else Raises
      case _ => Raises
    else Reads(0)
  }

  /** `percentage_to_ordered_list_item` returns an item of the non-empty
      list it is given. */
  ghost predicate PicksListItem(toItem: (seq<string>, int) -> string)
  {
    forall speeds: seq<string>, percentage: int :: |speeds| > 0 ==> toItem(speeds, percentage) in speeds
  }

  /** `preset_mode`: `None` for a fan without modes; a code outside the
      table reads as `on` or `off` by the power state. */
  function CurrentPreset(a: Record, modes: seq<string>): Reading<string>
  {
    if |modes| == 0 then Nothing
    else TableGet(ModeTable, Get(a, "m"), if Truthy(Get(a, "stt")) then "on" else "off")
  }

  /** `async_set_percentage`. Percentage 0 is the speed `off`, which has no
      key, so the fan is switched off. The current preset is written back
      unless it reads `off`. `None` where Python raises: a positive
      percentage on a fan without speeds, where the helper raises, or a
      current preset whose lookup raises. */
  function SetPercentage(a: Record, modes: seq<string>, speeds: seq<string>, percentage: int,
                         toItem: (seq<string>, int) -> string): Option<Record>
  {
    if percentage > 0 && |speeds| == 0 then None
    else
      var speedValue := if percentage > 0 then toItem(speeds, percentage) else "off";
      var speedKey := ToKey(SpeedTable, speedValue);
      var preset := CurrentPreset(a, modes);
      if preset.Raises? then None
      else
        var withMode := if preset.Reads? && preset.v != "off"
                        then map["m" := KeyValue(ToKey(ModeTable, preset.v))] else map[];
        var withSpeed := if speedKey.Some? then map["sp" := Int(speedKey.value)] else map[];
        Some(map["stt" := Bool(speedKey.Some?)] + withMode + withSpeed)
  }

  /** `async_set_preset_mode` as written: any preset other than `off`
      switches on and writes the key of the preset the fan is in now.
      `None` where reading that preset raises. */
  function SetPresetModeAsWritten(a: Record, modes: seq<string>, preset: string): Option<Record>
  {
    if preset != "off" then
      var current := CurrentPreset(a, modes);
      if current.Raises? then None
      else Some(map["stt" := Bool(true), "m" := KeyValue(if current.Reads? then ToKey(ModeTable, current.v) else None)])
    else Some(map["stt" := Bool(false)])
  }

  /** `async_set_preset_mode` writing the key of the requested preset. */
  function SetPresetMode(preset: string): Record
  {
    if preset != "off" then map["stt" := Bool(true), "m" := KeyValue(ToKey(ModeTable, preset))]
    else map["stt" := Bool(false)]
  }

  /** `async_turn_on` as written: a positive percentage is sent as the
      speed's name; otherwise a requested preset is sent as its key. */
  function TurnOnCommandAsWritten(speeds: seq<string>, percentage: Option<int>, preset: Option<string>,
                                  toItem: (seq<string>, int) -> string): Option<Record>
  {
    if percentage.Some? && percentage.value > 0 && |speeds| == 0 then None
    else if percentage.Some? && percentage.value > 0 then
      Some(map["stt" := Bool(true), "sp" := Str(toItem(speeds, percentage.value))])
    else if preset.Some? then Some(map["stt" := Bool(true), "m" := KeyValue(ToKey(ModeTable, preset.value))])
    else Some(map["stt" := Bool(true)])
  }

  /** `async_turn_on` sending the speed's key, as `async_set_percentage`
      does. */
  function TurnOnCommand(speeds: seq<string>, percentage: Option<int>, preset: Option<string>,
                         toItem: (seq<string>, int) -> string): Option<Record>
  {
    if percentage.Some? && percentage.value > 0 && |speeds| == 0 then None
    else if percentage.Some? && percentage.value > 0 then
      Some(map["stt" := Bool(true), "sp" := KeyValue(ToKey(SpeedTable, toItem(speeds, percentage.value)))])
    else if preset.Some? then Some(map["stt" := Bool(true), "m" := KeyValue(ToKey(ModeTable, preset.value))])
    else Some(map["stt" := Bool(true)])
  }

  /** `async_turn_off`. */
  function TurnOffCommand(): Record
  {
    map["stt" := Bool(false)]
  }

  // ---------------------------------------------------------------------
  // Properties
  // ---------------------------------------------------------------------

  /** Each table is inverted by its `*_to_key`, and an unknown name has no
      key. */
  lemma ToKeyInvertsTables(k: int, name: string)
    ensures Lookup(ModeTable, k).Some? ==> ToKey(ModeTable, Lookup(ModeTable, k).value) == Some(k)
    ensures Lookup(SpeedTable, k).Some? ==> ToKey(SpeedTable, Lookup(SpeedTable, k).value) == Some(k)
    ensures Lookup(SwingTable, k).Some? ==> ToKey(SwingTable, Lookup(SwingTable, k).value) == Some(k)
    ensures ToKey(SpeedTable, name).Some? ==> Lookup(SpeedTable, ToKey(SpeedTable, name).value) == Some(name)
    ensures ToKey(ModeTable, name).Some? ==> Lookup(ModeTable, ToKey(ModeTable, name).value) == Some(name)
  {
    TablesWellFormed();
    InvertsAt(ModeTable, k);
    InvertsAt(SpeedTable, k);
    InvertsAt(SwingTable, k);
    if ToKey(SpeedTable, name).Some? {
      ToKeyThenLookup(SpeedTable, name);
    }
    if ToKey(ModeTable, name).Some? {
      ToKeyThenLookup(ModeTable, name);
    }
  }

  /** The three lists are exactly the names whose bit is set, in key order. */
  lemma UpdateModeLists(a: Record)
    ensures Update(a).None? <==> MaskOf(a, "sm").None? || MaskOf(a, "ssp").None? || MaskOf(a, "ssw").None?
    ensures Update(a).Some? ==>
      var c := Update(a).value;
      var sm, ssp, ssw := MaskOf(a, "sm").value, MaskOf(a, "ssp").value, MaskOf(a, "ssw").value;
      && (forall name :: name in c.modes <==> ToKey(ModeTable, name).Some? && BitSet(sm, ToKey(ModeTable, name).value))
      && KeysAscend(ModeTable, c.modes)
      && (forall name :: name in c.speeds <==> ToKey(SpeedTable, name).Some? && BitSet(ssp, ToKey(SpeedTable, name).value))
      && KeysAscend(SpeedTable, c.speeds)
      && (forall name :: name in c.swings <==> ToKey(SwingTable, name).Some? && BitSet(ssw, ToKey(SwingTable, name).value))
      && KeysAscend(SwingTable, c.swings)
  {
    if Update(a).Some? {
      TablesWellFormed();
      DecodeSpec(ModeTable, MaskOf(a, "sm").value);
      DecodeSpec(SpeedTable, MaskOf(a, "ssp").value);
      DecodeSpec(SwingTable, MaskOf(a, "ssw").value);
    }
  }

  lemma UpdateParts(a: Record)
    requires MaskOf(a, "sm").Some? && MaskOf(a, "ssp").Some? && MaskOf(a, "ssw").Some?
    ensures var c := Update(a).value;
      && c.modes == Decode(ModeTable, MaskOf(a, "sm").value)
      && c.speeds == Decode(SpeedTable, MaskOf(a, "ssp").value)
      && c.swings == Decode(SwingTable, MaskOf(a, "ssw").value)
      && c.features == FeaturesOf(c.modes, c.speeds, c.swings)
  {
  }

  lemma OfferedMembers(modes: seq<string>, speeds: seq<string>, swings: seq<string>)
    ensures TurnOn in FeaturesOf(modes, speeds, swings) <==> |modes| > 0 || |speeds| > 0
    ensures TurnOff in FeaturesOf(modes, speeds, swings) <==> |modes| > 0 || |speeds| > 0
    ensures PresetMode in FeaturesOf(modes, speeds, swings) <==> |modes| > 0
    ensures SetSpeed in FeaturesOf(modes, speeds, swings) <==> |speeds| > 0
    ensures Direction in FeaturesOf(modes, speeds, swings) <==> |swings| > 0
  {
  }

  /** Preset control is offered exactly when one of bits 1 to 10 of `sm`
      is set. */
  lemma PresetFeature(a: Record)
    requires MaskOf(a, "sm").Some? && MaskOf(a, "ssp").Some? && MaskOf(a, "ssw").Some?
    ensures PresetMode in Update(a).value.features <==> exists k :: 1 <= k < 11 && BitSet(MaskOf(a, "sm").value, k)
  {
    var c := Update(a).value;
    UpdateParts(a);
    OfferedMembers(c.modes, c.speeds, c.swings);
    ModesOffered(MaskOf(a, "sm").value);
  }

  /** Speed control is offered exactly when one of bits 1 to 8 of `ssp` is
      set. */
  lemma SpeedFeature(a: Record)
    requires MaskOf(a, "sm").Some? && MaskOf(a, "ssp").Some? && MaskOf(a, "ssw").Some?
    ensures SetSpeed in Update(a).value.features <==> exists k :: 1 <= k < 9 && BitSet(MaskOf(a, "ssp").value, k)
  {
    var c := Update(a).value;
    UpdateParts(a);
    OfferedMembers(c.modes, c.speeds, c.swings);
    SpeedsOffered(MaskOf(a, "ssp").value);
  }

  /** Direction control is offered exactly when one of bits 0 to 4 of
      `ssw` is set. */
  lemma DirectionFeature(a: Record)
    requires MaskOf(a, "sm").Some? && MaskOf(a, "ssp").Some? && MaskOf(a, "ssw").Some?
    ensures Direction in Update(a).value.features <==> exists k :: 0 <= k < 5 && BitSet(MaskOf(a, "ssw").value, k)
  {
    var c := Update(a).value;
    UpdateParts(a);
    OfferedMembers(c.modes, c.speeds, c.swings);
    SwingsOffered(MaskOf(a, "ssw").value);
  }

  /** Turning on and off are offered together, exactly when presets or
      speeds are. */
  lemma PowerFeatures(a: Record)
    requires MaskOf(a, "sm").Some? && MaskOf(a, "ssp").Some? && MaskOf(a, "ssw").Some?
    ensures var f := Update(a).value.features;
      && (TurnOn in f <==> PresetMode in f || SetSpeed in f)
      && (TurnOff in f <==> TurnOn in f)
  {
    var c := Update(a).value;
    UpdateParts(a);
    OfferedMembers(c.modes, c.speeds, c.swings);
  }

  /** No speeds: no percentage. Off: 0. On: a list or object `sp` raises. */
  lemma PercentageGuard(a: Record, speeds: seq<string>, toPercent: (seq<string>, string) -> int)
    ensures Percentage(a, speeds, toPercent) == Nothing <==> speeds == []
    ensures var sp := Get(a, "sp");
      Percentage(a, speeds, toPercent).Raises? <==>
        speeds != [] && Truthy(Get(a, "stt")) && (Unhashable(sp) || LookupValue(SpeedTable, sp).GetOr("off") !in speeds)
    ensures var sp := Get(a, "sp");
      speeds != [] && Truthy(Get(a, "stt")) && sp.Int? && Lookup(SpeedTable, sp.i).Some? && Lookup(SpeedTable, sp.i).value in speeds ==>
        Percentage(a, speeds, toPercent) == Reads(toPercent(speeds, Lookup(SpeedTable, sp.i).value))
    ensures speeds != [] && !Truthy(Get(a, "stt")) ==> Percentage(a, speeds, toPercent) == Reads(0)
  {
  }

  /** With the speeds the fan reports for `ssp`, a switched-on fan reads a
      percentage exactly when `sp` is a key of the speed table whose bit is
      set in `ssp`: an absent or null `sp`, an unknown code and a speed the
      fan does not offer all raise, since `off` is never one of its
      speeds. */
  lemma ReportedSpeedPercentage(a: Record, ssp: int, toPercent: (seq<string>, string) -> int)
    ensures "off" !in Decode(SpeedTable, ssp)
    ensures var speeds := Decode(SpeedTable, ssp);
      var sp := Get(a, "sp");
      speeds != [] && Truthy(Get(a, "stt")) ==>
        (Percentage(a, speeds, toPercent).Raises? <==>
           !(sp.Int? && Lookup(SpeedTable, sp.i).Some? && BitSet(ssp, sp.i)))
  {
    TablesWellFormed();
    DecodeSpec(SpeedTable, ssp);
    ToKeyExact(SpeedTable, "off");
    var sp := Get(a, "sp");
    if sp.Int? && Lookup(SpeedTable, sp.i).Some? {
      InvertsAt(SpeedTable, sp.i);
    }
  }

  /** The preset reads `None` exactly for a fan without modes and raises
      exactly for a list or object code; a code of the table reads as its
      name, any other code as the power state. */
  lemma CurrentPresetSpec(a: Record, modes: seq<string>)
    ensures CurrentPreset(a, modes) == Nothing <==> modes == []
    ensures CurrentPreset(a, modes).Raises? <==> modes != [] && (Get(a, "m").List? || Get(a, "m").Obj?)
    ensures modes != [] && Get(a, "m").Int? && Lookup(ModeTable, Get(a, "m").i).Some? ==>
      CurrentPreset(a, modes) == Reads(Lookup(ModeTable, Get(a, "m").i).value)
    ensures modes != [] && !(Get(a, "m").List? || Get(a, "m").Obj?) && LookupValue(ModeTable, Get(a, "m")).None? ==>
      CurrentPreset(a, modes) == Reads(if Truthy(Get(a, "stt")) then "on" else "off")
  {
  }

  /** Setting percentage 0 switches the fan off and writes no speed; a
      positive percentage that names a speed of the table switches it on,
      and reading the reported attributes back gives the percentage of that
      speed. */
  lemma SetPercentageRoundTrip(a: Record, modes: seq<string>, speeds: seq<string>, percentage: int,
                               toItem: (seq<string>, int) -> string, toPercent: (seq<string>, string) -> int)
    requires percentage <= 0 || |speeds| > 0
    requires PicksListItem(toItem)
    ensures SetPercentage(a, modes, speeds, percentage, toItem).None? <==> CurrentPreset(a, modes).Raises?
    ensures percentage <= 0 && SetPercentage(a, modes, speeds, percentage, toItem).Some? ==>
      var r := SetPercentage(a, modes, speeds, percentage, toItem).value;
      r["stt"] == Bool(false) && "sp" !in r
    ensures var r := SetPercentage(a, modes, speeds, percentage, toItem);
      percentage > 0 && ToKey(SpeedTable, toItem(speeds, percentage)).Some? && r.Some? ==>
        Percentage(a + r.value, speeds, toPercent) == Reads(toPercent(speeds, toItem(speeds, percentage)))
  {
    var speedValue := if percentage > 0 then toItem(speeds, percentage) else "off";
    SpeedTableAscending();
    ToKeyExact(SpeedTable, "off");
    if percentage > 0 && ToKey(SpeedTable, speedValue).Some? && !CurrentPreset(a, modes).Raises? {
      ToKeyThenLookup(SpeedTable, speedValue);
      var r := SetPercentage(a, modes, speeds, percentage, toItem).value;
      assert r["sp"] == Int(ToKey(SpeedTable, speedValue).value);
      assert r["stt"] == Bool(true);
    }
  }

  /** As written, choosing a preset other than `off` ignores the request
      and re-sends the preset the fan is in now: a fan in any preset but
      `off` reads the same preset afterwards, and a fan reading `off` is
      switched on with a null `m` and reads `on`. */
  lemma PresetRequestIgnored(a: Record, modes: seq<string>, preset: string)
    requires modes != [] && preset != "off"
    ensures SetPresetModeAsWritten(a, modes, preset).None? <==> CurrentPreset(a, modes).Raises?
    ensures var current := CurrentPreset(a, modes);
      current.Reads? && current.v != "off" ==>
        CurrentPreset(a + SetPresetModeAsWritten(a, modes, preset).value, modes) == current
    ensures CurrentPreset(a, modes) == Reads("off") ==>
      CurrentPreset(a + SetPresetModeAsWritten(a, modes, preset).value, modes) == Reads("on")
  {
    var current := CurrentPreset(a, modes);
    if current.Reads? {
      ModeTableAscending();
      if current.v != "off" {
        PresetHasKey(a, modes);
        var k := ToKey(ModeTable, current.v).value;
        ToKeyThenLookup(ModeTable, current.v);
        assert SetPresetModeAsWritten(a, modes, preset).value == map["stt" := Bool(true), "m" := Int(k)];
        WrittenKeyReads(a, modes, k);
      } else {
        ToKeyExact(ModeTable, "off");
        assert SetPresetModeAsWritten(a, modes, preset).value == map["stt" := Bool(true), "m" := Null];
        WrittenNullReadsOn(a, modes);
      }
    }
  }

  /** A switched-on fan whose `m` is a key of the table reads that key's
      preset. */
  lemma WrittenKeyReads(a: Record, modes: seq<string>, k: int)
    requires modes != [] && Lookup(ModeTable, k).Some?
    ensures CurrentPreset(a + map["stt" := Bool(true), "m" := Int(k)], modes) == Reads(Lookup(ModeTable, k).value)
  {
    var b := a + map["stt" := Bool(true), "m" := Int(k)];
    assert Get(b, "m") == Int(k);
  }

  /** A switched-on fan with a null `m` reads `on`. */
  lemma WrittenNullReadsOn(a: Record, modes: seq<string>)
    requires modes != []
    ensures CurrentPreset(a + map["stt" := Bool(true), "m" := Null], modes) == Reads("on")
  {
    var b := a + map["stt" := Bool(true), "m" := Null];
    assert Get(b, "stt") == Bool(true) && Get(b, "m") == Null;
  }

  /** Every preset the fan can read, but `off`, has a key: it is a name of
      the table, or the default `on`. */
  lemma PresetHasKey(a: Record, modes: seq<string>)
    requires CurrentPreset(a, modes).Reads? && CurrentPreset(a, modes).v != "off"
    ensures ToKey(ModeTable, CurrentPreset(a, modes).v).Some?
  {
    var m := Get(a, "m");
    if m.Int? && Lookup(ModeTable, m.i).Some? {
      LookupMisses(ModeTable, m.i);
      var i :| 0 <= i < |ModeTable| && ModeTable[i] == (m.i, CurrentPreset(a, modes).v);
      ModeTableInjective();
      ToKeyInverts(ModeTable, i);
    } else {
      assert CurrentPreset(a, modes).v == "on";
    }
  }

  /** A fan in preset `on` asked for `eco` stays in `on`. */
  lemma EcoRequestStaysOn()
    ensures var a := map["stt" := Bool(true), "m" := Int(1)];
      var modes := ["on", "eco"];
      CurrentPreset(a + SetPresetModeAsWritten(a, modes, "eco").value, modes) == Reads("on")
  {
    var a := map["stt" := Bool(true), "m" := Int(1)];
    assert Get(a, "m") == Int(1);
    assert Lookup(ModeTable, 1) == Some("on");
    PresetRequestIgnored(a, ["on", "eco"], "eco");
  }

  /** Writing the requested preset's key: the preset reads back as
      requested, and `off` writes only `stt = False`. */
  lemma SetPresetModeRoundTrip(a: Record, modes: seq<string>, preset: string)
    requires modes != []
    ensures preset == "off" ==> SetPresetMode(preset) == TurnOffCommand()
    ensures ToKey(ModeTable, preset).Some? ==>
      CurrentPreset(a + SetPresetMode(preset), modes) == Reads(preset)
  {
    TablesWellFormed();
    ToKeyExact(ModeTable, "off");
    if ToKey(ModeTable, preset).Some? {
      ToKeyThenLookup(ModeTable, preset);
      assert "m" in SetPresetMode(preset);
    }
  }

  /** As written, turning on with a percentage stores a speed name where
      the readers expect a speed key, so the table lookup misses and, for a
      fan whose speeds do not include `off` (as no reported list does), the
      next percentage read raises. */
  lemma TurnOnSpeedUnreadable(a: Record, speeds: seq<string>, percentage: int, toItem: (seq<string>, int) -> string,
                               toPercent: (seq<string>, string) -> int)
    requires percentage > 0 && speeds != []
    ensures var r := TurnOnCommandAsWritten(speeds, Some(percentage), None, toItem).value;
      LookupValue(SpeedTable, Get(a + r, "sp")).None?
    ensures var r := TurnOnCommandAsWritten(speeds, Some(percentage), None, toItem).value;
      "off" !in speeds ==> Percentage(a + r, speeds, toPercent).Raises?
  {
    var r := TurnOnCommandAsWritten(speeds, Some(percentage), None, toItem).value;
    assert "sp" in r && "stt" in r;
    assert Get(a + r, "stt") == Bool(true);
    assert Get(a + r, "sp").Str?;
  }

  /** Sending the key instead: the speed reads back as the one chosen, and
      without a percentage a requested preset reads back as itself. */
  lemma TurnOnRoundTrip(a: Record, modes: seq<string>, speeds: seq<string>, percentage: Option<int>,
                        preset: Option<string>, toItem: (seq<string>, int) -> string, toPercent: (seq<string>, string) -> int)
    requires percentage.Some? && percentage.value > 0 ==> speeds != []
    requires PicksListItem(toItem)
    ensures TurnOnCommand(speeds, percentage, preset, toItem).Some?
    ensures Truthy(Get(a + TurnOnCommand(speeds, percentage, preset, toItem).value, "stt"))
    ensures percentage.Some? && percentage.value > 0 && ToKey(SpeedTable, toItem(speeds, percentage.value)).Some? ==>
      Percentage(a + TurnOnCommand(speeds, percentage, preset, toItem).value, speeds, toPercent)
        == Reads(toPercent(speeds, toItem(speeds, percentage.value)))
    ensures !(percentage.Some? && percentage.value > 0) && preset.Some? && ToKey(ModeTable, preset.value).Some? && modes != [] ==>
      CurrentPreset(a + TurnOnCommand(speeds, percentage, preset, toItem).value, modes) == Reads(preset.value)
  {
    TablesWellFormed();
    var r := TurnOnCommand(speeds, percentage, preset, toItem).value;
    assert "stt" in r && r["stt"] == Bool(true);
    if percentage.Some? && percentage.value > 0 && ToKey(SpeedTable, toItem(speeds, percentage.value)).Some? {
      ToKeyThenLookup(SpeedTable, toItem(speeds, percentage.value));
      assert "sp" in r;
    }
    if !(percentage.Some? && percentage.value > 0) && preset.Some? && ToKey(ModeTable, preset.value).Some? {
      ToKeyThenLookup(ModeTable, preset.value);
      assert "m" in r;
    }
  }

  /** Turning off always sends `stt = False` alone, and a fan with speeds
      then reads percentage 0. */
  lemma TurnOffReadsZero(a: Record, speeds: seq<string>, toPercent: (seq<string>, string) -> int)
    requires speeds != []
    ensures TurnOffCommand().Keys == {"stt"}
    ensures Percentage(a + TurnOffCommand(), speeds, toPercent) == Reads(0)
  {
    assert TurnOffCommand().Keys == {"stt"};
  }
}

=== FILE: framer.dfy ===
/** `subscribe`: read chunks from the socket into a buffer until the buffer
    holds one JSON document. Decoding and JSON parsing are a parameter
    `parse` over the accumulated bytes, `None` where the bytes do not (yet)
    form a document. */
module Framer {
  import opened Values

  type Byte = x: int | 0 <= x < 256

  /** What one `read` of the socket produces. */
  datatype Read = Chunk(bytes: seq<Byte>) | ReadTimeout | ConnectionLost

  /** What `subscribe` returns: a document, or `Pending` when the reads ran
      out before any of the ways out of the loop (the call would still be
      waiting), or `Raised` when an exception escapes the call. */
  datatype Frame = Doc(doc: Value) | Pending(buffer: seq<Byte>) | Raised

  /** `{}`, `{"error": "timeout"}` and `{"error": "connection"}`. */
  const EmptyDoc: Value := Obj(map[])
  const TimeoutDoc: Value := Obj(map["error" := Str("timeout")])
  const ConnectionDoc: Value := Obj(map["error" := Str("connection")])

  /** The newer client's loop, as a reference definition: given the input
      still to come and the buffer so far. Decoding replaces bad bytes, so
      an undecodable buffer is just one that does not parse yet. */
  function FrameOf(input: seq<Read>, buffer: seq<Byte>, parse: seq<Byte> -> Option<Value>): Frame
    decreases |input|
  {
    if |input| == 0 then Pending(buffer)
    else match input[0]
      case ReadTimeout => Doc(TimeoutDoc)
      case ConnectionLost => Doc(ConnectionDoc)
      case Chunk(bytes) =>
        if |bytes| == 0 then Doc(EmptyDoc)
        else
          var b := buffer + bytes;
          if parse(b).Some? then Doc(parse(b).value)
          else FrameOf(input[1..], b, parse)
  }

  /** `subscribe(timeout)` in the newer client, as the loop it is. */
  method Subscribe(input: seq<Read>, parse: seq<Byte> -> Option<Value>) returns (r: Frame)
    ensures r == FrameOf(input, [], parse)
    ensures !r.Raised?
  {
    var buffer: seq<Byte> := [];
    var i := 0;
    while i < |input|
      invariant 0 <= i <= |input|
      invariant FrameOf(input[i..], buffer, parse) == FrameOf(input, [], parse)
    {
      assert input[i..][1..] == input[i + 1..];
      match input[i] {
        case ReadTimeout => return Doc(TimeoutDoc);
        case ConnectionLost => return Doc(ConnectionDoc);
        case Chunk(bytes) =>
          if |bytes| == 0 {
            return Doc(EmptyDoc);
          }
          buffer := buffer + bytes;
          var parsed := parse(buffer);
          if parsed.Some? {
            return Doc(parsed.value);
          }
      }
      i := i + 1;
    }
    return Pending(buffer);
  }

  /** The concatenation of a run of chunks. */
  function Joined(cs: seq<seq<Byte>>): seq<Byte>
  {
    if |cs| == 0 then [] else cs[0] + Joined(cs[1..])
  }

  function Chunks(cs: seq<seq<Byte>>): seq<Read>
  {
    if |cs| == 0 then [] else [Chunk(cs[0])] + Chunks(cs[1..])
  }

  /** While no prefix of a run of non-empty chunks parses, the chunks
      accumulate and the call is still waiting on all of them. */
  lemma {:induction false} FrameAccumulates(buffer: seq<Byte>, cs: seq<seq<Byte>>, parse: seq<Byte> -> Option<Value>)
    requires forall i :: 0 <= i < |cs| ==> |cs[i]| > 0
    requires forall k :: 1 <= k <= |cs| ==> parse(buffer + Joined(cs[..k])).None?
    ensures FrameOf(Chunks(cs), buffer, parse) == Pending(buffer + Joined(cs))
    decreases |cs|
  {
    if |cs| > 0 {
      var b := buffer + cs[0];
      JoinedTake(buffer, cs, 1);
      forall k | 1 <= k <= |cs| - 1
        ensures parse(b + Joined(cs[1..][..k])).None?
      {
        JoinedTake(buffer, cs, k + 1);
      }
      FrameAccumulates(b, cs[1..], parse);
      assert Chunks(cs)[0] == Chunk(cs[0]) && Chunks(cs)[1..] == Chunks(cs[1..]);
      assert parse(b).None?;
      assert buffer + Joined(cs) == b + Joined(cs[1..]);
    }
  }

  /** The first prefix of a run of non-empty chunks that parses is the
      document returned. */
  lemma {:induction false} FrameFindsFirstDocument(buffer: seq<Byte>, cs: seq<seq<Byte>>, k: nat, parse: seq<Byte> -> Option<Value>)
    requires forall i :: 0 <= i < |cs| ==> |cs[i]| > 0
    requires 1 <= k <= |cs|
    requires parse(buffer + Joined(cs[..k])).Some?
    requires forall j :: 1 <= j < k ==> parse(buffer + Joined(cs[..j])).None?
    ensures FrameOf(Chunks(cs), buffer, parse) == Doc(parse(buffer + Joined(cs[..k])).value)
    decreases k
  {
    var b := buffer + cs[0];
    JoinedTake(buffer, cs, 1);
    JoinedTake(buffer, cs, k);
    assert Chunks(cs)[0] == Chunk(cs[0]) && Chunks(cs)[1..] == Chunks(cs[1..]);
    if k > 1 {
      forall j | 1 <= j < k - 1
        ensures parse(b + Joined(cs[1..][..j])).None?
      {
        JoinedTake(buffer, cs, j + 1);
      }
      FrameFindsFirstDocument(b, cs[1..], k - 1, parse);
    }
  }

  lemma JoinedTake(buffer: seq<Byte>, cs: seq<seq<Byte>>, k: nat)
    requires 1 <= k <= |cs|
    ensures buffer + Joined(cs[..k]) == (buffer + cs[0]) + Joined(cs[1..][..k - 1])
    ensures buffer + Joined(cs[..1]) == buffer + cs[0]
  {
    assert cs[..1][1..] == [];
    assert cs[..k][0] == cs[0] && cs[..k][1..] == cs[1..][..k - 1];
  }

  /** A zero-byte read, a timeout or a lost connection ends the call with
      the fixed document for it, whatever is in the buffer. */
  lemma FrameStops(buffer: seq<Byte>, rest: seq<Read>, parse: seq<Byte> -> Option<Value>)
    ensures FrameOf([Chunk([])] + rest, buffer, parse) == Doc(EmptyDoc)
    ensures FrameOf([ReadTimeout] + rest, buffer, parse) == Doc(TimeoutDoc)
    ensures FrameOf([ConnectionLost] + rest, buffer, parse) == Doc(ConnectionDoc)
  {
  }

  /** Where a message arrives split over two reads and the first part does
      not parse on its own, the result is as if it had arrived whole. */
  lemma SplitChunksJoin(buffer: seq<Byte>, a: seq<Byte>, b: seq<Byte>, rest: seq<Read>, parse: seq<Byte> -> Option<Value>)
    requires |a| > 0 && |b| > 0
    requires parse(buffer + a).None?
    ensures FrameOf([Chunk(a), Chunk(b)] + rest, buffer, parse) == FrameOf([Chunk(a + b)] + rest, buffer, parse)
  {
    assert ([Chunk(a), Chunk(b)] + rest)[1..] == [Chunk(b)] + rest;
    assert buffer + a + b == buffer + (a + b);
  }

  /** Once the buffer holds bytes that no continuation can turn into one
      document (two documents read together, say), the call returns only
      through a zero-byte read, a timeout or a lost connection. */
  lemma StuckBufferWaits(buffer: seq<Byte>, input: seq<Read>, parse: seq<Byte> -> Option<Value>)
    requires |buffer| > 0
    requires forall more: seq<Byte> :: parse(buffer + more).None?
    ensures FrameOf(input, buffer, parse).Doc? ==>
      FrameOf(input, buffer, parse).doc in {EmptyDoc, TimeoutDoc, ConnectionDoc}
    decreases |input|
  {
    if |input| > 0 && input[0].Chunk? && |input[0].bytes| > 0 {
      var b := buffer + input[0].bytes;
      assert parse(buffer + input[0].bytes).None?;
      forall more: seq<Byte>
        ensures parse(b + more).None?
      {
        assert b + more == buffer + (input[0].bytes + more);
      }
      StuckBufferWaits(b, input[1..], parse);
    }
  }

  // ---------------------------------------------------------------------
  // The older client

  predicate Continuation(x: Byte)
  {
    0x80 <= x <= 0xBF
  }

  /** Well-formed UTF-8 as in the table of section 4 of RFC 3629: what a
      strict `bytes.decode()` accepts. */
  predicate Utf8Valid(b: seq<Byte>)
    decreases |b|
  {
    if |b| == 0 then true
    else if b[0] <= 0x7F then Utf8Valid(b[1..])
    else if 0xC2 <= b[0] <= 0xDF then
      |b| >= 2 && Continuation(b[1]) && Utf8Valid(b[2..])
    else if b[0] == 0xE0 then
      |b| >= 3 && 0xA0 <= b[1] <= 0xBF && Continuation(b[2]) && Utf8Valid(b[3..])
    else if (0xE1 <= b[0] <= 0xEC) || (0xEE <= b[0] <= 0xEF) then
      |b| >= 3 && Continuation(b[1]) && Continuation(b[2]) && Utf8Valid(b[3..])
    else if b[0] == 0xED then
      |b| >= 3 && 0x80 <= b[1] <= 0x9F && Continuation(b[2]) && Utf8Valid(b[3..])
    else if b[0] == 0xF0 then
      |b| >= 4 && 0x90 <= b[1] <= 0xBF && Continuation(b[2]) && Continuation(b[3]) && Utf8Valid(b[4..])
    else if 0xF1 <= b[0] <= 0xF3 then
      |b| >= 4 && Continuation(b[1]) && Continuation(b[2]) && Continuation(b[3]) && Utf8Valid(b[4..])
    else if b[0] == 0xF4 then
      |b| >= 4 && 0x80 <= b[1] <= 0x8F && Continuation(b[2]) && Continuation(b[3]) && Utf8Valid(b[4..])
    else false
  }

  /** The older client's loop, as written: the buffer is decoded strictly
      and only a JSON error is caught, so a buffer that is not well-formed
      UTF-8 raises out of the call, and so does a lost connection. */
  function LegacyFrameOf(input: seq<Read>, buffer: seq<Byte>, parse: seq<Byte> -> Option<Value>): Frame
    decreases |input|
  {
    if |input| == 0 then Pending(buffer)
    else match input[0]
      case ReadTimeout => Doc(TimeoutDoc)
      case ConnectionLost => Raised
      case Chunk(bytes) =>
        if |bytes| == 0 then Doc(EmptyDoc)
        else
          var b := buffer + bytes;
          if !Utf8Valid(b) then Raised
          else if parse(b).Some? then Doc(parse(b).value)
          else LegacyFrameOf(input[1..], b, parse)
  }

  /** The older loop with a decoding failure treated like an incomplete
      document, which is what its `continue` on a JSON error evidently
      intends for a message that has not fully arrived. */
  function PatientFrameOf(input: seq<Read>, buffer: seq<Byte>, parse: seq<Byte> -> Option<Value>): Frame
    decreases |input|
  {
    if |input| == 0 then Pending(buffer)
    else match input[0]
      case ReadTimeout => Doc(TimeoutDoc)
      case ConnectionLost => Raised
      case Chunk(bytes) =>
        if |bytes| == 0 then Doc(EmptyDoc)
        else
          var b := buffer + bytes;
          if Utf8Valid(b) && parse(b).Some? then Doc(parse(b).value)
          else PatientFrameOf(input[1..], b, parse)
  }

  /** `subscribe(timeout)` in the older client. */
  method LegacySubscribe(input: seq<Read>, parse: seq<Byte> -> Option<Value>) returns (r: Frame)
    ensures r == LegacyFrameOf(input, [], parse)
  {
    var buffer: seq<Byte> := [];
    var i := 0;
    while i < |input|
      invariant 0 <= i <= |input|
      invariant LegacyFrameOf(input[i..], buffer, parse) == LegacyFrameOf(input, [], parse)
    {
      assert input[i..][1..] == input[i + 1..];
      match input[i] {
        case ReadTimeout => return Doc(TimeoutDoc);
        case ConnectionLost => return Raised;
        case Chunk(bytes) =>
          if |bytes| == 0 {
            return Doc(EmptyDoc);
          }
          buffer := buffer + bytes;
          if !Utf8Valid(buffer) {
            return Raised;
          }
          var parsed := parse(buffer);
          if parsed.Some? {
            return Doc(parsed.value);
          }
      }
      i := i + 1;
    }
    return Pending(buffer);
  }

  /** `"한"` (the bytes 22 ED 95 9C 22) read in one piece, and read as
      22 ED 95 followed by 9C 22. */
  const Whole: seq<Byte> := [0x22, 0xED, 0x95, 0x9C, 0x22]
  const Head: seq<Byte> := [0x22, 0xED, 0x95]
  const Tail: seq<Byte> := [0x9C, 0x22]

  lemma WholeIsUtf8()
    ensures Utf8Valid(Whole) && !Utf8Valid(Head) && Head + Tail == Whole
  {
    assert Whole[1..][3..] == [0x22];
    assert Whole[1..] == [0xED, 0x95, 0x9C, 0x22];
    assert [0x22 as Byte][1..] == [];
    assert Head[1..] == [0xED, 0x95];
  }

  /** As written, the older client raises on a message whose multi-byte
      character straddles two reads, although the same bytes in one read
      are decoded and parsed. */
  lemma LegacySplitCharacterRaises(parse: seq<Byte> -> Option<Value>)
    ensures LegacyFrameOf([Chunk(Head), Chunk(Tail)], [], parse) == Raised
    ensures LegacyFrameOf([Chunk(Whole)], [], parse) != Raised
  {
    WholeIsUtf8();
    assert [] + Head == Head;
    assert [] + Whole == Whole;
    assert [Chunk(Whole)][1..] == [];
  }

  /** With decoding failures treated as incomplete input, splitting a
      message across reads never changes the outcome while its first part
      is not a document on its own. */
  lemma PatientSplitChunksJoin(buffer: seq<Byte>, a: seq<Byte>, b: seq<Byte>, rest: seq<Read>, parse: seq<Byte> -> Option<Value>)
    requires |a| > 0 && |b| > 0
    requires !(Utf8Valid(buffer + a) && parse(buffer + a).Some?)
    ensures PatientFrameOf([Chunk(a), Chunk(b)] + rest, buffer, parse) == PatientFrameOf([Chunk(a + b)] + rest, buffer, parse)
  {
    assert ([Chunk(a), Chunk(b)] + rest)[1..] == [Chunk(b)] + rest;
    assert buffer + a + b == buffer + (a + b);
  }

  /** The corrected loop agrees with the loop as written wherever the
      latter does not raise on a decoding failure. */
  lemma {:induction false} PatientAgreesWhenDecodable(input: seq<Read>, buffer: seq<Byte>, parse: seq<Byte> -> Option<Value>)
    requires LegacyFrameOf(input, buffer, parse) != Raised
    ensures PatientFrameOf(input, buffer, parse) == LegacyFrameOf(input, buffer, parse)
    decreases |input|
  {
    if |input| > 0 && input[0].Chunk? && |input[0].bytes| > 0 {
      var b := buffer + input[0].bytes;
      if Utf8Valid(b) && parse(b).None? {
        PatientAgreesWhenDecodable(input[1..], b, parse);
      }
    }
  }

  /** The split message of `LegacySplitCharacterRaises` comes through the
      corrected loop exactly as the whole message does. */
  lemma PatientSplitCharacter(parse: seq<Byte> -> Option<Value>)
    ensures PatientFrameOf([Chunk(Head), Chunk(Tail)], [], parse) == PatientFrameOf([Chunk(Whole)], [], parse)
  {
    WholeIsUtf8();
    assert [] + Head == Head;
    PatientSplitChunksJoin([], Head, Tail, [], parse);
    assert [Chunk(Head), Chunk(Tail)] + [] == [Chunk(Head), Chunk(Tail)];
    assert [Chunk(Whole)] + [] == [Chunk(Whole)];
  }
}

=== FILE: ids.dfy ===
/** Unique ids of gateway records: `dev:pk:name` for a top-level device and
    `dev:fk_pk:name` for a child whose parent has primary key `fk`. */
module UniqueIds {
  import opened Values

  /** `make_unique_id(pk, fk, name)` under gateway id `dev`. */
  function UniqueId(dev: string, pk: int, fk: int, name: string): string
  {
    if fk == 0 then dev + ":" + IntToString(pk) + ":" + name
    else dev + ":" + IntToString(fk) + "_" + IntToString(pk) + ":" + name
  }

  /** The shape of `str(i)`: a non-empty run of digits, possibly after a
      leading minus sign. */
  predicate Numeral(s: string)
  {
    |s| >= 1 && forall k :: 0 <= k < |s| ==> IsDigit(s[k]) || (k == 0 && s[k] == '-')
  }

  predicate Separator(c: char)
  {
    !IsDigit(c) && c != '-'
  }

  /** A numeral followed by a separator can be read back unambiguously:
      the separator marks where the numeral ends. */
  lemma NumeralPrefix(a: string, sa: char, x: string, b: string, sb: char, y: string)
    requires Numeral(a) && Numeral(b)
    requires Separator(sa) && Separator(sb)
    requires a + [sa] + x == b + [sb] + y
    ensures a == b && sa == sb && x == y
  {
    var l := a + [sa] + x;
    var r := b + [sb] + y;
    SeparatorEndsNumeral(a, sa, x);
    SeparatorEndsNumeral(b, sb, y);
    assert |a| == |b|;
    assert a == l[..|a|] && b == r[..|b|];
    assert x == l[|a| + 1..] && y == r[|b| + 1..];
  }

  /** In a numeral followed by a separator, the separator is the first
      character after position 0 that is not part of a numeral. */
  lemma SeparatorEndsNumeral(a: string, sa: char, x: string)
    requires Numeral(a) && Separator(sa)
    ensures (a + [sa] + x)[|a|] == sa
    ensures forall k :: 0 < k < |a| ==> !Separator((a + [sa] + x)[k])
  {
  }

  lemma DropGateway(dev: string, rest1: string, rest2: string)
    requires dev + ":" + rest1 == dev + ":" + rest2
    ensures rest1 == rest2
  {
    var l := dev + ":" + rest1;
    assert rest1 == l[|dev| + 1..];
    assert rest2 == (dev + ":" + rest2)[|dev| + 1..];
  }

  lemma RootShape(dev: string, pk: int, name: string)
    ensures UniqueId(dev, pk, 0, name) == dev + ":" + (IntToString(pk) + [':'] + name)
  {
    assert dev + ":" + IntToString(pk) + ":" + name == dev + ":" + (IntToString(pk) + [':'] + name);
  }

  lemma ChildShape(dev: string, fk: int, pk: int, name: string)
    requires fk != 0
    ensures UniqueId(dev, pk, fk, name)
         == dev + ":" + (IntToString(fk) + ['_'] + (IntToString(pk) + [':'] + name))
  {
    assert dev + ":" + IntToString(fk) + "_" + IntToString(pk) + ":" + name
        == dev + ":" + (IntToString(fk) + ['_'] + (IntToString(pk) + [':'] + name));
  }

  /** Two top-level records of one gateway share an id only when they have
      the same primary key and the same name. */
  lemma {:induction false} RootIdInjective(dev: string, pk1: int, name1: string, pk2: int, name2: string)
    requires UniqueId(dev, pk1, 0, name1) == UniqueId(dev, pk2, 0, name2)
    ensures pk1 == pk2 && name1 == name2
  {
    RootShape(dev, pk1, name1);
    RootShape(dev, pk2, name2);
    DropGateway(dev, IntToString(pk1) + [':'] + name1, IntToString(pk2) + [':'] + name2);
    NumeralPrefix(IntToString(pk1), ':', name1, IntToString(pk2), ':', name2);
    IntToStringInjective(pk1, pk2);
  }

  /** Two child records of one gateway share an id only when parent key,
      primary key and name all agree. */
  lemma {:induction false} ChildIdInjective(dev: string, fk1: int, pk1: int, name1: string,
                                            fk2: int, pk2: int, name2: string)
    requires fk1 != 0 && fk2 != 0
    requires UniqueId(dev, pk1, fk1, name1) == UniqueId(dev, pk2, fk2, name2)
    ensures fk1 == fk2 && pk1 == pk2 && name1 == name2
  {
    ChildShape(dev, fk1, pk1, name1);
    ChildShape(dev, fk2, pk2, name2);
    var tail1 := IntToString(pk1) + [':'] + name1;
    var tail2 := IntToString(pk2) + [':'] + name2;
    DropGateway(dev, IntToString(fk1) + ['_'] + tail1, IntToString(fk2) + ['_'] + tail2);
    NumeralPrefix(IntToString(fk1), '_', tail1, IntToString(fk2), '_', tail2);
    NumeralPrefix(IntToString(pk1), ':', name1, IntToString(pk2), ':', name2);
    IntToStringInjective(fk1, fk2);
    IntToStringInjective(pk1, pk2);
  }

  /** A child id never equals a top-level id, whatever the keys and names:
      after the first numeral a child id has `_` where a root id has `:`. */
  lemma {:induction false} RootAndChildIdsDiffer(dev: string, pk: int, name: string,
                                                 fk: int, cpk: int, cname: string)
    requires fk != 0
    ensures UniqueId(dev, pk, 0, name) != UniqueId(dev, cpk, fk, cname)
  {
    RootShape(dev, pk, name);
    ChildShape(dev, fk, cpk, cname);
    var rootTail := IntToString(pk) + [':'] + name;
    var childTail := IntToString(fk) + ['_'] + (IntToString(cpk) + [':'] + cname);
    if UniqueId(dev, pk, 0, name) == UniqueId(dev, cpk, fk, cname) {
      DropGateway(dev, rootTail, childTail);
      NumeralPrefix(IntToString(pk), ':', name, IntToString(fk), '_', IntToString(cpk) + [':'] + cname);
    }
  }

  /** The concrete case: child 3 of device 7 and top-level device 3 get
      different ids even when both are called "x". */
  lemma ChildThreeOfSevenIsNotRootThree(dev: string)
    ensures UniqueId(dev, 3, 7, "x") != UniqueId(dev, 3, 0, "x")
  {
    RootAndChildIdsDiffer(dev, 3, "x", 7, 3, "x");
  }
}

=== FILE: legacy.dfy ===
/** The older single-file client's synchroniser: the same merge as the
    newer one, but hidden children are skipped, classification looks at
    the record's type only, there is no health map, and a `health` report
    re-requests every listed key. */
module LegacyClient {
  import opened Values
  import opened Const
  import opened Protocol
  import opened PkSort
  import opened DeviceTree
  import opened GatewaySession

  /** `child.get("hide") is True`. */
  predicate Hidden(c: Record)
  {
    Get(c, "hide") == Bool(true)
  }

  /** Every child gets its parent's key; only a visible child also gets the
      parent's root id. */
  function LegacyStamp(c: Record, parentPk: int, parentId: string): Record
  {
    if Hidden(c) then c["fk" := Int(parentPk)] else Stamp(c, parentPk, parentId)
  }

  function LegacyStampAll(cs: seq<Record>, parentPk: int, parentId: string): seq<Record>
  {
    if |cs| == 0 then [] else [LegacyStamp(cs[0], parentPk, parentId)] + LegacyStampAll(cs[1..], parentPk, parentId)
  }

  /** A device as the older client stores it. */
  function LegacyNormalise(dev: string, d: Record): Record
  {
    d["children" := List(Wrap(LegacyStampAll(SortByPk(Children(d)), PkOf(d), ParentId(dev, d))))]
  }

  function LegacyNormaliseAll(dev: string, ds: seq<Record>): seq<Record>
  {
    if |ds| == 0 then [] else [LegacyNormalise(dev, ds[0])] + LegacyNormaliseAll(dev, ds[1..])
  }

  /** The children that are not hidden, in order. */
  function Visible(cs: seq<Record>): seq<Record>
  {
    if |cs| == 0 then [] else (if Hidden(cs[0]) then [] else [cs[0]]) + Visible(cs[1..])
  }

  lemma {:induction false} VisibleMembers(cs: seq<Record>)
    ensures forall c :: c in Visible(cs) <==> c in cs && !Hidden(c)
  {
    if |cs| > 0 {
      VisibleMembers(cs[1..]);
      assert forall c :: c in cs <==> c == cs[0] || c in cs[1..];
    }
  }

  /** The older `update_device`: the device, then its visible children. */
  function LegacyDeviceRecords(d: Record): seq<Record>
  {
    [d] + Visible(Children(d))
  }

  function LegacyFlatten(ds: seq<Record>): seq<Record>
  {
    if |ds| == 0 then [] else LegacyDeviceRecords(ds[0]) + LegacyFlatten(ds[1..])
  }

  /** `map_worlty_to_platform(entity.get("type"))`: the older table is a
      parameter, consulted with the type alone. */
  function LegacyClassify(byType: Value -> Option<Platform>): Record -> Option<Platform>
  {
    r => byType(Get(r, "type"))
  }

  /** The older classifier cannot tell apart records that differ only in
      their class. */
  lemma LegacyClassifyIgnoresClass(byType: Value -> Option<Platform>, r: Record, cls: Value)
    ensures LegacyClassify(byType)(r["cls" := cls]) == LegacyClassify(byType)(r)
  {
    assert Get(r["cls" := cls], "type") == Get(r, "type");
  }

  /** The `update` branch of the older `handle_message`: no health map is
      written. */
  function LegacyApplyUpdate(t: Tree, devices: seq<Record>, byType: Value -> Option<Platform>): (Tree, seq<Event>)
  {
    var ds := LegacyNormaliseAll(t.deviceId, SortByPk(devices));
    var (t1, events) := MergeAll(t, LegacyFlatten(ds), LegacyClassify(byType));
    (t1, events + if |devices| > 0 then [Persisted(t1.entities)] else [])
  }

  lemma LegacyStampKeepsHide(c: Record, parentPk: int, parentId: string)
    ensures Hidden(LegacyStamp(c, parentPk, parentId)) <==> Hidden(c)
    ensures PkOf(LegacyStamp(c, parentPk, parentId)) == PkOf(c)
    ensures Get(LegacyStamp(c, parentPk, parentId), "fk") == Int(parentPk)
    ensures Hidden(c) ==> Get(LegacyStamp(c, parentPk, parentId), "parent_unique_id") == Get(c, "parent_unique_id")
    ensures !Hidden(c) ==> Get(LegacyStamp(c, parentPk, parentId), "parent_unique_id") == Str(parentId)
  {
  }

  lemma {:induction false} LegacyStampAllMembers(cs: seq<Record>, parentPk: int, parentId: string)
    ensures |LegacyStampAll(cs, parentPk, parentId)| == |cs|
    ensures forall i :: 0 <= i < |cs| ==> LegacyStampAll(cs, parentPk, parentId)[i] == LegacyStamp(cs[i], parentPk, parentId)
  {
    if |cs| > 0 {
      LegacyStampAllMembers(cs[1..], parentPk, parentId);
    }
  }

  /** Every child of a stored device carries the parent's key; the hidden
      ones do not get the parent's root id and are never merged, while the
      device and each of its visible children are. */
  lemma HiddenChildrenSkipped(dev: string, d: Record)
    ensures var nd := LegacyNormalise(dev, d);
      && (forall i :: 0 <= i < |Children(nd)| ==> Get(Children(nd)[i], "fk") == Int(PkOf(d)))
      && (forall i :: 0 <= i < |Children(nd)| && !Hidden(Children(nd)[i]) ==>
            Get(Children(nd)[i], "parent_unique_id") == Str(ParentId(dev, d)))
      && (forall r :: r in LegacyDeviceRecords(nd) <==> r == nd || (r in Children(nd) && !Hidden(r)))
  {
    var stamped := LegacyStampAll(SortByPk(Children(d)), PkOf(d), ParentId(dev, d));
    ObjectsOfWrap(stamped);
    var nd := LegacyNormalise(dev, d);
    assert Children(nd) == stamped;
    LegacyStampAllMembers(SortByPk(Children(d)), PkOf(d), ParentId(dev, d));
    forall i | 0 <= i < |stamped|
      ensures Get(stamped[i], "fk") == Int(PkOf(d))
      ensures !Hidden(stamped[i]) ==> Get(stamped[i], "parent_unique_id") == Str(ParentId(dev, d))
    {
      LegacyStampKeepsHide(SortByPk(Children(d))[i], PkOf(d), ParentId(dev, d));
    }
    VisibleMembers(stamped);
  }

  /** Merging a stored device leaves the entry of a hidden child untouched,
      unless a merged record shares its id. */
  lemma HiddenChildNotFiled(t: Tree, dev: string, d: Record, byType: Value -> Option<Platform>, c: Record)
    requires t.deviceId == dev
    requires c in Children(LegacyNormalise(dev, d)) && Hidden(c)
    requires RecordId(dev, c) != RecordId(dev, LegacyNormalise(dev, d))
    requires forall v :: v in Children(LegacyNormalise(dev, d)) && !Hidden(v) ==> RecordId(dev, v) != RecordId(dev, c)
    ensures var rs := LegacyDeviceRecords(LegacyNormalise(dev, d));
      EntityAt(MergeAll(t, rs, LegacyClassify(byType)).0, RecordId(dev, c)) == EntityAt(t, RecordId(dev, c))
  {
    var nd := LegacyNormalise(dev, d);
    var rs := LegacyDeviceRecords(nd);
    HiddenChildrenSkipped(dev, d);
    forall i | 0 <= i < |rs|
      ensures RecordId(dev, rs[i]) != RecordId(dev, c)
    {
      assert rs[i] in rs;
    }
    MergeAllTouchesOnly(t, rs, LegacyClassify(byType), RecordId(dev, c));
  }

  /** `[int(pk) for pk, _ in devices.items()]`: every listed key, `None`
      where `int()` raises. */
  function LegacyHealthPks(reported: seq<(string, Value)>): Option<seq<int>>
  {
    if |reported| == 0 then Some([])
    else match (ParseInt(reported[0].0), LegacyHealthPks(reported[1..]))
      case (Some(p), Some(ps)) => Some([p] + ps)
      case _ => None
  }

  /** The older client requests every listed key, in order, whatever its
      `lct`, and fails exactly when some key is not an integer. */
  lemma {:induction false} LegacyHealthRequestsAll(reported: seq<(string, Value)>)
    ensures LegacyHealthPks(reported).None? <==> exists i :: 0 <= i < |reported| && ParseInt(reported[i].0).None?
    ensures LegacyHealthPks(reported).Some? ==>
      var ps := LegacyHealthPks(reported).value;
      |ps| == |reported| && forall i :: 0 <= i < |ps| ==> Some(ps[i]) == ParseInt(reported[i].0)
  {
    if |reported| > 0 {
      LegacyHealthRequestsAll(reported[1..]);
      assert forall i :: 0 < i < |reported| ==> reported[i] == reported[1..][i - 1];
    }
  }

  /** The `handle_message` of the older client. There is no health map, so
      a `health` report always publishes a `get`, even for no keys, and an
      update batch needs no `lct`. */
  function LegacyHandleMessage(t: Tree, m: Message, byType: Value -> Option<Platform>): (Tree, seq<Event>, Status)
  {
    match m
    case UpdateMessage(vs) =>
      if !AllObjects(vs) then (t, [], Handled)  // logged as unhandled
      else
        var devices := Objects(vs);
        if !(forall i :: 0 <= i < |devices| ==> WellShapedDevice(devices[i])) then (t, [], Malformed)
        else
          var (t1, events) := LegacyApplyUpdate(t, devices, byType);
          (t1, events, Handled)
    case HealthMessage(reported) =>
      var pks := LegacyHealthPks(reported);
      if pks.None? then (t, [], Raised) else (t, [Published(GetDevices(pks.value))], Handled)
    case DeviceListMessage(listed) => (t, [Published(GetListed(listed))], Handled)
    case DeviceDeleteMessage => (t, [], Handled)
    case OtherMessage => (t, [], Handled)
  }

  /** A health report leaves the tree alone and, unless some key is not an
      integer, publishes exactly one `get` naming every reported key in
      order, even when there are none. */
  lemma LegacyHandleHealth(t: Tree, reported: seq<(string, Value)>, byType: Value -> Option<Platform>)
    ensures var (t1, events, status) := LegacyHandleMessage(t, HealthMessage(reported), byType);
      && t1 == t
      && (status == Raised <==> exists i :: 0 <= i < |reported| && ParseInt(reported[i].0).None?)
      && (status == Handled ==>
            |events| == 1 && events[0].Published? && events[0] == Published(GetDevices(LegacyHealthPks(reported).value))
            && |LegacyHealthPks(reported).value| == |reported|
            && forall i :: 0 <= i < |reported| ==> Some(LegacyHealthPks(reported).value[i]) == ParseInt(reported[i].0))
      && (status == Raised ==> events == [])
  {
    LegacyHealthRequestsAll(reported);
  }

  /** The older loop refuses the same shapes as the newer one, save that it
      never reads `lct`: a batch with a device outside that shape is
      reported as `Malformed` and leaves the tree alone. */
  lemma LegacyUpdateNeedsNoLct(t: Tree, vs: seq<Value>, byType: Value -> Option<Platform>)
    requires AllObjects(vs)
    ensures var (t1, events, status) := LegacyHandleMessage(t, UpdateMessage(vs), byType);
      && (status == Malformed <==> exists i :: 0 <= i < |vs| && !WellShapedDevice(vs[i].fields))
      && (status == Malformed ==> t1 == t && events == [])
  {
    ObjectsFields(vs);
  }

  /** Whatever the newer client requests for a report, the older one
      requests too; the older one fails whenever the newer one does. */
  lemma {:induction false} LegacyRequestsSuperset(h: map<string, Value>, reported: seq<(string, Value)>)
    ensures ChangedPks(h, reported).None? ==> LegacyHealthPks(reported).None?
    ensures ChangedPks(h, reported).Some? && LegacyHealthPks(reported).Some? ==>
      forall p :: p in ChangedPks(h, reported).value ==> p in LegacyHealthPks(reported).value
  {
    ChangedPksExact(h, reported);
    LegacyHealthRequestsAll(reported);
    if ChangedPks(h, reported).Some? && LegacyHealthPks(reported).Some? {
      var ps := LegacyHealthPks(reported).value;
      forall p | p in ChangedPks(h, reported).value
        ensures p in ps
      {
        var i :| 0 <= i < |reported| && Changed(h, reported[i].0, reported[i].1) && ParseInt(reported[i].0) == Some(p);
        assert ps[i] == p;
      }
    }
  }
}

=== FILE: legacy_light.dfy ===
/** The light entity of the older client. It differs from the newer one in
    three places: a level overrides `bri` only when it is positive, the
    brightness mode comes from bit 2 of `sc` alone and is added to on/off
    rather than replacing it, and turning on writes a raw brightness scaled
    from the required brightness argument. `math.ceil` of
    `percentage_to_ranged_value` is the parameter `scale`. */
module LegacyLight {
  import opened Values
  import opened ModeTables
  import Light

  /** `wt_level_max` as last read (any JSON value) and `wt_last_bri`. */
  datatype LegacyState = LegacyState(levelMax: Value, lastBri: Value)

  const Initial := LegacyState(Int(0), Int(0))

  datatype LegacyRead = Read(bri: Value, state: LegacyState) | Raised

  /** `brightness`: the level overrides `bri` only when `0 < lv <= lvm`;
      `lvm` is compared only for a positive level. */
  function ReadBrightness(a: Record, st: LegacyState, toBrightness: (int, int) -> int): LegacyRead
  {
    var lvmRaw := Get(a, "lvm");
    var level := if "lv" in a then Light.IntOf(a["lv"]) else Some(0);
    if level.None? then Raised
    else if level.value > 0 && Light.IntOf(lvmRaw).None? then Raised
    else
      var bri := if level.value > 0 && Light.IntOf(lvmRaw).value >= level.value
        then Int(toBrightness(Light.IntOf(lvmRaw).value, level.value)) else Get(a, "bri");
      var positive := Light.PositiveOf(bri);
      if positive.None? then Raised
      else Read(bri, LegacyState(lvmRaw, if positive.value then bri else st.lastBri))
  }

  /** `supported_color_modes`: on/off, followed by brightness when bit 2 of
      `sc` is set. */
  function SupportedColorModes(a: Record): Option<seq<Light.ColorMode>>
  {
    var sc := MaskOf(a, "sc");
    if sc.None? then None
    else Some([Light.OnOff] + (if BitSet(sc.value, 2) then [Light.Brightness] else []))
  }

  /** `async_turn_on`: with more than one level, one command switching on
      with the scaled brightness argument, which must be present; otherwise
      just switching on. `None` where the comparison raises or the argument
      is missing. */
  function TurnOn(st: LegacyState, kwargs: Record, scale: (int, Value) -> int): Option<seq<Record>>
  {
    var lvm := Light.IntOf(st.levelMax);
    if lvm.None? then None
    else if lvm.value > 1 then
      if "brightness" in kwargs
      then Some([map["stt" := Bool(true), "bri" := Int(scale(lvm.value, kwargs["brightness"]))]])
      else None
    else Some([map["stt" := Bool(true)]])
  }

  // ---------------------------------------------------------------------
  // Properties
  // ---------------------------------------------------------------------

  /** The level overrides `bri` exactly when `0 < lv <= lvm`. */
  lemma LevelOverride(a: Record, st: LegacyState, toBrightness: (int, int) -> int)
    requires ReadBrightness(a, st, toBrightness).Read?
    ensures var level := if "lv" in a then Light.IntOf(a["lv"]).value else 0;
      var r := ReadBrightness(a, st, toBrightness);
      && (0 < level ==> Light.IntOf(Get(a, "lvm")).Some?)
      && (0 < level <= Light.IntOf(Get(a, "lvm")).value ==>
            r.bri == Int(toBrightness(Light.IntOf(Get(a, "lvm")).value, level)))
      && (level <= 0 || (0 < level && Light.IntOf(Get(a, "lvm")).value < level) ==> r.bri == Get(a, "bri"))
      && r.state.levelMax == Get(a, "lvm")
  {
  }

  /** The remembered brightness changes only to a positive brightness, and
      always to one. */
  lemma LastBrightnessOnlyPositive(a: Record, st: LegacyState, toBrightness: (int, int) -> int)
    requires ReadBrightness(a, st, toBrightness).Read?
    ensures var r := ReadBrightness(a, st, toBrightness);
      && (Light.PositiveOf(r.bri) == Some(true) ==> r.state.lastBri == r.bri)
      && (Light.PositiveOf(r.bri) == Some(false) ==> r.state.lastBri == st.lastBri)
  {
  }

  /** Without a level, `lvm` is not even looked at: a missing `lvm` does
      not raise, unlike in the newer client. */
  lemma NoLevelIgnoresMax(a: Record, st: LegacyState, toBrightness: (int, int) -> int)
    requires "lv" !in a && "lvm" !in a && Light.PositiveOf(Get(a, "bri")).Some?
    ensures ReadBrightness(a, st, toBrightness) == Read(Get(a, "bri"), LegacyState(Null, if Light.PositiveOf(Get(a, "bri")) == Some(true) then Get(a, "bri") else st.lastBri))
    ensures Light.ReadBrightness(a, Light.Initial, toBrightness).Raised?
  {
  }

  /** On/off is always the first mode; brightness follows exactly when bit
      2 is set. */
  lemma SupportedModesSpec(a: Record)
    ensures SupportedColorModes(a).None? <==> MaskOf(a, "sc").None?
    ensures SupportedColorModes(a).Some? ==>
      var modes := SupportedColorModes(a).value;
      && modes[0] == Light.OnOff
      && (Light.Brightness in modes <==> BitSet(MaskOf(a, "sc").value, 2))
      && |modes| == (if BitSet(MaskOf(a, "sc").value, 2) then 2 else 1)
  {
  }

  /** Where the two clients agree and differ on the modes: bit 2 means
      brightness in both, but only the older one keeps on/off alongside it,
      and bit 1 alone means brightness only in the newer one. */
  lemma ModesComparedWithNewer(a: Record, st: Light.LightState)
    requires MaskOf(a, "sc").Some?
    ensures var sc := MaskOf(a, "sc").value;
      var older := SupportedColorModes(a).value;
      var newer := Light.SupportedColorModes(a, st).value.0;
      && (BitSet(sc, 2) ==> Light.Brightness in older && Light.Brightness in newer)
      && (Light.OnOff in older && (Light.OnOff in newer <==> !BitSet(sc, 1) && !BitSet(sc, 2)))
      && (BitSet(sc, 1) && !BitSet(sc, 2) ==> Light.Brightness !in older && Light.Brightness in newer)
  {
    SupportedModesSpec(a);
    Light.SupportedModesSpec(a, st);
  }

  /** The two clients read the same brightness for a level in `1..lvm`; for
      a level of zero or below only the newer one overrides `bri`. */
  lemma ReadComparedWithNewer(a: Record, st: LegacyState, nst: Light.LightState, toBrightness: (int, int) -> int)
    requires ReadBrightness(a, st, toBrightness).Read? && Light.ReadBrightness(a, nst, toBrightness).Read?
    ensures var level := if "lv" in a then Light.IntOf(a["lv"]).value else 0;
      var lvm := Light.IntOf(Get(a, "lvm")).value;
      && (0 < level <= lvm ==> ReadBrightness(a, st, toBrightness).bri == Light.ReadBrightness(a, nst, toBrightness).bri)
      && (level <= 0 && level <= lvm ==>
            ReadBrightness(a, st, toBrightness).bri == Get(a, "bri")
            && Light.ReadBrightness(a, nst, toBrightness).bri == Int(toBrightness(lvm, level)))
  {
  }

  /** Turning on with at most one level only switches on; with more it
      needs the brightness argument and writes its scaled value. */
  lemma TurnOnSpec(st: LegacyState, kwargs: Record, scale: (int, Value) -> int)
    ensures TurnOn(st, kwargs, scale).None? <==>
      Light.IntOf(st.levelMax).None? || (Light.IntOf(st.levelMax).value > 1 && "brightness" !in kwargs)
    ensures TurnOn(st, kwargs, scale).Some? ==>
      var cmds := TurnOn(st, kwargs, scale).value;
      var lvm := Light.IntOf(st.levelMax).value;
      && |cmds| == 1 && "stt" in cmds[0] && cmds[0]["stt"] == Bool(true)
      && (lvm > 1 <==> "bri" in cmds[0])
      && (lvm > 1 ==> cmds[0]["bri"] == Int(scale(lvm, kwargs["brightness"])))
  {
  }

  /** Turning on before any brightness read only switches the light on. */
  lemma TurnOnInitially(kwargs: Record, scale: (int, Value) -> int)
    ensures TurnOn(Initial, kwargs, scale) == Some([map["stt" := Bool(true)]])
  {
  }

  /** A turn-on, echoed back, reads as on, and its scaled brightness is
      what the next read reports when the device sends no level. */
  lemma TurnOnRoundTrip(a: Record, st: LegacyState, kwargs: Record, scale: (int, Value) -> int,
                        toBrightness: (int, int) -> int)
    requires TurnOn(st, kwargs, scale).Some? && "lv" !in a
    ensures var cmd := TurnOn(st, kwargs, scale).value[0];
      && Light.IsOn(a + cmd) == Bool(true)
      && ("bri" in cmd ==> ReadBrightness(a + cmd, st, toBrightness).Read?
                           && ReadBrightness(a + cmd, st, toBrightness).bri == cmd["bri"])
  {
    TurnOnSpec(st, kwargs, scale);
  }
}

=== FILE: light.dfy ===
/** The light entity of the newer client: on/off from `stt`, brightness
    from a device level `lv` out of `lvm` levels or from a raw `bri`, and
    colour modes from bits 1 and 2 of `sc`. Home Assistant's
    `value_to_brightness`, the percentage rounding and
    `percentage_to_ordered_list_item` are parameters. */
module Light {
  import opened Values
  import opened ModeTables
  import opened Protocol
  import opened CommandQueue

  datatype ColorMode = OnOff | Brightness

  /** What the entity object keeps between calls: `wt_level_max`,
      `dim_level`, `wt_last_bri` and `_color_mode`. */
  datatype LightState = LightState(levelMax: int, dimLevel: seq<int>, lastBri: Value, colorMode: ColorMode)

  const Initial := LightState(0, [], Int(0), OnOff)

  /** A JSON value used as a Python int: booleans are 0 and 1; `None` for
      values that make the comparison or `range` raise. */
  function IntOf(v: Value): Option<int>
  {
    match v
    case Int(i) => Some(i)
    case Bool(b) => Some(if b then 1 else 0)
    case _ => None
  }

  /** `bri is not None and bri > 0`; `None` where `>` raises. */
  function PositiveOf(v: Value): Option<bool>
  {
    match v
    case Null => Some(false)
    case Int(i) => Some(i > 0)
    case Bool(b) => Some(b)
    case Real(r) => Some(r > 0.0)
    case _ => None
  }

  /** `is_on`: the attribute `stt`, `False` when absent. */
  function IsOn(a: Record): Value
  {
    if "stt" in a then a["stt"] else Bool(false)
  }

  /** `[i for i in range(1, n + 1)]`. */
  function Levels(n: int): seq<int>
  {
    seq(if n > 0 then n else 0, i => i + 1)
  }

  datatype BrightnessRead = Read(bri: Value, state: LightState) | Raised

  /** `brightness`: reads `lvm` (rebuilding the level list when its length
      differs), overrides `bri` from the level whenever `lvm >= lv`, and
      remembers a positive result. `Raised` where `range`, `>=` or `>`
      raise. */
  function ReadBrightness(a: Record, st: LightState, toBrightness: (int, int) -> int): BrightnessRead
  {
    var lvm := IntOf(Get(a, "lvm"));
    var level := if "lv" in a then IntOf(a["lv"]) else Some(0);
    if lvm.None? || level.None? then Raised
    else
      var dim := if |st.dimLevel| != lvm.value then Levels(lvm.value) else st.dimLevel;
      var bri := if lvm.value >= level.value then Int(toBrightness(lvm.value, level.value)) else Get(a, "bri");
      var positive := PositiveOf(bri);
      if positive.None? then Raised
      else Read(bri, LightState(lvm.value, dim, if positive.value then bri else st.lastBri, st.colorMode))
  }

  /** Whether bit 1 or bit 2 of `sc` asks for brightness control. */
  predicate Dimmable(sc: int)
  {
    BitSet(sc, 1) || BitSet(sc, 2)
  }

  /** `supported_color_modes`: brightness alone when dimmable, on/off
      alone otherwise; a dimmable light also switches its colour mode to
      brightness. `None` when `sc` is not an integer. */
  function SupportedColorModes(a: Record, st: LightState): Option<(set<ColorMode>, LightState)>
  {
    var sc := MaskOf(a, "sc");
    if sc.None? then None
    else if Dimmable(sc.value) then Some(({Brightness}, st.(colorMode := Brightness)))
    else Some(({OnOff}, st))
  }

  /** The brightness a turn-on asks for: the argument, else the last
      positive brightness. */
  function Requested(st: LightState, kwargs: Record): Value
  {
    if "brightness" in kwargs then kwargs["brightness"] else st.lastBri
  }

  /** `async_turn_on`: the keyword arguments of each `set_device` call, in
      order. With more than one level, bit 1 of `sc` writes a level and bit
      2 a raw brightness, each switching the light on; otherwise the light
      is only switched on. `None` where `sc` is not an integer or the
      percentage rounding raises. */
  function TurnOn(a: Record, st: LightState, kwargs: Record,
                  toPercent: Value -> Option<int>, toItem: (seq<int>, int) -> int): Option<seq<Record>>
  {
    if st.levelMax > 1 then
      var sc := MaskOf(a, "sc");
      var b := Requested(st, kwargs);
      if sc.None? || (BitSet(sc.value, 1) && toPercent(b).None?) then None
      else
        var byLevel := if BitSet(sc.value, 1)
          then [map["stt" := Bool(true), "lv" := Int(toItem(st.dimLevel, toPercent(b).value))]] else [];
        var byBrightness := if BitSet(sc.value, 2) then [map["stt" := Bool(true), "bri" := b]] else [];
        Some(byLevel + byBrightness)
    else
      Some([map["stt" := Bool(true)]])
  }

  /** `async_turn_off`. */
  function TurnOffCommand(): Record
  {
    map["stt" := Bool(false)]
  }

  // ---------------------------------------------------------------------
  // Properties
  // ---------------------------------------------------------------------

  lemma LevelsSpec(n: int)
    ensures |Levels(n)| == (if n > 0 then n else 0)
    ensures forall i :: 0 <= i < |Levels(n)| ==> Levels(n)[i] == i + 1
    ensures forall i :: 0 <= i < |Levels(n)| ==> 1 <= Levels(n)[i] <= n
  {
  }

  /** Lists of the form `[1..n]` are told apart by their length. */
  lemma LevelsByLength(m: int, n: int)
    requires n >= 0 && |Levels(m)| == n
    ensures Levels(m) == Levels(n)
  {
    LevelsSpec(m);
    LevelsSpec(n);
  }

  /** The level list only ever holds `1..n`, starting empty; after a read
      it is `1..lvm`, and `wt_level_max` is `lvm`. */
  lemma DimLevelFollowsMax(a: Record, st: LightState, m: int, toBrightness: (int, int) -> int)
    requires st.dimLevel == Levels(m)
    requires ReadBrightness(a, st, toBrightness).Read?
    ensures var s := ReadBrightness(a, st, toBrightness).state;
      s.levelMax == IntOf(Get(a, "lvm")).value && s.dimLevel == Levels(s.levelMax)
  {
    var lvm := IntOf(Get(a, "lvm")).value;
    if |st.dimLevel| == lvm {
      LevelsByLength(m, lvm);
    }
  }

  /** The level overrides `bri` exactly when `lvm >= lv`, with no check
      that the level is positive; otherwise `bri` is reported as is. */
  lemma LevelOverride(a: Record, st: LightState, toBrightness: (int, int) -> int)
    requires ReadBrightness(a, st, toBrightness).Read?
    ensures var lvm := IntOf(Get(a, "lvm")).value;
      var level := if "lv" in a then IntOf(a["lv"]).value else 0;
      && (lvm >= level ==> ReadBrightness(a, st, toBrightness).bri == Int(toBrightness(lvm, level)))
      && (lvm < level ==> ReadBrightness(a, st, toBrightness).bri == Get(a, "bri"))
  {
  }

  /** The remembered brightness changes only to a positive brightness, and
      always to one. */
  lemma LastBrightnessOnlyPositive(a: Record, st: LightState, toBrightness: (int, int) -> int)
    requires ReadBrightness(a, st, toBrightness).Read?
    ensures var r := ReadBrightness(a, st, toBrightness);
      && (PositiveOf(r.bri) == Some(true) ==> r.state.lastBri == r.bri)
      && (PositiveOf(r.bri) == Some(false) ==> r.state.lastBri == st.lastBri)
      && r.state.colorMode == st.colorMode
  {
  }

  /** Reading raises without `lvm` (`range` over `None`) or with a null
      `lv`, and succeeds whenever both are integers and `bri` compares with
      0. */
  lemma ReadFailures(a: Record, st: LightState, toBrightness: (int, int) -> int)
    ensures "lvm" !in a ==> ReadBrightness(a, st, toBrightness).Raised?
    ensures "lv" in a && a["lv"] == Null ==> ReadBrightness(a, st, toBrightness).Raised?
    ensures IntOf(Get(a, "lvm")).Some? && ("lv" !in a || IntOf(a["lv"]).Some?) && PositiveOf(Get(a, "bri")).Some? ==>
      ReadBrightness(a, st, toBrightness).Read?
  {
  }

  /** Exactly one colour mode is supported: brightness when bit 1 or bit 2
      of `sc` is set, and then the colour mode becomes brightness too. */
  lemma SupportedModesSpec(a: Record, st: LightState)
    ensures SupportedColorModes(a, st).None? <==> MaskOf(a, "sc").None?
    ensures SupportedColorModes(a, st).Some? ==>
      var (modes, s) := SupportedColorModes(a, st).value;
      var sc := MaskOf(a, "sc").value;
      && |modes| == 1
      && (Brightness in modes <==> BitSet(sc, 1) || BitSet(sc, 2))
      && (OnOff in modes <==> !BitSet(sc, 1) && !BitSet(sc, 2))
      && s.colorMode == (if BitSet(sc, 1) || BitSet(sc, 2) then Brightness else st.colorMode)
      && s.levelMax == st.levelMax && s.dimLevel == st.dimLevel && s.lastBri == st.lastBri
  {
  }

  /** Without `sc`, a light is on/off only. */
  lemma NoScIsOnOff(a: Record, st: LightState)
    requires "sc" !in a
    ensures SupportedColorModes(a, st) == Some(({OnOff}, st))
  {
    assert !BitSet(0, 1) && !BitSet(0, 2);
  }

  /** With at most one level, turning on only switches the light on. */
  lemma TurnOnSingleLevel(a: Record, st: LightState, kwargs: Record,
                          toPercent: Value -> Option<int>, toItem: (seq<int>, int) -> int)
    requires st.levelMax <= 1
    ensures TurnOn(a, st, kwargs, toPercent, toItem) == Some([map["stt" := Bool(true)]])
  {
  }

  /** With several levels, one command per set bit: a level for bit 1,
      then the requested brightness for bit 2; each switches the light on.
      A light with neither bit sends nothing. */
  lemma TurnOnDimmable(a: Record, st: LightState, kwargs: Record,
                       toPercent: Value -> Option<int>, toItem: (seq<int>, int) -> int)
    requires st.levelMax > 1
    requires TurnOn(a, st, kwargs, toPercent, toItem).Some?
    ensures var cmds := TurnOn(a, st, kwargs, toPercent, toItem).value;
      var sc := MaskOf(a, "sc").value;
      && |cmds| == (if BitSet(sc, 1) then 1 else 0) + (if BitSet(sc, 2) then 1 else 0)
      && (forall i :: 0 <= i < |cmds| ==> "stt" in cmds[i] && cmds[i]["stt"] == Bool(true))
      && (BitSet(sc, 1) ==> "lv" in cmds[0] && "bri" !in cmds[0])
      && (BitSet(sc, 2) ==> "bri" in cmds[|cmds| - 1] && cmds[|cmds| - 1]["bri"] == Requested(st, kwargs))
      && (!Dimmable(sc) ==> cmds == [])
  {
  }

  /** A turn-on or turn-off, echoed back into the attributes, reads as on
      or off. */
  lemma PowerRoundTrip(a: Record, st: LightState, kwargs: Record,
                       toPercent: Value -> Option<int>, toItem: (seq<int>, int) -> int)
    ensures IsOn(a + TurnOffCommand()) == Bool(false)
    ensures "stt" !in a ==> IsOn(a) == Bool(false)
    ensures TurnOn(a, st, kwargs, toPercent, toItem).Some? ==>
      var cmds := TurnOn(a, st, kwargs, toPercent, toItem).value;
      forall i :: 0 <= i < |cmds| ==> IsOn(a + cmds[i]) == Bool(true)
  {
    if TurnOn(a, st, kwargs, toPercent, toItem).Some? && st.levelMax > 1 {
      TurnOnDimmable(a, st, kwargs, toPercent, toItem);
    }
  }

  /** The level a turn-on writes lies in `1..wt_level_max` when the level
      list is `1..wt_level_max` and the list helper picks from its list, so
      once echoed, a device still reporting the same `lvm` reads it back
      as that level's brightness. */
  lemma LevelRoundTrip(a: Record, st: LightState, kwargs: Record,
                       toPercent: Value -> Option<int>, toItem: (seq<int>, int) -> int,
                       toBrightness: (int, int) -> int)
    requires st.levelMax > 1 && st.dimLevel == Levels(st.levelMax)
    requires forall d: seq<int>, p: int :: |d| > 0 ==> toItem(d, p) in d
    requires Get(a, "lvm") == Int(st.levelMax) && PositiveOf(Get(a, "bri")).Some?
    requires TurnOn(a, st, kwargs, toPercent, toItem).Some?
    requires MaskOf(a, "sc").Some? && BitSet(MaskOf(a, "sc").value, 1)
    ensures var cmd := TurnOn(a, st, kwargs, toPercent, toItem).value[0];
      var lv := cmd["lv"].i;
      && 1 <= lv <= st.levelMax
      && ReadBrightness(a + cmd, st, toBrightness).Read?
      && ReadBrightness(a + cmd, st, toBrightness).bri == Int(toBrightness(st.levelMax, lv))
  {
    TurnOnDimmable(a, st, kwargs, toPercent, toItem);
    LevelsSpec(st.levelMax);
    var cmd := TurnOn(a, st, kwargs, toPercent, toItem).value[0];
    var b := Requested(st, kwargs);
    assert cmd == map["stt" := Bool(true), "lv" := Int(toItem(st.dimLevel, toPercent(b).value))];
    var p := toPercent(b).value;
    var lv := toItem(st.dimLevel, p);
    assert |st.dimLevel| > 0;
    assert lv in st.dimLevel;
    var k :| 0 <= k < |st.dimLevel| && st.dimLevel[k] == lv;
    assert Get(a + cmd, "lvm") == Int(st.levelMax);
  }

  /** A light with both bits set issues two writes to the same device; the
      command queue keeps one entry per device, so unless the timer fires in
      between, only the raw brightness write is sent and the level write is
      lost. */
  lemma LevelWriteSuperseded(q: seq<Command>, pk: int, a: Record, st: LightState, kwargs: Record,
                             toPercent: Value -> Option<int>, toItem: (seq<int>, int) -> int)
    requires st.levelMax > 1 && TurnOn(a, st, kwargs, toPercent, toItem).Some?
    requires BitSet(MaskOf(a, "sc").value, 1) && BitSet(MaskOf(a, "sc").value, 2)
    ensures var cmds := TurnOn(a, st, kwargs, toPercent, toItem).value;
      var r := Enqueue(Enqueue(q, Command(pk, cmds[0])), Command(pk, cmds[1]));
      && |cmds| == 2 && "lv" in cmds[0] && "lv" !in cmds[1]
      && forall x :: x in r && x.pk == pk ==> x == Command(pk, cmds[1])
  {
    TurnOnDimmable(a, st, kwargs, toPercent, toItem);
    var cmds := TurnOn(a, st, kwargs, toPercent, toItem).value;
    var c := Command(pk, cmds[1]);
    var r := Enqueue(Enqueue(q, Command(pk, cmds[0])), c);
    EnqueueKeepsOthers(Enqueue(q, Command(pk, cmds[0])), c);
    assert r == r[..|r| - 1] + [c];
  }
}

=== FILE: modes.dfy ===
/** The mode tables of the platform entities: integer keys to mode names,
    their inversion (`*_to_key`), and the decoding of a capability bitmask
    into the ordered list of supported modes. */
module ModeTables {
  import opened Values

  /** A Python dict literal `{key: name, ...}` in its insertion order. */
  type Table = seq<(int, string)>

  function Pow2(n: nat): (r: nat)
    ensures r >= 1
  {
    if n == 0 then 1 else 2 * Pow2(n - 1)
  }

  /** `mask & (1 << bit) != 0` on Python's unbounded two's-complement
      integers: floor division by a positive power of two is Python's `>>`. */
  predicate BitSet(mask: int, bit: int)
  {
    bit >= 0 && (mask / Pow2(bit)) % 2 == 1
  }

  /** `TABLE.get(key)`. */
  function Lookup(t: Table, key: int): Option<string>
  {
    if |t| == 0 then None else if t[0].0 == key then Some(t[0].1) else Lookup(t[1..], key)
  }

  /** `TABLE.get(value)` where `value` is whatever the attribute holds: only
      an integer can hit an integer key. */
  function LookupValue(t: Table, v: Value): Option<string>
  {
    if v.Int? then Lookup(t, v.i) else None
  }

  /** `TABLE.get(value, default)`: the name of an integer key of the table,
      the default for any other hashable value, and `Raises` for a list or
      an object, which Python cannot hash. */
  function TableGet(t: Table, v: Value, default: string): (r: Reading<string>)
    ensures r.Raises? <==> v.List? || v.Obj?
    ensures v.Int? && Lookup(t, v.i).Some? ==> r == Reads(Lookup(t, v.i).value)
    ensures !(v.List? || v.Obj?) && LookupValue(t, v).None? ==> r == Reads(default)
  {
    if v.List? || v.Obj? then Raises else Reads(LookupValue(t, v).GetOr(default))
  }

  /** `X_to_key(name)`: the first key whose name matches. */
  function ToKey(t: Table, name: string): Option<int>
  {
    if |t| == 0 then None else if t[0].1 == name then Some(t[0].0) else ToKey(t[1..], name)
  }

  /** The key, as the JSON value written into a command (`None` -> null). */
  function KeyValue(k: Option<int>): Value
  {
    if k.Some? then Int(k.value) else Null
  }

  /** The table's keys are non-negative and strictly ascending. */
  predicate Ascending(t: Table)
  {
    (forall i :: 0 <= i < |t| ==> t[i].0 >= 0)
    && (forall i, j :: 0 <= i < j < |t| ==> t[i].0 < t[j].0)
  }

  /** No name occurs twice. */
  predicate Injective(t: Table)
  {
    forall i, j :: 0 <= i < j < |t| ==> t[i].1 != t[j].1
  }

  /** The names whose key bit is set in `mask`, in table order: the loop
      `for bit, name in TABLE.items(): if mask & (1 << bit): append(name)`. */
  function Decode(t: Table, mask: int): seq<string>
  {
    if |t| == 0 then []
    else (if BitSet(mask, t[0].0) then [t[0].1] else []) + Decode(t[1..], mask)
  }

  lemma {:induction false} LookupFinds(t: Table, i: nat)
    requires Ascending(t) && i < |t|
    ensures Lookup(t, t[i].0) == Some(t[i].1)
  {
    if i > 0 {
      assert t[0].0 < t[i].0;
      assert t[1..][i - 1] == t[i];
      LookupFinds(t[1..], i - 1);
    }
  }

  lemma {:induction false} LookupMisses(t: Table, key: int)
    ensures Lookup(t, key).None? <==> forall i :: 0 <= i < |t| ==> t[i].0 != key
    ensures Lookup(t, key).Some? ==> exists i :: 0 <= i < |t| && t[i] == (key, Lookup(t, key).value)
  {
    if |t| > 0 {
      LookupMisses(t[1..], key);
      assert forall i :: 0 < i < |t| ==> t[i] == t[1..][i - 1];
      if Lookup(t, key).Some? && t[0].0 != key {
        var i :| 0 <= i < |t[1..]| && t[1..][i] == (key, Lookup(t, key).value);
        assert t[i + 1] == t[1..][i];
      }
    }
  }

  /** Inversion: every name of an injective table maps back to its key. */
  lemma {:induction false} ToKeyInverts(t: Table, i: nat)
    requires Injective(t) && i < |t|
    ensures ToKey(t, t[i].1) == Some(t[i].0)
  {
    if i > 0 {
      assert t[0].1 != t[i].1;
      assert t[1..][i - 1] == t[i];
      ToKeyInverts(t[1..], i - 1);
    }
  }

  /** A name outside the table gives `None`, and a key found is the key of
      that name. */
  lemma {:induction false} ToKeyExact(t: Table, name: string)
    ensures ToKey(t, name).None? <==> forall i :: 0 <= i < |t| ==> t[i].1 != name
    ensures ToKey(t, name).Some? ==> exists i :: 0 <= i < |t| && t[i] == (ToKey(t, name).value, name)
  {
    if |t| > 0 {
      ToKeyExact(t[1..], name);
      assert forall i :: 0 < i < |t| ==> t[i] == t[1..][i - 1];
      if ToKey(t, name).Some? && t[0].1 != name {
        var i :| 0 <= i < |t[1..]| && t[1..][i] == (ToKey(t, name).value, name);
        assert t[i + 1] == t[1..][i];
      }
    }
  }

  /** Looking up the key of a name gives the name back. */
  lemma ToKeyThenLookup(t: Table, name: string)
    requires Ascending(t) && ToKey(t, name).Some?
    ensures Lookup(t, ToKey(t, name).value) == Some(name)
  {
    ToKeyExact(t, name);
    var i :| 0 <= i < |t| && t[i] == (ToKey(t, name).value, name);
    LookupFinds(t, i);
  }

  /** A name is listed exactly when it is in the table and its bit is set. */
  lemma {:induction false} DecodeMembers(t: Table, mask: int)
    ensures forall name :: name in Decode(t, mask) <==>
      exists i :: 0 <= i < |t| && t[i].1 == name && BitSet(mask, t[i].0)
  {
    if |t| > 0 {
      DecodeMembers(t[1..], mask);
      assert forall i :: 0 < i < |t| ==> t[i] == t[1..][i - 1];
      forall name | name in Decode(t, mask)
        ensures exists i :: 0 <= i < |t| && t[i].1 == name && BitSet(mask, t[i].0)
      {
        if !(name == t[0].1 && BitSet(mask, t[0].0)) {
          var i :| 0 <= i < |t[1..]| && t[1..][i].1 == name && BitSet(mask, t[1..][i].0);
          assert t[i + 1] == t[1..][i];
        }
      }
    }
  }

  /** The list is empty exactly when no key of the table has its bit set. */
  lemma DecodeEmpty(t: Table, mask: int)
    ensures Decode(t, mask) == [] <==> forall i :: 0 <= i < |t| ==> !BitSet(mask, t[i].0)
  {
    DecodeMembers(t, mask);
    if Decode(t, mask) != [] {
      assert Decode(t, mask)[0] in Decode(t, mask);
    } else {
      forall i | 0 <= i < |t|
        ensures !BitSet(mask, t[i].0)
      {
        assert t[i].1 !in Decode(t, mask);
      }
    }
  }

  lemma TailKeeps(t: Table)
    requires Ascending(t) && Injective(t) && |t| > 0
    ensures Ascending(t[1..]) && Injective(t[1..])
  {
    assert forall i :: 0 <= i < |t[1..]| ==> t[1..][i] == t[i + 1];
  }

  /** Every name listed from the tail of an ascending, injective table has
      a key, the same in the whole table, above the head's key. */
  lemma TailKeysAbove(t: Table, mask: int, x: string)
    requires Ascending(t) && Injective(t) && |t| > 0
    requires x in Decode(t[1..], mask)
    ensures ToKey(t, x) == ToKey(t[1..], x)
    ensures ToKey(t, x).Some? && ToKey(t, x).value > t[0].0
  {
    DecodeMembers(t[1..], mask);
    var k :| 0 <= k < |t[1..]| && t[1..][k].1 == x && BitSet(mask, t[1..][k].0);
    assert t[k + 1] == t[1..][k];
    ToKeyInverts(t[1..], k);
    ToKeyInverts(t, k + 1);
  }

  /** The names of `d` all have keys in `t`, in strictly ascending order. */
  ghost predicate KeysAscend(t: Table, d: seq<string>)
  {
    && (forall i :: 0 <= i < |d| ==> ToKey(t, d[i]).Some?)
    && (forall i, j :: 0 <= i < j < |d| ==> ToKey(t, d[i]).value < ToKey(t, d[j]).value)
  }

  lemma OrderedCons(t: Table, h: string, rest: seq<string>)
    requires ToKey(t, h).Some? && KeysAscend(t, rest)
    requires forall j :: 0 <= j < |rest| ==> ToKey(t, rest[j]).value > ToKey(t, h).value
    ensures KeysAscend(t, [h] + rest)
  {
    var d := [h] + rest;
    assert d[0] == h;
    assert forall j :: 0 < j < |d| ==> d[j] == rest[j - 1];
  }

  /** The list is in ascending key order, so no name appears twice. */
  lemma {:induction false} DecodeOrdered(t: Table, mask: int)
    requires Ascending(t) && Injective(t)
    ensures KeysAscend(t, Decode(t, mask))
  {
    if |t| > 0 {
      var rest := Decode(t[1..], mask);
      TailKeeps(t);
      DecodeOrdered(t[1..], mask);
      forall j | 0 <= j < |rest|
        ensures ToKey(t, rest[j]) == ToKey(t[1..], rest[j]) && ToKey(t, rest[j]).Some? && ToKey(t, rest[j]).value > t[0].0
      {
        assert rest[j] in rest;
        TailKeysAbove(t, mask, rest[j]);
      }
      assert KeysAscend(t, rest);
      if BitSet(mask, t[0].0) {
        ToKeyInverts(t, 0);
        OrderedCons(t, t[0].1, rest);
        assert Decode(t, mask) == [t[0].1] + rest;
      } else {
        assert Decode(t, mask) == rest;
      }
    }
  }

  /** A name is listed exactly when its key's bit is set. */
  lemma DecodeSpec(t: Table, mask: int)
    requires Ascending(t) && Injective(t)
    ensures forall name :: name in Decode(t, mask) <==>
      ToKey(t, name).Some? && BitSet(mask, ToKey(t, name).value)
    ensures KeysAscend(t, Decode(t, mask))
  {
    DecodeMembers(t, mask);
    DecodeOrdered(t, mask);
    forall name | ToKey(t, name).Some? && BitSet(mask, ToKey(t, name).value)
      ensures name in Decode(t, mask)
    {
      ToKeyExact(t, name);
      var i :| 0 <= i < |t| && t[i] == (ToKey(t, name).value, name);
    }
  }

  /** No name is listed twice. */
  lemma DecodeDistinct(t: Table, mask: int)
    requires Ascending(t) && Injective(t)
    ensures forall i, j :: 0 <= i < j < |Decode(t, mask)| ==> Decode(t, mask)[i] != Decode(t, mask)[j]
  {
    DecodeOrdered(t, mask);
  }

  /** The head's name is never listed from the rest of an injective table. */
  lemma {:induction false} HeadNotInTail(t: Table, mask: int)
    requires Ascending(t) && Injective(t) && |t| > 0
    ensures t[0].1 !in Decode(t[1..], mask)
  {
    ToKeyInverts(t, 0);
    if t[0].1 in Decode(t[1..], mask) {
      TailKeysAbove(t, mask, t[0].1);
    }
  }

  /** `attributes.get(key, 0)` used as a bitmask: a boolean is the integer
      0 or 1; any other non-integer makes `&` raise (`None`). */
  function MaskOf(a: Record, key: string): (r: Option<int>)
    ensures key !in a ==> r == Some(0)
    ensures key in a && a[key].Int? ==> r == Some(a[key].i)
    ensures r.None? <==> key in a && !a[key].Int? && !a[key].Bool?
  {
    if key !in a then Some(0)
    else match a[key]
      case Int(i) => Some(i)
      case Bool(b) => Some(if b then 1 else 0)
      case _ => None
  }
  /** Every key found maps back to itself through its name. */
  lemma InvertsAt(t: Table, k: int)
    requires Injective(t)
    ensures Lookup(t, k).Some? ==> ToKey(t, Lookup(t, k).value) == Some(k)
  {
    LookupMisses(t, k);
    if Lookup(t, k).Some? {
      var i :| 0 <= i < |t| && t[i] == (k, Lookup(t, k).value);
      ToKeyInverts(t, i);
    }
  }

  /** A table whose keys are `lo, lo+1, ...` lists nothing exactly when no
      bit in that range is set. */
  lemma DecodeEmptyRange(t: Table, lo: int, mask: int)
    requires lo >= 0 && forall i :: 0 <= i < |t| ==> t[i].0 == lo + i
    ensures Decode(t, mask) == [] <==> forall k :: lo <= k < lo + |t| ==> !BitSet(mask, k)
  {
    DecodeEmpty(t, mask);
    if Decode(t, mask) == [] {
      forall k | lo <= k < lo + |t|
        ensures !BitSet(mask, k)
      {
        assert t[k - lo].0 == k;
      }
    }
  }

  /** A table whose keys run `lo, lo + 1, ...` decodes to a non-empty list
      exactly when one of those bits is set. */
  lemma ModeFeature(t: Table, lo: int, mask: int)
    requires lo >= 0 && forall i :: 0 <= i < |t| ==> t[i].0 == lo + i
    ensures |Decode(t, mask)| > 0 <==> exists k :: lo <= k < lo + |t| && BitSet(mask, k)
  {
    DecodeEmptyRange(t, lo, mask);
  }

  /** The swing directions of `ssw`/`sw`, the same map in the climate and
      the fan entity. */
  const SwingTable: Table := [(0, "off"), (1, "on"), (2, "vertical"), (3, "horizontal"), (4, "both")]

  lemma SwingTableWellFormed() ensures Ascending(SwingTable) && Injective(SwingTable) {}
  lemma SwingKeysFromZero() ensures forall i :: 0 <= i < |SwingTable| ==> SwingTable[i].0 == i {}

  lemma SwingsOffered(mask: int)
    ensures |Decode(SwingTable, mask)| > 0 <==> exists k :: 0 <= k < 5 && BitSet(mask, k)
  {
    SwingKeysFromZero();
    ModeFeature(SwingTable, 0, mask);
  }
}

=== FILE: number.dfy ===
/** The number entity: a range per entity name, with a default range for
    names not listed, and a state that is scaled by 1000 for names ending
    in `_ms` (the device counts milliseconds, the entity shows seconds).
    Numbers are exact reals; floating-point rounding is not modelled. */
module NumberEntity {
  import opened Values
  import opened Const

  datatype Range = Range(min: real, max: real, step: real)

  /** `NUMBER_RANGE`. */
  const NumberRange: map<string, Range> := map[
    "worlty_offset" := Range(-2.0, 2.0, 0.1),
    "temp_offset" := Range(-5.0, 5.0, 0.1),
    "temp_target" := Range(10.0, 30.0, 0.1),
    "interval_ms" := Range(0.5 * 60.0 * 60.0, 5.0 * 60.0 * 60.0, 60.0),
    "running_ms" := Range(60.0, 60.0 * 60.0, 60.0)
  ]

  const DefaultRange := Range(0.0, 100.0, 1.0)

  /** `NUMBER_RANGE.get(name, [0, 100, 1])`, which `native_min_value`,
      `native_max_value` and `native_step` each read one field of. */
  function RangeOf(name: string): Range
  {
    if name in NumberRange then NumberRange[name] else DefaultRange
  }

  /** `name.endswith("_ms")`. */
  predicate Milliseconds(name: string)
  {
    |name| >= 3 && name[|name| - 3..] == "_ms"
  }

  /** `float(x)`: numbers and booleans convert; text goes through
      `parseFloat`, which stands for Python's float parser and answers
      `None` where it raises `ValueError`; `None`, lists and objects raise
      `TypeError`. */
  function FloatOf(v: Value, parseFloat: string -> Option<real>): Option<real>
  {
    match v
    case Bool(b) => Some(if b then 1.0 else 0.0)
    case Int(i) => Some(i as real)
    case Real(r) => Some(r)
    case Str(s) => parseFloat(s)
    case _ => None
  }

  /** `native_value`: the state as a number, in seconds for `_ms` names;
      `None` where the conversion raises. */
  function NativeValue(name: string, state: Value, parseFloat: string -> Option<real>): Option<real>
  {
    var v := FloatOf(state, parseFloat);
    if v.None? then None
    else if Milliseconds(name) then Some(v.value / 1000.0)
    else v
  }

  /** `async_set_native_value`: the keyword arguments handed to
      `set_device`, in milliseconds for `_ms` names. */
  function SetNativeValue(name: string, value: real): Record
  {
    map["stt" := Real(if Milliseconds(name) then value * 1000.0 else value)]
  }

  // ---------------------------------------------------------------------
  // Properties
  // ---------------------------------------------------------------------

  /** An unlisted name gets the range 0 to 100 in steps of 1; a listed one
      its own entry. */
  lemma RangeDefault(name: string)
    ensures name !in NumberRange ==> RangeOf(name) == Range(0.0, 100.0, 1.0)
    ensures name in NumberRange ==> RangeOf(name) == NumberRange[name]
  {
  }

  /** Every range, listed or default, is non-empty with a positive step. */
  lemma RangesWellFormed(name: string)
    ensures RangeOf(name).min < RangeOf(name).max && RangeOf(name).step > 0.0
  {
  }

  /** Both `_ms` entries are listed in milliseconds-named form and their
      ranges are whole minutes between half an hour and five hours, and
      one minute and one hour. */
  lemma MillisecondRanges()
    ensures Milliseconds("interval_ms") && RangeOf("interval_ms") == Range(1800.0, 18000.0, 60.0)
    ensures Milliseconds("running_ms") && RangeOf("running_ms") == Range(60.0, 3600.0, 60.0)
    ensures !Milliseconds("temp_target") && !Milliseconds("worlty_offset") && !Milliseconds("temp_offset")
  {
    assert "interval_ms"[8..] == "_ms";
    assert "running_ms"[7..] == "_ms";
  }

  /** A written value is scaled up by 1000 for `_ms` names and passes
      through unchanged otherwise. */
  lemma WriteScaling(name: string, value: real)
    ensures Milliseconds(name) ==> SetNativeValue(name, value)["stt"] == Real(1000.0 * value)
    ensures !Milliseconds(name) ==> SetNativeValue(name, value)["stt"] == Real(value)
    ensures SetNativeValue(name, value).Keys == {"stt"}
  {
  }

  /** A numeric state is read scaled down by 1000 for `_ms` names and
      unchanged otherwise. */
  lemma ReadScaling(name: string, x: real, parseFloat: string -> Option<real>)
    ensures Milliseconds(name) ==> NativeValue(name, Real(x), parseFloat) == Some(x / 1000.0)
    ensures !Milliseconds(name) ==> NativeValue(name, Real(x), parseFloat) == Some(x)
    ensures NativeValue(name, Int(1000), parseFloat) == Some(if Milliseconds(name) then 1.0 else 1000.0)
  {
  }

  /** A state that is not a number reads as no value: `None`, lists,
      objects, and text the float parser rejects. */
  lemma NonNumericIsNone(name: string, state: Value, parseFloat: string -> Option<real>)
    requires state.Null? || state.List? || state.Obj? || (state.Str? && parseFloat(state.s).None?)
    ensures NativeValue(name, state, parseFloat).None?
  {
  }

  /** Writing a value and reading the echoed state gives the value back,
      for every name; the state translation leaves numbers alone. */
  lemma WriteThenRead(name: string, value: real, lang: string, parseFloat: string -> Option<real>)
    ensures NativeValue(name, SetNativeValue(name, value)["stt"], parseFloat) == Some(value)
    ensures MapState(lang, SetNativeValue(name, value)["stt"]).Some?
    ensures NativeValue(name, MapState(lang, SetNativeValue(name, value)["stt"]).value, parseFloat) == Some(value)
  {
  }

  /** Reading and writing back a numeric state writes the same state. */
  lemma ReadThenWrite(name: string, x: real, parseFloat: string -> Option<real>)
    ensures SetNativeValue(name, NativeValue(name, Real(x), parseFloat).value)["stt"] == Real(x)
  {
  }
}

=== FILE: pksort.dfy ===
/** `sorted(records, key=lambda r: r.get("pk", 0))`: Python's sort is
    stable, so records with equal keys keep their relative order. */
module PkSort {
  import opened Values

  /** `r.get("pk", 0)` for records whose primary key, when present, is an int. */
  function PkOf(r: Record): int
  {
    if "pk" in r && r["pk"].Int? then r["pk"].i else 0
  }

  predicate SortedByPk(s: seq<Record>)
  {
    forall i, j :: 0 <= i < j < |s| ==> PkOf(s[i]) <= PkOf(s[j])
  }

  /** The records of `s` with primary key `k`, in their order in `s`. */
  function WithPk(s: seq<Record>, k: int): seq<Record>
  {
    if |s| == 0 then []
    else (if PkOf(s[0]) == k then [s[0]] else []) + WithPk(s[1..], k)
  }

  /** Insert `x` before the first record whose key is not smaller. */
  function InsertByPk(x: Record, s: seq<Record>): seq<Record>
  {
    if |s| == 0 then [x]
    else if PkOf(x) <= PkOf(s[0]) then [x] + s
    else [s[0]] + InsertByPk(x, s[1..])
  }

  /** Stable insertion sort by primary key. */
  function SortByPk(s: seq<Record>): seq<Record>
  {
    if |s| == 0 then [] else InsertByPk(s[0], SortByPk(s[1..]))
  }

  /** Every record of `s` has a key of at least `m`. */
  predicate KeysAtLeast(s: seq<Record>, m: int)
  {
    forall i :: 0 <= i < |s| ==> m <= PkOf(s[i])
  }

  lemma SortedCons(a: Record, t: seq<Record>)
    requires SortedByPk(t) && KeysAtLeast(t, PkOf(a))
    ensures SortedByPk([a] + t)
  {
    var r := [a] + t;
    assert forall j :: 0 < j < |r| ==> r[j] == t[j - 1];
  }

  lemma SortedTail(s: seq<Record>)
    requires |s| > 0 && SortedByPk(s)
    ensures SortedByPk(s[1..]) && KeysAtLeast(s[1..], PkOf(s[0]))
  {
  }

  lemma {:induction false} InsertKeepsLowerBound(x: Record, s: seq<Record>, m: int)
    requires KeysAtLeast(s, m) && m <= PkOf(x)
    ensures KeysAtLeast(InsertByPk(x, s), m)
  {
    if |s| > 0 && PkOf(x) > PkOf(s[0]) {
      InsertKeepsLowerBound(x, s[1..], m);
      var t := InsertByPk(x, s[1..]);
      var r := [s[0]] + t;
      assert forall j :: 0 < j < |r| ==> r[j] == t[j - 1];
    } else if |s| > 0 {
      var r := [x] + s;
      assert forall j :: 0 < j < |r| ==> r[j] == s[j - 1];
    }
  }

  lemma {:induction false} InsertKeepsSorted(x: Record, s: seq<Record>)
    requires SortedByPk(s)
    ensures SortedByPk(InsertByPk(x, s))
  {
    if |s| == 0 {
    } else if PkOf(x) <= PkOf(s[0]) {
      assert KeysAtLeast(s, PkOf(x));
      SortedCons(x, s);
    } else {
      SortedTail(s);
      InsertKeepsSorted(x, s[1..]);
      InsertKeepsLowerBound(x, s[1..], PkOf(s[0]));
      SortedCons(s[0], InsertByPk(x, s[1..]));
    }
  }

  lemma {:induction false} InsertPermutes(x: Record, s: seq<Record>)
    ensures multiset(InsertByPk(x, s)) == multiset(s) + multiset{x}
  {
    if |s| > 0 && PkOf(x) > PkOf(s[0]) {
      InsertPermutes(x, s[1..]);
      assert s == [s[0]] + s[1..];
    }
  }

  /** The result is ordered by primary key and is a permutation of the input. */
  lemma {:induction false} SortIsOrderedPermutation(s: seq<Record>)
    ensures SortedByPk(SortByPk(s))
    ensures multiset(SortByPk(s)) == multiset(s)
  {
    if |s| > 0 {
      SortIsOrderedPermutation(s[1..]);
      InsertKeepsSorted(s[0], SortByPk(s[1..]));
      InsertPermutes(s[0], SortByPk(s[1..]));
      assert s == [s[0]] + s[1..];
    }
  }

  lemma WithPkCons(a: Record, t: seq<Record>, k: int)
    ensures WithPk([a] + t, k) == (if PkOf(a) == k then [a] else []) + WithPk(t, k)
  {
    assert ([a] + t)[1..] == t;
  }

  /** Putting a record with a smaller key than `x` in front of both sides
      keeps the records with key `k` related as before. */
  lemma InsertWithPkStep(x: Record, s0: Record, t: seq<Record>, rest: seq<Record>, k: int)
    requires PkOf(x) > PkOf(s0)
    requires WithPk(t, k) == (if PkOf(x) == k then [x] else []) + WithPk(rest, k)
    ensures WithPk([s0] + t, k) == (if PkOf(x) == k then [x] else []) + WithPk([s0] + rest, k)
  {
    WithPkCons(s0, t, k);
    WithPkCons(s0, rest, k);
  }

  lemma {:induction false} InsertWithPk(x: Record, s: seq<Record>, k: int)
    ensures WithPk(InsertByPk(x, s), k)
         == (if PkOf(x) == k then [x] else []) + WithPk(s, k)
  {
    if |s| == 0 {
      WithPkCons(x, [], k);
    } else if PkOf(x) <= PkOf(s[0]) {
      WithPkCons(x, s, k);
    } else {
      InsertWithPk(x, s[1..], k);
      InsertWithPkStep(x, s[0], InsertByPk(x, s[1..]), s[1..], k);
      assert InsertByPk(x, s) == [s[0]] + InsertByPk(x, s[1..]);
      assert s == [s[0]] + s[1..];
    }
  }

  /** Stability: for every key, the records with that key appear in the
      result in exactly their input order. */
  lemma {:induction false} SortIsStable(s: seq<Record>, k: int)
    ensures WithPk(SortByPk(s), k) == WithPk(s, k)
  {
    if |s| > 0 {
      SortIsStable(s[1..], k);
      InsertWithPk(s[0], SortByPk(s[1..]), k);
    }
  }

  /** The result has the same length as the input. */
  lemma SortKeepsLength(s: seq<Record>)
    ensures |SortByPk(s)| == |s|
  {
    SortIsOrderedPermutation(s);
    assert |multiset(SortByPk(s))| == |multiset(s)|;
  }
}

=== FILE: protocol.dfy ===
/** What the client sends to the gateway and what the session reports to
    the rest of the integration. */
module Protocol {
  import opened Values
  import opened Const

  /** One pending write: a device primary key and the attributes to set. */
  datatype Command = Command(pk: int, payload: Record)

  /** Client-to-gateway messages. */
  datatype Outgoing =
    | Auth(accessToken: string, platform: Option<string>)  // {"type":"auth", ...}
    | GetDevices(pks: seq<int>)                           // {"type":"get","data":{"devices":[pk,...]}}
    | GetListed(devices: Value)                           // a `get` echoing a device/list payload
    | SetDevices(commands: seq<Command>)                  // {"type":"set","data":{"devices":[...]}}
    | RawCommands(commands: seq<Command>)                 // the bare queue, sent by the older variant

  /** Observable effects of handling a message. */
  datatype Event =
    | Notified(uid: string, rec: Record)           // a registered entity is handed the new record
    | Discovered(platform: Platform, rec: Record)  // a platform's add-entity listener is called
    | Persisted(devices: map<string, Record>)      // the entity map is written to the config entry
    | Published(msg: Outgoing)                     // a message is written to the socket

  /** A decoded message from the gateway, by its `type`. */
  datatype Message =
    | UpdateMessage(devices: seq<Value>)
    | HealthMessage(reported: seq<(string, Value)>)
    | DeviceListMessage(listed: Value)
    | DeviceDeleteMessage
    | OtherMessage
}

=== FILE: queue.dfy ===
/** The outgoing command queue: writes are coalesced per device and sent
    as one `set` message once the queue has been quiet for 50 ms. */
module CommandQueue {
  import opened Values
  import opened Protocol

  /** The primary keys that have a pending command. */
  function PksOf(q: seq<Command>): set<int>
  {
    if |q| == 0 then {} else {q[0].pk} + PksOf(q[1..])
  }

  /** The queue with every command for a key in `pks` filtered out. */
  function Drop(q: seq<Command>, pks: set<int>): (r: seq<Command>)
  {
    if |q| == 0 then []
    else (if q[0].pk in pks then [] else [q[0]]) + Drop(q[1..], pks)
  }

  /** Dropping keeps exactly the commands for the other devices. */
  lemma {:induction false} DropMembers(q: seq<Command>, pks: set<int>)
    ensures forall c :: c in Drop(q, pks) <==> c in q && c.pk !in pks
  {
    if |q| > 0 {
      DropMembers(q[1..], pks);
      assert forall c :: c in q <==> c == q[0] || c in q[1..];
    }
  }

  /** Filtering a queue piecewise filters the whole. */
  lemma {:induction false} DropDistributes(q1: seq<Command>, q2: seq<Command>, pks: set<int>)
    ensures Drop(q1 + q2, pks) == Drop(q1, pks) + Drop(q2, pks)
    decreases |q1|
  {
    if |q1| > 0 {
      assert (q1 + q2)[0] == q1[0] && (q1 + q2)[1..] == q1[1..] + q2;
      DropDistributes(q1[1..], q2, pks);
    } else {
      assert q1 + q2 == q2;
    }
  }

  /** Dropping keeps the surviving commands in their order: of two kept
      commands, the earlier stays ahead of the later. */
  lemma DropKeepsOrder(q: seq<Command>, pks: set<int>, i: int, j: int)
    requires 0 <= i < j < |q| && q[i].pk !in pks && q[j].pk !in pks
    ensures exists i', j' :: 0 <= i' < j' < |Drop(q, pks)| && Drop(q, pks)[i'] == q[i] && Drop(q, pks)[j'] == q[j]
  {
    var a, b, c := q[..i], q[i + 1..j], q[j + 1..];
    assert q == a + ([q[i]] + (b + ([q[j]] + c)));
    DropDistributes(a, [q[i]] + (b + ([q[j]] + c)), pks);
    DropDistributes([q[i]], b + ([q[j]] + c), pks);
    DropDistributes(b, [q[j]] + c, pks);
    DropDistributes([q[j]], c, pks);
    assert Drop([q[i]], pks) == [q[i]];
    assert Drop([q[j]], pks) == [q[j]];
    var d := Drop(q, pks);
    assert d == Drop(a, pks) + ([q[i]] + (Drop(b, pks) + ([q[j]] + Drop(c, pks))));
    var i', j' := |Drop(a, pks)|, |Drop(a, pks)| + 1 + |Drop(b, pks)|;
    assert d[i'] == q[i] && d[j'] == q[j];
  }

  /** At most one pending command per device. */
  predicate Coalesced(q: seq<Command>)
  {
    forall i, j :: 0 <= i < j < |q| ==> q[i].pk != q[j].pk
  }

  /** Queue a command: any earlier command for the same device is
      superseded and the new one goes to the back. */
  function Enqueue(q: seq<Command>, c: Command): (r: seq<Command>)
    ensures |r| >= 1 && r[|r| - 1] == c
  {
    Drop(q, {c.pk}) + [c]
  }

  /** Apart from the new command at the back, the queue holds exactly the
      earlier commands for other devices. */
  lemma EnqueueKeepsOthers(q: seq<Command>, c: Command)
    ensures var r := Enqueue(q, c);
      forall x :: x in r[..|r| - 1] <==> x in q && x.pk != c.pk
  {
    var kept := Drop(q, {c.pk});
    DropMembers(q, {c.pk});
    assert (kept + [c])[..|kept|] == kept;
  }

  /** Queueing keeps at most one pending command per device. */
  lemma EnqueueKeepsCoalesced(q: seq<Command>, c: Command)
    requires Coalesced(q)
    ensures Coalesced(Enqueue(q, c))
  {
    var kept := Drop(q, {c.pk});
    DropKeepsCoalesced(q, {c.pk});
    DropMembers(q, {c.pk});
    var r := kept + [c];
    forall i, j | 0 <= i < j < |r|
      ensures r[i].pk != r[j].pk
    {
      assert r[i] == kept[i] && r[i] in kept;
      if j < |kept| {
        assert r[j] == kept[j];
      }
    }
  }

  lemma {:induction false} DropKeepsCoalesced(q: seq<Command>, pks: set<int>)
    ensures Coalesced(q) ==> Coalesced(Drop(q, pks))
  {
    if |q| > 0 && Coalesced(q) {
      DropKeepsCoalesced(q[1..], pks);
      DropMembers(q[1..], pks);
      var rest := Drop(q[1..], pks);
      assert forall x :: x in rest ==> x in q[1..];
      assert forall j :: 0 < j < |q| ==> q[0].pk != q[j].pk;
      assert forall x :: x in q[1..] ==> x.pk != q[0].pk;
    }
  }

  /** Queue each command in turn. */
  function EnqueueAll(q: seq<Command>, cs: seq<Command>): seq<Command>
    decreases |cs|
  {
    if |cs| == 0 then q else EnqueueAll(Enqueue(q, cs[0]), cs[1..])
  }

  /** Reference definition of coalescing: the commands that no later
      command for the same device supersedes, in their original order. */
  function Latest(cs: seq<Command>): seq<Command>
  {
    if |cs| == 0 then []
    else (if cs[0].pk in PksOf(cs[1..]) then [] else [cs[0]]) + Latest(cs[1..])
  }

  lemma {:induction false} DropAppend(a: seq<Command>, b: seq<Command>, pks: set<int>)
    ensures Drop(a + b, pks) == Drop(a, pks) + Drop(b, pks)
  {
    if |a| > 0 {
      assert (a + b)[1..] == a[1..] + b;
      DropAppend(a[1..], b, pks);
    } else {
      assert a + b == b;
    }
  }

  lemma {:induction false} DropDrop(q: seq<Command>, a: set<int>, b: set<int>)
    ensures Drop(Drop(q, a), b) == Drop(q, a + b)
  {
    if |q| > 0 {
      DropDrop(q[1..], a, b);
      var head := if q[0].pk in a then [] else [q[0]];
      DropAppend(head, Drop(q[1..], a), b);
      if q[0].pk !in a {
        assert ([q[0]] + Drop(q[1..], a))[1..] == Drop(q[1..], a);
      }
    }
  }

  /** Queueing a run of commands leaves the earlier queue minus the
      superseded devices, followed by the latest command of each device in
      the run. */
  lemma {:induction false} EnqueueAllIsLatest(q: seq<Command>, cs: seq<Command>)
    ensures EnqueueAll(q, cs) == Drop(q, PksOf(cs)) + Latest(cs)
    decreases |cs|
  {
    if |cs| == 0 {
      assert Drop(q, {}) == q by { DropNothing(q); }
    } else {
      var c := cs[0];
      var rest := cs[1..];
      EnqueueAllIsLatest(Enqueue(q, c), rest);
      SupersedeStep(q, c, rest);
      assert cs == [c] + rest;
    }
  }

  lemma SupersedeStep(q: seq<Command>, c: Command, rest: seq<Command>)
    ensures Drop(Drop(q, {c.pk}) + [c], PksOf(rest)) + Latest(rest)
         == Drop(q, PksOf([c] + rest)) + Latest([c] + rest)
  {
    var P := PksOf(rest);
    DropThenAppend(q, c, P);
    PksOfCons(c, rest);
    LatestCons(c, rest);
    Regroup(Drop(q, {c.pk} + P), Drop([c], P), Latest(rest),
            Drop(Drop(q, {c.pk}) + [c], P), Latest([c] + rest));
  }

  lemma DropThenAppend(q: seq<Command>, c: Command, pks: set<int>)
    ensures Drop(Drop(q, {c.pk}) + [c], pks) == Drop(q, {c.pk} + pks) + Drop([c], pks)
  {
    DropAppend(Drop(q, {c.pk}), [c], pks);
    DropDrop(q, {c.pk}, pks);
  }

  lemma Regroup(x: seq<Command>, y: seq<Command>, z: seq<Command>, w: seq<Command>, v: seq<Command>)
    requires w == x + y
    requires v == y + z
    ensures w + z == x + v
  {
  }

  lemma PksOfCons(c: Command, rest: seq<Command>)
    ensures PksOf([c] + rest) == {c.pk} + PksOf(rest)
  {
    assert ([c] + rest)[1..] == rest;
  }

  lemma LatestCons(c: Command, rest: seq<Command>)
    ensures Latest([c] + rest) == Drop([c], PksOf(rest)) + Latest(rest)
  {
    assert ([c] + rest)[1..] == rest;
    DropSingle(c, PksOf(rest));
  }

  lemma DropSingle(c: Command, pks: set<int>)
    ensures Drop([c], pks) == if c.pk in pks then [] else [c]
  {
    assert [c][1..] == [];
  }

  lemma {:induction false} DropNothing(q: seq<Command>)
    ensures Drop(q, {}) == q
  {
    if |q| > 0 {
      DropNothing(q[1..]);
    }
  }

  /** The timer firing: a non-empty queue is published as one `set`
      message and then cleared. The newer client swallows publish errors,
      so the queue is cleared whether or not the write reached the
      gateway. */
  function Flush(q: seq<Command>): (r: (seq<Command>, seq<Outgoing>))
    ensures r.0 == []
    ensures |q| == 0 ==> r.1 == []
    ensures |q| > 0 ==> r.1 == [SetDevices(q)]
  {
    if |q| > 0 then ([], [SetDevices(q)]) else (q, [])
  }

  /** Commands queued from an empty queue within one quiet period go out
      as a single `set` message holding the latest command per device. */
  lemma BurstIsCoalesced(cs: seq<Command>)
    requires |cs| > 0
    ensures Flush(EnqueueAll([], cs)).1 == [SetDevices(Latest(cs))]
    ensures Coalesced(Latest(cs))
  {
    EnqueueAllIsLatest([], cs);
    assert Drop([], PksOf(cs)) == [];
    assert EnqueueAll([], cs) == Latest(cs) by {
      assert [] + Latest(cs) == Latest(cs);
    }
    LatestNonEmpty(cs);
    EnqueueAllCoalesced([], cs);
  }

  lemma {:induction false} LatestNonEmpty(cs: seq<Command>)
    requires |cs| > 0
    ensures |Latest(cs)| > 0
  {
    if cs[0].pk in PksOf(cs[1..]) {
      LatestNonEmpty(cs[1..]);
    }
  }

  lemma {:induction false} EnqueueAllCoalesced(q: seq<Command>, cs: seq<Command>)
    requires Coalesced(q)
    ensures Coalesced(EnqueueAll(q, cs))
    decreases |cs|
  {
    if |cs| > 0 {
      EnqueueKeepsCoalesced(q, cs[0]);
      EnqueueAllCoalesced(Enqueue(q, cs[0]), cs[1..]);
    }
  }

  /** Switching a device on and then off within 50 ms sends only the off
      command. */
  lemma OnThenOffSendsOff(pk: int)
    ensures
      var on := Command(pk, map["stt" := Bool(true)]);
      var off := Command(pk, map["stt" := Bool(false)]);
      Flush(Enqueue(Enqueue([], on), off)).1 == [SetDevices([off])]
  {
    var on := Command(pk, map["stt" := Bool(true)]);
    var off := Command(pk, map["stt" := Bool(false)]);
    DropSingle(on, {pk});
    assert Enqueue([], on) == [on];
    assert Enqueue([on], off) == [off];
  }

  /** The older client's timer: it publishes the `set` message and then
      the bare queue, and clears the queue only when both writes succeed.
      `setOk` and `rawOk` say whether each write succeeded; a failed write
      raises out of the timer task. */
  function LegacyFlush(q: seq<Command>, setOk: bool, rawOk: bool): (r: LegacyFlushResult)
    ensures r.raised ==> r.queue == q
    ensures !r.raised ==> r.queue == []
    ensures |q| > 0 && setOk && rawOk ==> r.sent == [SetDevices(q), RawCommands(q)] && !r.raised
    ensures |q| == 0 ==> r.sent == [] && !r.raised
  {
    if |q| == 0 then LegacyFlushResult([], [], false)
    else if !setOk then LegacyFlushResult(q, [], true)
    else if !rawOk then LegacyFlushResult(q, [SetDevices(q)], true)
    else LegacyFlushResult([], [SetDevices(q), RawCommands(q)], false)
  }

  datatype LegacyFlushResult = LegacyFlushResult(queue: seq<Command>, sent: seq<Outgoing>, raised: bool)
}

=== FILE: session.dfy ===
/** The newer client's message handler: `update` batches, `health`
    reports, `device/list` and everything else. */
module GatewaySession {
  import opened Values
  import opened Const
  import opened Protocol
  import opened UniqueIds
  import opened PkSort
  import opened DeviceTree

  /** The synchroniser's tree and the health map (`str(pk)` -> `lct`). */
  datatype Session = Session(tree: Tree, health: map<string, Value>)

  /** The health-map key of a device: `str(device["pk"])`. */
  function HealthKey(d: Record): string
  {
    IntToString(PkOf(d))
  }

  function Lookup(h: map<string, Value>, k: string): Option<Value>
  {
    if k in h then Some(h[k]) else None
  }

  function Last(s: seq<Record>): Record
    requires |s| > 0
  {
    s[|s| - 1]
  }

  // ---------------------------------------------------------------------
  // Update batches

  /** `update_device` on a normalised device: the device, then its children. */
  function UpdateDevice(t: Tree, d: Record, classify: Record -> Option<Platform>): (Tree, seq<Event>)
  {
    MergeAll(t, DeviceRecords(d), classify)
  }

  /** The loop over a sorted, normalised batch: merge each device and its
      children, then record the device's `lct`. */
  function Process(s: Session, ds: seq<Record>, classify: Record -> Option<Platform>): (Session, seq<Event>)
    decreases |ds|
  {
    if |ds| == 0 then (s, [])
    else
      var (t1, e1) := UpdateDevice(s.tree, ds[0], classify);
      var s1 := Session(t1, s.health[HealthKey(ds[0]) := Get(ds[0], "lct")]);
      var (s2, e2) := Process(s1, ds[1..], classify);
      (s2, e1 + e2)
  }

  /** The health writes of a batch, in order. */
  function RecordHealth(h: map<string, Value>, ds: seq<Record>): map<string, Value>
    decreases |ds|
  {
    if |ds| == 0 then h else RecordHealth(h[HealthKey(ds[0]) := Get(ds[0], "lct")], ds[1..])
  }

  /** The `update` branch of `handle_message` on a batch of objects: sort,
      normalise, merge, record health, and persist the entity map when the
      batch was non-empty. */
  function ApplyUpdate(s: Session, devices: seq<Record>, classify: Record -> Option<Platform>): (Session, seq<Event>)
  {
    var ds := NormaliseAll(s.tree.deviceId, SortByPk(devices));
    var (s1, events) := Process(s, ds, classify);
    (s1, events + if |devices| > 0 then [Persisted(s1.tree.entities)] else [])
  }

  /** Processing a batch is merging its flattened records in order, plus
      the health writes; the two do not interact. */
  lemma {:induction false} ProcessSplits(s: Session, ds: seq<Record>, classify: Record -> Option<Platform>)
    ensures Process(s, ds, classify).0
         == Session(MergeAll(s.tree, Flatten(ds), classify).0, RecordHealth(s.health, ds))
    decreases |ds|
  {
    if |ds| > 0 {
      var t1 := UpdateDevice(s.tree, ds[0], classify).0;
      var s1 := Session(t1, s.health[HealthKey(ds[0]) := Get(ds[0], "lct")]);
      ProcessSplits(s1, ds[1..], classify);
      MergeAllAppend(s.tree, DeviceRecords(ds[0]), Flatten(ds[1..]), classify);
    }
  }

  lemma {:induction false} WithPkNormaliseAll(dev: string, ds: seq<Record>, k: int)
    ensures WithPk(NormaliseAll(dev, ds), k) == NormaliseAll(dev, WithPk(ds, k))
    decreases |ds|
  {
    if |ds| > 0 {
      var n := NormaliseAll(dev, ds);
      NormaliseKeepsFields(dev, ds[0]);
      WithPkNormaliseAll(dev, ds[1..], k);
      assert n[0] == Normalise(dev, ds[0]);
      assert n[1..] == NormaliseAll(dev, ds[1..]);
      WithPkCons(n[0], n[1..], k);
      assert n == [n[0]] + n[1..];
      if PkOf(ds[0]) == k {
        NormaliseAllCons(dev, ds[0], WithPk(ds[1..], k));
        assert WithPk(ds, k) == [ds[0]] + WithPk(ds[1..], k);
        assert WithPk(n, k) == [n[0]] + WithPk(n[1..], k);
      } else {
        assert WithPk(ds, k) == WithPk(ds[1..], k);
        assert WithPk(n, k) == WithPk(n[1..], k);
      }
    }
  }

  lemma NormaliseAllCons(dev: string, d: Record, ds: seq<Record>)
    ensures NormaliseAll(dev, [d] + ds) == [Normalise(dev, d)] + NormaliseAll(dev, ds)
  {
    assert ([d] + ds)[1..] == ds;
  }

  lemma {:induction false} NormaliseAllLast(dev: string, ds: seq<Record>)
    requires |ds| > 0
    ensures |NormaliseAll(dev, ds)| == |ds|
    ensures Get(Last(NormaliseAll(dev, ds)), "lct") == Get(Last(ds), "lct")
    decreases |ds|
  {
    NormaliseKeepsFields(dev, ds[|ds| - 1]);
    if |ds| > 1 {
      NormaliseAllLast(dev, ds[1..]);
      assert Last(ds[1..]) == Last(ds);
    }
  }

  /** The health map after a run of writes, key by key: the `lct` of the
      last device with that primary key, or the old entry. */
  lemma {:induction false} RecordHealthByKey(h: map<string, Value>, ds: seq<Record>, k: int)
    ensures Lookup(RecordHealth(h, ds), IntToString(k))
         == if |WithPk(ds, k)| == 0 then Lookup(h, IntToString(k))
            else Some(Get(Last(WithPk(ds, k)), "lct"))
    decreases |ds|
  {
    if |ds| > 0 {
      var h1 := h[HealthKey(ds[0]) := Get(ds[0], "lct")];
      RecordHealthByKey(h1, ds[1..], k);
      if PkOf(ds[0]) != k {
        if HealthKey(ds[0]) == IntToString(k) {
          IntToStringInjective(PkOf(ds[0]), k);
        }
      }
    }
  }

  /** After an `update`, the health map holds, for every primary key in the
      batch, the `lct` of the last device with that key in the batch's own
      order (the sort is stable); other keys keep their old entry. */
  lemma UpdateRecordsHealth(s: Session, devices: seq<Record>, classify: Record -> Option<Platform>, k: int)
    ensures Lookup(ApplyUpdate(s, devices, classify).0.health, IntToString(k))
         == if |WithPk(devices, k)| == 0 then Lookup(s.health, IntToString(k))
            else Some(Get(Last(WithPk(devices, k)), "lct"))
  {
    var dev := s.tree.deviceId;
    var ds := NormaliseAll(dev, SortByPk(devices));
    ProcessSplits(s, ds, classify);
    RecordHealthByKey(s.health, ds, k);
    WithPkNormaliseAll(dev, SortByPk(devices), k);
    SortIsStable(devices, k);
    if |WithPk(devices, k)| > 0 {
      NormaliseAllLast(dev, WithPk(devices, k));
    } else {
      assert NormaliseAll(dev, WithPk(devices, k)) == [];
    }
  }

  lemma {:induction false} RecordHealthIsUnion(h: map<string, Value>, ds: seq<Record>)
    ensures RecordHealth(h, ds) == h + RecordHealth(map[], ds)
    decreases |ds|
  {
    if |ds| > 0 {
      var k, v := HealthKey(ds[0]), Get(ds[0], "lct");
      RecordHealthIsUnion(h[k := v], ds[1..]);
      RecordHealthIsUnion(map[k := v], ds[1..]);
      assert h[k := v] == h + map[k := v];
    }
  }

  lemma RecordHealthTwice(h: map<string, Value>, ds: seq<Record>)
    ensures RecordHealth(RecordHealth(h, ds), ds) == RecordHealth(h, ds)
  {
    RecordHealthIsUnion(h, ds);
    RecordHealthIsUnion(RecordHealth(h, ds), ds);
  }

  /** Re-applying the same `update` batch leaves the session as after the
      first application, provided the batch's records have distinct ids. */
  lemma UpdateIdempotent(s: Session, devices: seq<Record>, classify: Record -> Option<Platform>)
    requires DistinctIds(s.tree.deviceId, Flatten(NormaliseAll(s.tree.deviceId, SortByPk(devices))))
    ensures var s1 := ApplyUpdate(s, devices, classify).0;
      ApplyUpdate(s1, devices, classify).0 == s1
  {
    var dev := s.tree.deviceId;
    var ds := NormaliseAll(dev, SortByPk(devices));
    var s1 := ApplyUpdate(s, devices, classify).0;
    ProcessSplits(s, ds, classify);
    MergeAllFrame(s.tree, Flatten(ds), classify);
    assert s1.tree.deviceId == dev;
    ProcessSplits(s1, ds, classify);
    MergeAllIdempotent(s.tree, Flatten(ds), classify);
    RecordHealthTwice(s.health, ds);
  }

  // ---------------------------------------------------------------------
  // Health reports

  /** `self._health_map.get(pk, 0)`. */
  function Stored(h: map<string, Value>, k: string): Value
  {
    if k in h then h[k] else Int(0)
  }

  /** `is_entity_changed(pk, lct)`. */
  predicate Changed(h: map<string, Value>, k: string, lct: Value)
  {
    Stored(h, k) != lct
  }

  /** `[int(pk) for pk, lct in devices.items() if is_entity_changed(pk, lct)]`;
      `None` where `int()` raises on a changed key. */
  function ChangedPks(h: map<string, Value>, reported: seq<(string, Value)>): Option<seq<int>>
    decreases |reported|
  {
    if |reported| == 0 then Some([])
    else
      var rest := ChangedPks(h, reported[1..]);
      if !Changed(h, reported[0].0, reported[0].1) then rest
      else match (ParseInt(reported[0].0), rest)
        case (Some(p), Some(ps)) => Some([p] + ps)
        case _ => None
  }

  /** The request names exactly the keys whose reported `lct` differs from
      the stored one (absent counts as 0); it fails exactly when such a key
      is not a decimal integer. */
  lemma {:induction false} ChangedPksExact(h: map<string, Value>, reported: seq<(string, Value)>)
    ensures ChangedPks(h, reported).None? <==>
      exists i :: 0 <= i < |reported| && Changed(h, reported[i].0, reported[i].1) && ParseInt(reported[i].0).None?
    ensures ChangedPks(h, reported).Some? ==> forall p ::
      p in ChangedPks(h, reported).value <==>
      exists i :: 0 <= i < |reported| && Changed(h, reported[i].0, reported[i].1) && ParseInt(reported[i].0) == Some(p)
    decreases |reported|
  {
    if |reported| > 0 {
      ChangedPksExact(h, reported[1..]);
      assert forall i :: 0 < i < |reported| ==> reported[i] == reported[1..][i - 1];
      assert forall i :: 0 <= i < |reported| - 1 ==> reported[1..][i] == reported[i + 1];
    }
  }

  /** A health report that echoes the batch just applied (same keys, same
      `lct` values) requests nothing, when the batch's keys are distinct. */
  lemma EchoRequestsNothing(s: Session, devices: seq<Record>, classify: Record -> Option<Platform>)
    requires forall i, j :: 0 <= i < j < |devices| ==> PkOf(devices[i]) != PkOf(devices[j])
    ensures var h := ApplyUpdate(s, devices, classify).0.health;
      ChangedPks(h, Echo(devices)) == Some([])
  {
    var h := ApplyUpdate(s, devices, classify).0.health;
    EchoLength(devices);
    forall i | 0 <= i < |Echo(devices)|
      ensures !Changed(h, Echo(devices)[i].0, Echo(devices)[i].1)
    {
      EchoEntryUnchanged(s, devices, classify, i);
    }
    NothingChanged(h, Echo(devices));
  }

  lemma EchoEntryUnchanged(s: Session, devices: seq<Record>, classify: Record -> Option<Platform>, i: nat)
    requires forall a, b :: 0 <= a < b < |devices| ==> PkOf(devices[a]) != PkOf(devices[b])
    requires i < |devices|
    ensures |Echo(devices)| == |devices|
    ensures var h := ApplyUpdate(s, devices, classify).0.health;
      !Changed(h, Echo(devices)[i].0, Echo(devices)[i].1)
  {
    EchoAt(devices, i);
    UpdateRecordsHealth(s, devices, classify, PkOf(devices[i]));
    OnlyOneWithPk(devices, i);
  }

  lemma {:induction false} NothingChanged(h: map<string, Value>, reported: seq<(string, Value)>)
    requires forall i :: 0 <= i < |reported| ==> !Changed(h, reported[i].0, reported[i].1)
    ensures ChangedPks(h, reported) == Some([])
    decreases |reported|
  {
    if |reported| > 0 {
      NothingChanged(h, reported[1..]);
    }
  }

  /** The report a gateway would send for a batch it has just delivered. */
  function Echo(devices: seq<Record>): seq<(string, Value)>
  {
    if |devices| == 0 then [] else [(HealthKey(devices[0]), Get(devices[0], "lct"))] + Echo(devices[1..])
  }

  lemma {:induction false} EchoLength(devices: seq<Record>)
    ensures |Echo(devices)| == |devices|
    decreases |devices|
  {
    if |devices| > 0 {
      EchoLength(devices[1..]);
    }
  }

  lemma {:induction false} EchoAt(devices: seq<Record>, i: nat)
    requires i < |devices|
    ensures |Echo(devices)| == |devices|
    ensures Echo(devices)[i] == (HealthKey(devices[i]), Get(devices[i], "lct"))
    decreases |devices|
  {
    if i > 0 {
      EchoAt(devices[1..], i - 1);
    } else if |devices| > 1 {
      EchoAt(devices[1..], 0);
    }
  }

  lemma {:induction false} OnlyOneWithPk(devices: seq<Record>, i: nat)
    requires i < |devices|
    requires forall a, b :: 0 <= a < b < |devices| ==> PkOf(devices[a]) != PkOf(devices[b])
    ensures WithPk(devices, PkOf(devices[i])) == [devices[i]]
    decreases |devices|
  {
    var k := PkOf(devices[i]);
    if i > 0 {
      OnlyOneWithPk(devices[1..], i - 1);
    } else {
      NoneWithPk(devices[1..], k);
    }
  }

  lemma {:induction false} NoneWithPk(ds: seq<Record>, k: int)
    requires forall a :: 0 <= a < |ds| ==> PkOf(ds[a]) != k
    ensures WithPk(ds, k) == []
    decreases |ds|
  {
    if |ds| > 0 {
      NoneWithPk(ds[1..], k);
    }
  }

  /** With device 5 last seen at `lct` 100, a report of 5 at 100 and 6 at 7
      requests only device 6. */
  lemma HealthExample()
    ensures ChangedPks(map["5" := Int(100)], [("5", Int(100)), ("6", Int(7))]) == Some([6])
  {
    var rep := [("5", Int(100)), ("6", Int(7))];
    var h := map["5" := Int(100)];
    assert rep[1..] == [("6", Int(7))];
    assert rep[1..][1..] == [];
    var six: seq<(string, Value)> := [("6", Int(7))];
    assert six[1..] == [];
    assert ChangedPks(h, six[1..]) == Some([]);
    assert six[0].0 == "6" && six[0].1 == Int(7);
    assert "6" !in h by { assert "6"[0] != "5"[0]; }
    assert Changed(h, six[0].0, six[0].1);
    assert [6] + [] == [6];
    assert ParseInt("6") == Some(6) by {
      assert AllDigits("6");
      assert "6"[..0] == [];
      assert DigitsValue("6") == DigitsValue("") * 10 + DigitValue('6');
    }
    assert !Changed(h, "5", Int(100));
    assert Changed(h, "6", Int(7));
    assert ChangedPks(h, six) == Some([6]);
  }

  // ---------------------------------------------------------------------
  // The dispatcher

  /** `Handled`: the message was processed (possibly by only logging it).
      `Raised`: `int()` raised on a health key. `Malformed`: an update batch
      outside the modelled shape (see `WellFormedDevice`). */
  datatype Status = Handled | Raised | Malformed

  datatype Outcome = Outcome(session: Session, events: seq<Event>, status: Status)

  predicate AllObjects(vs: seq<Value>)
  {
    forall i :: 0 <= i < |vs| ==> vs[i].Obj?
  }

  lemma {:induction false} ObjectsFields(vs: seq<Value>)
    requires AllObjects(vs)
    ensures |Objects(vs)| == |vs|
    ensures forall i :: 0 <= i < |vs| ==> Objects(vs)[i] == vs[i].fields
  {
    if |vs| > 0 {
      ObjectsFields(vs[1..]);
      assert forall i :: 0 < i < |vs| ==> vs[i] == vs[1..][i - 1];
    }
  }

  /** A name field that renders as a plain string in an f-string. */
  predicate ScalarField(r: Record, key: string)
  {
    key !in r || ScalarText(r[key]).Some?
  }

  /** A child the loops file as modelled: an object whose `pk`, if any, is
      an integer (a missing one reads as 0 both when sorting and when
      building the id), with scalar names and a `type` that
      `map_worlty_to_platform` can hash. */
  predicate WellFormedChild(c: Value)
  {
    c.Obj? && ("pk" !in c.fields || c.fields["pk"].Int?)
    && ScalarField(c.fields, "did") && ScalarField(c.fields, "cid")
    && !Unhashable(Get(c.fields, "type"))
  }

  /** The shape of a device both clients' update loops handle without
      raising and as modelled: an integer `pk`, an integer `fk` if any,
      scalar names, a `type` that is absent or hashable, and children as
      `WellFormedChild` describes. */
  predicate WellShapedDevice(d: Record)
  {
    && "pk" in d && d["pk"].Int?
    && ("fk" !in d || d["fk"].Int?)
    && ScalarField(d, "did") && ScalarField(d, "cid")
    && !Unhashable(Get(d, "type"))
    && ("children" !in d ||
          (d["children"].List? && forall i :: 0 <= i < |d["children"].items| ==> WellFormedChild(d["children"].items[i])))
  }

  /** The newer loop also reads `lct` into the health map. */
  predicate WellFormedDevice(d: Record)
  {
    "lct" in d && WellShapedDevice(d)
  }

  /** `handle_message`. */
  function HandleMessage(s: Session, m: Message): Outcome
  {
    match m
    case UpdateMessage(vs) =>
      if !AllObjects(vs) then Outcome(s, [], Handled)  // logged as unhandled
      else
        var devices := Objects(vs);
        if !(forall i :: 0 <= i < |devices| ==> WellFormedDevice(devices[i])) then Outcome(s, [], Malformed)
        else
          var (s1, events) := ApplyUpdate(s, devices, Classify);
          Outcome(s1, events, Handled)
    case HealthMessage(reported) =>
      var pks := ChangedPks(s.health, reported);
      if pks.None? then Outcome(s, [], Raised)
      else Outcome(s, if |pks.value| > 0 then [Published(GetDevices(pks.value))] else [], Handled)
    case DeviceListMessage(listed) => Outcome(s, [Published(GetListed(listed))], Handled)
    case DeviceDeleteMessage => Outcome(s, [], Handled)
    case OtherMessage => Outcome(s, [], Handled)
  }

  /** A health report never changes the session; it publishes one `get`
      for the changed keys, and nothing when no key changed. */
  lemma HandleHealth(s: Session, reported: seq<(string, Value)>)
    ensures var o := HandleMessage(s, HealthMessage(reported));
      && o.session == s
      && (o.status == Raised <==> ChangedPks(s.health, reported).None?)
      && (o.status == Handled ==>
            var pks := ChangedPks(s.health, reported).value;
            (o.events == [] <==> pks == [])
            && (pks != [] ==> o.events == [Published(GetDevices(pks))]))
  {
  }

  lemma {:induction false} MergeAllOnlyCallsBack(t: Tree, rs: seq<Record>, classify: Record -> Option<Platform>)
    ensures forall e :: e in MergeAll(t, rs, classify).1 ==> e.Notified? || e.Discovered?
    decreases |rs|
  {
    if |rs| > 0 {
      MergeAllOnlyCallsBack(MergeRecord(t, rs[0], classify).0, rs[1..], classify);
    }
  }

  lemma {:induction false} ProcessOnlyCallsBack(s: Session, ds: seq<Record>, classify: Record -> Option<Platform>)
    ensures forall e :: e in Process(s, ds, classify).1 ==> e.Notified? || e.Discovered?
    decreases |ds|
  {
    if |ds| > 0 {
      MergeAllOnlyCallsBack(s.tree, DeviceRecords(ds[0]), classify);
      var t1 := UpdateDevice(s.tree, ds[0], classify).0;
      ProcessOnlyCallsBack(Session(t1, s.health[HealthKey(ds[0]) := Get(ds[0], "lct")]), ds[1..], classify);
    }
  }

  /** An update batch publishes nothing; a non-empty one ends by persisting
      the entity map exactly as it stands after the batch, and an empty one
      persists nothing. */
  lemma UpdatePersistsOnce(s: Session, devices: seq<Record>, classify: Record -> Option<Platform>)
    ensures var (s1, events) := ApplyUpdate(s, devices, classify);
      && (forall e :: e in events ==> !e.Published?)
      && (|devices| > 0 ==> |events| > 0 && events[|events| - 1] == Persisted(s1.tree.entities))
      && (|devices| > 0 ==> forall i :: 0 <= i < |events| - 1 ==> !events[i].Persisted?)
      && (|devices| == 0 ==> events == [])
  {
    var ds := NormaliseAll(s.tree.deviceId, SortByPk(devices));
    ProcessOnlyCallsBack(s, ds, classify);
    var (s1, events) := ApplyUpdate(s, devices, classify);
    var inner := Process(s, ds, classify).1;
    if |devices| > 0 {
      assert events == inner + [Persisted(s1.tree.entities)];
      forall i | 0 <= i < |events| - 1
        ensures !events[i].Persisted?
      {
        assert events[i] == inner[i] && inner[i] in inner;
      }
    } else {
      assert SortByPk(devices) == [];
    }
  }
}

=== FILE: time.dfy ===
/** The time entity: reading the device's state as a time of day, with the
    keywords `sunset`, `sunrise`, `noon` and `midnight` and an optional
    `±H:MM` offset, and writing a time, which as written raises before
    anything is sent and once corrected sends `HH:MM`. A time of day is its
    number of seconds after midnight; sunrise and sunset come from the
    parameter `sun`, which stands for Home Assistant's astral helper. */
module TimeEntity {
  import opened Values
  import opened Const

  const SecondsPerDay := 86400

  // ---------------------------------------------------------------------
  // Text helpers
  // ---------------------------------------------------------------------

  /** `s.split(":")`. */
  function Split(s: string): (r: seq<string>)
    ensures |r| >= 1
  {
    if |s| == 0 then [""]
    else
      var rest := Split(s[1..]);
      if s[0] == ':' then [""] + rest else [[s[0]] + rest[0]] + rest[1..]
  }

  /** Two digits with a leading zero, as `%H` and `%M` print. */
  function Pad2(n: nat): (s: string)
    requires n < 100
    ensures |s| == 2 && IsDigit(s[0]) && IsDigit(s[1])
  {
    [DigitChar(n / 10), DigitChar(n % 10)]
  }

  /** The regular expression `$` also matches before one final newline. */
  function StripFinalNewline(s: string): string
  {
    if |s| > 0 && s[|s| - 1] == '\n' then s[..|s| - 1] else s
  }

  // ---------------------------------------------------------------------
  // Offsets
  // ---------------------------------------------------------------------

  /** `_parse_time_offset`, in minutes: negative unless the text contains
      `+`; the magnitude is read from the text after the first character,
      split at `:` into hours and minutes. `None` where `int()` or the
      two-way unpacking raises. */
  function ParseOffset(s: string): Option<int>
  {
    var sign := if '+' in s then 1 else -1;
    var parts := Split(if |s| >= 1 then s[1..] else "");
    if |parts| != 2 then None
    else
      var h := ParseInt(parts[0]);
      var m := ParseInt(parts[1]);
      if h.None? || m.None? then None else Some(sign * (h.value * 60 + m.value))
  }

  /** The offset suffix the regular expression accepts: `[+-]\d{1,2}:\d{2}`. */
  predicate OffsetShape(r: string)
  {
    && (|r| == 5 || |r| == 6)
    && (r[0] == '+' || r[0] == '-')
    && IsDigit(r[1])
    && (if |r| == 6 then IsDigit(r[2]) && r[3] == ':' else r[2] == ':')
    && IsDigit(r[|r| - 2]) && IsDigit(r[|r| - 1])
  }

  /** The text of an offset in minutes: sign, hours, `:`, two-digit minutes. */
  function FormatOffset(minutes: int): string
  {
    var mag: nat := if minutes >= 0 then minutes else -minutes;
    (if minutes >= 0 then "+" else "-") + NatToString(mag / 60) + ":" + Pad2(mag % 60)
  }

  // ---------------------------------------------------------------------
  // Keywords
  // ---------------------------------------------------------------------

  const Keywords: seq<string> := ["sunset", "sunrise", "noon", "midnight"]

  /** The keyword alternative of the regular expression that matches at the
      start of `t`, and the text after it. */
  function SplitKeyword(t: string): Option<(string, string)>
  {
    if "sunset" <= t then Some(("sunset", t[6..]))
    else if "sunrise" <= t then Some(("sunrise", t[7..]))
    else if "noon" <= t then Some(("noon", t[4..]))
    else if "midnight" <= t then Some(("midnight", t[8..]))
    else None
  }

  /** The time of day a keyword names: noon and midnight are fixed, the sun
      events are looked up and may be unknown. */
  function BaseTime(keyword: string, sun: string -> Option<int>): Option<int>
  {
    if keyword == "noon" then Some(43200)
    else if keyword == "midnight" then Some(0)
    else sun(keyword)
  }

  /** `_parse_special_time`: a keyword, optionally followed by an offset,
      and nothing else; the result wraps around midnight. */
  function ParseSpecial(s: string, sun: string -> Option<int>): Option<int>
  {
    var split := SplitKeyword(StripFinalNewline(s));
    if split.None? then None
    else
      var keyword := split.value.0;
      var rest := split.value.1;
      if rest != "" && !OffsetShape(rest) then None
      else
        var offset := if rest == "" then Some(0) else ParseOffset(rest);
        var base := BaseTime(keyword, sun);
        if offset.None? || base.None? then None
        else Some((base.value + 60 * offset.value) % SecondsPerDay)
  }

  // ---------------------------------------------------------------------
  // Reading and writing the entity
  // ---------------------------------------------------------------------

  /** `native_value`: no time, a time of day, or an exception that escapes
      (`state.split` on a state that is neither `None` nor text). */
  datatype TimeRead = NoTime | At(seconds: int) | Raised

  /** `native_value` as written: every text state goes to the keyword
      parser. */
  function NativeValueAsWritten(state: Value, sun: string -> Option<int>): TimeRead
  {
    match state
    case Null => NoTime
    case Str(s) => var t := ParseSpecial(s, sun); if t.Some? then At(t.value) else NoTime
    case _ => Raised
  }

  /** `HH:MM` with an hour below 24 and a minute below 60. */
  function ParseClock(s: string): Option<int>
  {
    var parts := Split(s);
    if |parts| != 2 then None
    else
      var h := ParseInt(parts[0]);
      var m := ParseInt(parts[1]);
      if h.None? || m.None? || !(0 <= h.value < 24) || !(0 <= m.value < 60) then None
      else Some(h.value * 3600 + m.value * 60)
  }

  /** `native_value` reading a text state that is not a keyword as `HH:MM`. */
  function NativeValue(state: Value, sun: string -> Option<int>): TimeRead
  {
    match state
    case Null => NoTime
    case Str(s) =>
      var t := ParseSpecial(s, sun);
      if t.Some? then At(t.value)
      else
        var c := ParseClock(s);
        if c.Some? then At(c.value) else NoTime
    case _ => Raised
  }

  datatype Clock = Clock(hour: int, minute: int)

  predicate ValidClock(c: Clock)
  {
    0 <= c.hour < 24 && 0 <= c.minute < 60
  }

  /** `value.strftime("%H:%M")`. */
  function FormatClock(c: Clock): string
    requires ValidClock(c)
  {
    Pad2(c.hour) + ":" + Pad2(c.minute)
  }

  /** `async_set_value` as written. `time` names the class `datetime.time`,
      so `time.strftime("%H:%M", value)` calls the method through the class
      with the format text in the place of the instance; a text is not a
      `time`, so the call raises `TypeError` before `set_device` runs, and
      no command is ever produced. */
  function SetValueAsWritten(c: Clock): Option<Record>
  {
    None
  }

  /** `async_set_value` formatting the value itself,
      `value.strftime("%H:%M")`. */
  function SetValue(c: Clock): Record
    requires ValidClock(c)
  {
    map["stt" := Str(FormatClock(c))]
  }

  // ---------------------------------------------------------------------
  // Properties
  // ---------------------------------------------------------------------

  lemma {:induction false} SplitPlain(a: string)
    requires ':' !in a
    ensures Split(a) == [a]
  {
    if |a| > 0 {
      assert ':' !in a[1..] by {
        forall i | 0 <= i < |a[1..]| ensures a[1..][i] != ':' { assert a[1..][i] == a[i + 1]; }
      }
      SplitPlain(a[1..]);
      assert [a[0]] + a[1..] == a;
    }
  }

  /** Splitting `a:b` gives `a` and `b` when neither holds a colon. */
  lemma {:induction false} SplitJoin(a: string, b: string)
    requires ':' !in a && ':' !in b
    ensures Split(a + ":" + b) == [a, b]
  {
    if |a| == 0 {
      assert a + ":" + b == [':'] + b;
      assert (a + ":" + b)[1..] == b;
      SplitPlain(b);
    } else {
      assert ':' !in a[1..] by {
        forall i | 0 <= i < |a[1..]| ensures a[1..][i] != ':' { assert a[1..][i] == a[i + 1]; }
      }
      SplitJoin(a[1..], b);
      assert (a + ":" + b)[1..] == a[1..] + ":" + b;
      assert [a[0]] + a[1..] == a;
    }
  }

  lemma DigitsHaveNoColon(s: string)
    requires AllDigits(s)
    ensures ':' !in s && '+' !in s
  {
    forall i | 0 <= i < |s|
      ensures s[i] != ':' && s[i] != '+'
    {
      assert IsDigit(s[i]);
    }
  }

  /** A `+` occurs in a signed text exactly when the sign is `+`, if the
      rest has none. */
  lemma SignedPlus(sign: char, body: string)
    requires '+' !in body
    ensures '+' in [sign] + body <==> sign == '+'
  {
    var s := [sign] + body;
    forall i | 0 < i < |s|
      ensures s[i] != '+'
    {
      assert s[i] == body[i - 1];
    }
  }

  lemma Pad2Parses(n: nat)
    requires n < 100
    ensures AllDigits(Pad2(n)) && DigitsValue(Pad2(n)) == n
    ensures ParseInt(Pad2(n)) == Some(n)
    ensures ':' !in Pad2(n) && '+' !in Pad2(n)
  {
    var s := Pad2(n);
    assert AllDigits(s);
    assert s[..1] == [s[0]] && s[..1][..0] == [];
    assert DigitsValue(s[..1]) == DigitValue(s[0]);
    DigitsHaveNoColon(s);
  }

  /** Hours, `:` and minutes hold no `+`. */
  lemma BodyHasNoPlus(hs: string, ms: string)
    requires AllDigits(hs) && AllDigits(ms)
    ensures '+' !in hs + ":" + ms
  {
    var body := hs + ":" + ms;
    forall i | 0 <= i < |body| ensures body[i] != '+'
    {
      if i < |hs| { assert body[i] == hs[i]; assert IsDigit(hs[i]); }
      else if i > |hs| { assert body[i] == ms[i - |hs| - 1]; assert IsDigit(ms[i - |hs| - 1]); }
    }
  }

  /** What the offset parser needs to know about hours and minutes
      written in digits. */
  lemma DigitFields(hs: string, ms: string)
    requires |hs| >= 1 && |ms| >= 1 && AllDigits(hs) && AllDigits(ms)
    ensures Split(hs + ":" + ms) == [hs, ms]
    ensures '+' !in hs + ":" + ms
    ensures ParseInt(hs) == Some(DigitsValue(hs)) && ParseInt(ms) == Some(DigitsValue(ms))
  {
    DigitsHaveNoColon(hs);
    DigitsHaveNoColon(ms);
    BodyHasNoPlus(hs, ms);
    SplitJoin(hs, ms);
    DigitsParse(hs);
    DigitsParse(ms);
  }

  /** The offset parser, given the sign test and how the text after the
      first character splits. */
  lemma ParseOffsetOf(s: string, plus: bool, hs: string, ms: string, h: int, m: int)
    requires |s| >= 1 && ('+' in s <==> plus) && Split(s[1..]) == [hs, ms]
    requires ParseInt(hs) == Some(h) && ParseInt(ms) == Some(m)
    ensures ParseOffset(s) == Some(if plus then h * 60 + m else -(h * 60 + m))
  {
  }

  /** The facts the offset parser needs about a sign, hours, `:` and
      minutes. */
  lemma SignedFields(sign: char, hs: string, ms: string)
    requires |hs| >= 1 && |ms| >= 1 && AllDigits(hs) && AllDigits(ms)
    ensures var s := [sign] + (hs + ":" + ms);
      && |s| >= 1 && ('+' in s <==> sign == '+') && Split(s[1..]) == [hs, ms]
      && ParseInt(hs) == Some(DigitsValue(hs)) && ParseInt(ms) == Some(DigitsValue(ms))
  {
    var body := hs + ":" + ms;
    var s := [sign] + body;
    DigitFields(hs, ms);
    assert s[1..] == body;
    SignedPlus(sign, body);
  }

  /** An offset rendered as text reads back as the same number of
      minutes. */
  lemma OffsetRoundTrip(minutes: int)
    ensures ParseOffset(FormatOffset(minutes)) == Some(minutes)
  {
    var mag: nat := if minutes >= 0 then minutes else -minutes;
    var hs := NatToString(mag / 60);
    var ms := Pad2(mag % 60);
    var sign := if minutes >= 0 then '+' else '-';
    assert FormatOffset(minutes) == [sign] + (hs + ":" + ms);
    Pad2Parses(mag % 60);
    DigitsOfNat(mag / 60);
    assert AllDigits(hs);
    SignedFields(sign, hs, ms);
    ParseOffsetOf(FormatOffset(minutes), sign == '+', hs, ms, mag / 60, mag % 60);
  }

  /** Every suffix of the accepted shape parses, to the sign of its first
      character times hours·60 + minutes. */
  lemma OffsetShapeParses(r: string)
    requires OffsetShape(r)
    ensures var colon := |r| - 3;
      var mag := DigitsValue(r[1..colon]) * 60 + DigitsValue(r[colon + 1..]);
      ParseOffset(r) == Some(if r[0] == '+' then mag else -mag)
  {
    var colon := |r| - 3;
    var hs := r[1..colon];
    var ms := r[colon + 1..];
    assert AllDigits(hs) && AllDigits(ms);
    assert r == [r[0]] + (hs + ":" + ms);
    SignedFields(r[0], hs, ms);
    ParseOffsetOf(r, r[0] == '+', hs, ms, DigitsValue(hs), DigitsValue(ms));
  }

  /** Only the four keywords are accepted, the result is a time of day,
      and without a known base time there is none. */
  lemma SpecialAccepts(s: string, sun: string -> Option<int>)
    ensures ParseSpecial(s, sun).Some? ==>
      (exists k :: k in Keywords && k <= StripFinalNewline(s)) && 0 <= ParseSpecial(s, sun).value < SecondsPerDay
  {
    var t := StripFinalNewline(s);
    if ParseSpecial(s, sun).Some? {
      var k := SplitKeyword(t).value.0;
      assert k in Keywords && k <= t;
    }
  }

  /** The keyword alternative is decided by the first and fourth
      characters. */
  lemma SplitKeywordOf(k: string, rest: string)
    requires k in Keywords
    ensures SplitKeyword(k + rest) == Some((k, rest))
  {
    var t := k + rest;
    assert t[..|k|] == k && t[|k|..] == rest;
    assert t[0] == k[0] && t[3] == k[3];
  }

  /** A keyword followed by an accepted suffix, or by nothing, is read as
      the keyword's base time shifted by the offset, wrapped into one day. */
  lemma KeywordWithOffset(k: string, rest: string, sun: string -> Option<int>)
    requires k in Keywords
    requires rest == "" || OffsetShape(rest)
    ensures rest == "" ==>
      (ParseSpecial(k + rest, sun) == if BaseTime(k, sun).Some? then Some(BaseTime(k, sun).value % SecondsPerDay) else None)
    ensures rest != "" ==> ParseOffset(rest).Some?
    ensures rest != "" && BaseTime(k, sun).Some? ==>
      ParseSpecial(k + rest, sun) == Some((BaseTime(k, sun).value + 60 * ParseOffset(rest).value) % SecondsPerDay)
  {
    var t := k + rest;
    assert t[|t| - 1] != '\n' by {
      if rest == "" { assert t[|t| - 1] == k[|k| - 1]; } else { assert t[|t| - 1] == rest[|rest| - 1]; }
    }
    assert StripFinalNewline(t) == t;
    SplitKeywordOf(k, rest);
    if rest != "" {
      OffsetShapeParses(rest);
    }
  }

  lemma NoonAndMidnight(sun: string -> Option<int>)
    ensures ParseSpecial("noon", sun) == Some(43200)
    ensures ParseSpecial("midnight", sun) == Some(0)
  {
    KeywordWithOffset("noon", "", sun);
    assert "noon" + "" == "noon";
    KeywordWithOffset("midnight", "", sun);
    assert "midnight" + "" == "midnight";
  }

  /** A clock text starts with a digit, so no keyword is its prefix. */
  lemma ClockIsNoKeyword(c: Clock)
    requires ValidClock(c)
    ensures StripFinalNewline(FormatClock(c)) == FormatClock(c)
    ensures SplitKeyword(FormatClock(c)).None?
  {
    var s := FormatClock(c);
    assert IsDigit(s[0]) && IsDigit(s[|s| - 1]);
  }

  /** As written, setting a time never sends anything, whatever the time. */
  lemma SetValueRaises(c: Clock)
    ensures SetValueAsWritten(c).None?
  {
  }

  /** As written, every `HH:MM` state the gateway reports reads as no time:
      the text reaches only the keyword parser. */
  lemma ClockTextUnreadable(c: Clock, sun: string -> Option<int>)
    requires ValidClock(c)
    ensures NativeValueAsWritten(Str(FormatClock(c)), sun) == NoTime
  {
    ClockIsNoKeyword(c);
  }

  /** Reading `HH:MM` after the keywords: every reported `HH:MM` state
      reads as that time of day. */
  lemma ClockTextReads(c: Clock, sun: string -> Option<int>)
    requires ValidClock(c)
    ensures NativeValue(Str(FormatClock(c)), sun) == At(c.hour * 3600 + c.minute * 60)
  {
    ClockIsNoKeyword(c);
    Pad2Parses(c.hour);
    Pad2Parses(c.minute);
    SplitJoin(Pad2(c.hour), Pad2(c.minute));
  }

  /** With both the writer and the reader corrected, a written time is
      sent as one `stt` text and reads back as itself. */
  lemma WrittenTimeRoundTrip(c: Clock, sun: string -> Option<int>)
    requires ValidClock(c)
    ensures SetValue(c).Keys == {"stt"}
    ensures NativeValue(SetValue(c)["stt"], sun) == At(c.hour * 3600 + c.minute * 60)
  {
    assert SetValue(c).Keys == {"stt"};
    ClockTextReads(c, sun);
  }

  /** The corrected reader agrees with the one as written on every state
      the keyword parser accepts, on `None` and on non-text states. */
  lemma NativeValueExtends(state: Value, sun: string -> Option<int>)
    ensures NativeValueAsWritten(state, sun) != NoTime ==> NativeValue(state, sun) == NativeValueAsWritten(state, sun)
    ensures !state.Str? ==> NativeValue(state, sun) == NativeValueAsWritten(state, sun)
  {
  }

  /** The display-name translation leaves a clock text alone: every
      translatable state starts with a letter. */
  lemma ClockTextUntranslated(lang: string, c: Clock)
    requires ValidClock(c)
    ensures MapState(lang, Str(FormatClock(c))) == Some(Str(FormatClock(c)))
  {
    var s := FormatClock(c);
    if lang in StateNames && s in StateNames[lang] {
      StateKeysStartWithLetter(lang, s);
    }
  }

  lemma StateKeysStartWithLetter(lang: string, k: string)
    requires lang in StateNames && k in StateNames[lang]
    ensures |k| > 0 && !IsDigit(k[0])
  {
    LanguagesCoverSameKeys();
    assert k in StateNames["en"];
  }
}

=== FILE: tree.dfy ===
/** The device-tree synchroniser of the gateway session: normalising an
    `update` batch, merging records into the entity map and the per-platform
    buckets, recording last-changed times, and diffing `health` reports. */
module DeviceTree {
  import opened Values
  import opened Const
  import opened Protocol
  import opened UniqueIds
  import opened PkSort

  // ---------------------------------------------------------------------
  // Record addressing

  /** `r.get("fk", 0)`: the parent's primary key, 0 for a top-level record. */
  function FkOf(r: Record): int
  {
    if "fk" in r && r["fk"].Int? then r["fk"].i else 0
  }

  /** The text of `r.get(key)` inside an f-string. */
  function TextOf(r: Record, key: string): string
  {
    ScalarText(Get(r, key)).GetOr("")
  }

  /** The name used in the unique id: `did` for a top-level record, `cid`
      for a child. */
  function NameOf(r: Record): string
  {
    TextOf(r, if FkOf(r) == 0 then "did" else "cid")
  }

  /** The unique id under which the synchroniser files a record. */
  function RecordId(dev: string, r: Record): string
  {
    UniqueId(dev, PkOf(r), FkOf(r), NameOf(r))
  }

  // ---------------------------------------------------------------------
  // Normalisation of an update batch

  /** The objects of a JSON list, as records. */
  function Objects(vs: seq<Value>): seq<Record>
  {
    if |vs| == 0 then []
    else (if vs[0].Obj? then [vs[0].fields] else []) + Objects(vs[1..])
  }

  /** Records as a JSON list. */
  function Wrap(rs: seq<Record>): seq<Value>
  {
    if |rs| == 0 then [] else [Obj(rs[0])] + Wrap(rs[1..])
  }

  lemma {:induction false} ObjectsOfWrap(rs: seq<Record>)
    ensures Objects(Wrap(rs)) == rs
  {
    if |rs| > 0 {
      ObjectsOfWrap(rs[1..]);
      assert ([Obj(rs[0])] + Wrap(rs[1..]))[1..] == Wrap(rs[1..]);
    }
  }

  /** `d.get("children", [])` as records. */
  function Children(d: Record): seq<Record>
  {
    if "children" in d && d["children"].List? then Objects(d["children"].items) else []
  }

  /** The root unique id of a device, which its children carry as
      `parent_unique_id`. */
  function ParentId(dev: string, d: Record): string
  {
    UniqueId(dev, PkOf(d), 0, TextOf(d, "did"))
  }

  /** A child tagged with its parent's primary key and root id. */
  function Stamp(c: Record, parentPk: int, parentId: string): Record
  {
    c["fk" := Int(parentPk)]["parent_unique_id" := Str(parentId)]
  }

  function StampAll(cs: seq<Record>, parentPk: int, parentId: string): seq<Record>
  {
    if |cs| == 0 then [] else [Stamp(cs[0], parentPk, parentId)] + StampAll(cs[1..], parentPk, parentId)
  }

  /** A device as stored: its children sorted by primary key and tagged
      with the parent's key and id. */
  function Normalise(dev: string, d: Record): Record
  {
    d["children" := List(Wrap(StampAll(SortByPk(Children(d)), PkOf(d), ParentId(dev, d))))]
  }

  function NormaliseAll(dev: string, ds: seq<Record>): seq<Record>
  {
    if |ds| == 0 then [] else [Normalise(dev, ds[0])] + NormaliseAll(dev, ds[1..])
  }

  lemma StampKeepsPk(c: Record, parentPk: int, parentId: string)
    ensures PkOf(Stamp(c, parentPk, parentId)) == PkOf(c)
  {
  }

  lemma {:induction false} StampThenInsert(x: Record, s: seq<Record>, parentPk: int, parentId: string)
    ensures InsertByPk(Stamp(x, parentPk, parentId), StampAll(s, parentPk, parentId))
         == StampAll(InsertByPk(x, s), parentPk, parentId)
  {
    if |s| > 0 {
      StampThenInsert(x, s[1..], parentPk, parentId);
      var st := StampAll(s, parentPk, parentId);
      assert st[0] == Stamp(s[0], parentPk, parentId) && st[1..] == StampAll(s[1..], parentPk, parentId);
      if PkOf(x) > PkOf(s[0]) {
        var t := InsertByPk(x, s[1..]);
        assert ([s[0]] + t)[1..] == t;
      } else {
        assert ([x] + s)[1..] == s;
      }
    }
  }

  /** Tagging does not touch primary keys, so tagging and sorting commute. */
  lemma {:induction false} StampThenSort(cs: seq<Record>, parentPk: int, parentId: string)
    ensures SortByPk(StampAll(cs, parentPk, parentId)) == StampAll(SortByPk(cs), parentPk, parentId)
  {
    if |cs| > 0 {
      var st := StampAll(cs, parentPk, parentId);
      assert st[1..] == StampAll(cs[1..], parentPk, parentId);
      StampThenSort(cs[1..], parentPk, parentId);
      StampThenInsert(cs[0], SortByPk(cs[1..]), parentPk, parentId);
    }
  }

  lemma {:induction false} StampAllTags(cs: seq<Record>, parentPk: int, parentId: string)
    ensures |StampAll(cs, parentPk, parentId)| == |cs|
    ensures forall i :: 0 <= i < |cs| ==>
      var c := StampAll(cs, parentPk, parentId)[i];
      FkOf(c) == parentPk && "parent_unique_id" in c && c["parent_unique_id"] == Str(parentId)
      && PkOf(c) == PkOf(cs[i])
      && forall k :: k != "fk" && k != "parent_unique_id" ==>
           (k in c <==> k in cs[i]) && (k in cs[i] ==> c[k] == cs[i][k])
  {
    if |cs| > 0 {
      StampAllTags(cs[1..], parentPk, parentId);
    }
  }

  /** A normalised device keeps every field except `children`, including
      its primary key. */
  lemma NormaliseKeepsFields(dev: string, d: Record)
    ensures forall k :: k != "children" ==>
      (k in Normalise(dev, d) <==> k in d) && (k in d ==> Normalise(dev, d)[k] == d[k])
    ensures PkOf(Normalise(dev, d)) == PkOf(d)
  {
  }

  /** The stored children are the tagged input children, stably sorted by
      primary key. */
  lemma NormaliseChildren(dev: string, d: Record)
    ensures Children(Normalise(dev, d)) == SortByPk(StampAll(Children(d), PkOf(d), ParentId(dev, d)))
  {
    var stamped := StampAll(SortByPk(Children(d)), PkOf(d), ParentId(dev, d));
    ObjectsOfWrap(stamped);
    assert Children(Normalise(dev, d)) == stamped;
    StampThenSort(Children(d), PkOf(d), ParentId(dev, d));
  }

  /** So the stored children are ordered by key, are a permutation of the
      tagged input children, and each carries the parent's key as `fk` and
      the parent's root id as `parent_unique_id`. */
  lemma NormaliseTagsChildren(dev: string, d: Record)
    ensures SortedByPk(Children(Normalise(dev, d)))
    ensures multiset(Children(Normalise(dev, d))) == multiset(StampAll(Children(d), PkOf(d), ParentId(dev, d)))
    ensures forall i :: 0 <= i < |Children(Normalise(dev, d))| ==>
      var c := Children(Normalise(dev, d))[i];
      FkOf(c) == PkOf(d) && "parent_unique_id" in c && c["parent_unique_id"] == Str(ParentId(dev, d))
  {
    NormaliseChildren(dev, d);
    var stamped := StampAll(Children(d), PkOf(d), ParentId(dev, d));
    SortIsOrderedPermutation(stamped);
    StampThenSort(Children(d), PkOf(d), ParentId(dev, d));
    StampAllTags(SortByPk(Children(d)), PkOf(d), ParentId(dev, d));
  }

  // ---------------------------------------------------------------------
  // The order in which records are merged

  /** A normalised device followed by its children: the order in which
      `update_device` merges them. */
  function DeviceRecords(d: Record): seq<Record>
  {
    [d] + Children(d)
  }

  function Flatten(ds: seq<Record>): seq<Record>
  {
    if |ds| == 0 then [] else DeviceRecords(ds[0]) + Flatten(ds[1..])
  }

  /** Where device `i` starts in the flattened batch. */
  function Offset(ds: seq<Record>, i: nat): nat
    requires i <= |ds|
  {
    if i == 0 then 0 else |DeviceRecords(ds[0])| + Offset(ds[1..], i - 1)
  }

  /** The next device starts right after this device and its children. */
  lemma {:induction false} OffsetStep(ds: seq<Record>, i: nat)
    requires i < |ds|
    ensures Offset(ds, i + 1) == Offset(ds, i) + 1 + |Children(ds[i])|
  {
    if i > 0 {
      OffsetStep(ds[1..], i - 1);
      assert ds[1..][i - 1] == ds[i];
    }
  }

  lemma {:induction false} OffsetWithin(ds: seq<Record>, i: nat)
    requires i <= |ds|
    ensures Offset(ds, i) <= |Flatten(ds)|
  {
    if i > 0 {
      OffsetWithin(ds[1..], i - 1);
    }
  }

  /** Device `i`'s own records sit contiguously from its offset in the
      flattened batch: the device first, then its children in order, so
      each device is merged before its children and they before the next
      device. */
  lemma {:induction false} FlattenAt(ds: seq<Record>, i: nat, j: nat)
    requires i < |ds| && j < |DeviceRecords(ds[i])|
    ensures Offset(ds, i) + j < |Flatten(ds)|
    ensures Flatten(ds)[Offset(ds, i) + j] == DeviceRecords(ds[i])[j]
  {
    var head := DeviceRecords(ds[0]);
    var tail := Flatten(ds[1..]);
    if i > 0 {
      FlattenAt(ds[1..], i - 1, j);
      assert ds[1..][i - 1] == ds[i];
      assert (head + tail)[|head| + Offset(ds[1..], i - 1) + j] == tail[Offset(ds[1..], i - 1) + j];
    }
  }

  // ---------------------------------------------------------------------
  // The entity map and its merge

  /** What the synchroniser keeps between messages. `registered` holds the
      ids that have a live entity; `listeners` the platforms with an
      add-entity callback. */
  datatype Tree = Tree(
    deviceId: string,
    entities: map<string, Record>,
    byPlatform: map<Platform, map<string, Record>>,
    registered: set<string>,
    listeners: set<Platform>)

  /** The platform of a stored record, as the newer client decides it. A
      list or object `type` never arrives in an update batch (the session
      refuses such a batch as malformed), so `Raises` can only come from a
      record stored before; it is read as no platform. */
  function Classify(r: Record): (p: Option<Platform>)
    ensures p.Some? <==> PlatformOf(Get(r, "type"), Get(r, "cls")).Reads?
    ensures p.Some? ==> p.value == PlatformOf(Get(r, "type"), Get(r, "cls")).v
  {
    match PlatformOf(Get(r, "type"), Get(r, "cls"))
    case Reads(platform) => Some(platform)
    case _ => None
  }

  /** `m.setdefault(uid, rec).update(rec)`: the stored record afterwards. */
  function Absorb(m: map<string, Record>, uid: string, rec: Record): Record
  {
    if uid in m then m[uid] + rec else rec
  }

  /** `_update_or_create_worlty_entity`: file one record under its id. The
      classifier is a parameter because the two clients classify
      differently. */
  function MergeRecord(t: Tree, rec: Record, classify: Record -> Option<Platform>): (Tree, seq<Event>)
  {
    var uid := RecordId(t.deviceId, rec);
    if uid in t.registered then
      (t.(entities := t.entities[uid := rec]), [Notified(uid, rec)])
    else
      var stored := Absorb(t.entities, uid, rec);
      var t1 := t.(entities := t.entities[uid := stored]);
      match classify(stored)
      case None => (t1, [])
      case Some(p) =>
        var bucket := if p in t.byPlatform then t.byPlatform[p] else map[];
        var entry := Absorb(bucket, uid, rec);
        (t1.(byPlatform := t.byPlatform[p := bucket[uid := entry]]),
         if p in t.listeners then [Discovered(p, entry)] else [])
  }

  /** The record filed under `uid` in the entity map, if any. */
  function EntityAt(t: Tree, uid: string): Option<Record>
  {
    if uid in t.entities then Some(t.entities[uid]) else None
  }

  /** The record filed under `uid` in platform `p`'s bucket, if any. */
  function SlotAt(t: Tree, p: Platform, uid: string): Option<Record>
  {
    if p in t.byPlatform && uid in t.byPlatform[p] then Some(t.byPlatform[p][uid]) else None
  }

  /** `t2` differs from `t` at most in what is filed under `uid`. */
  ghost predicate SameExcept(t: Tree, t2: Tree, uid: string)
  {
    && t2.deviceId == t.deviceId
    && t2.registered == t.registered
    && t2.listeners == t.listeners
    && (forall u :: u != uid ==> EntityAt(t2, u) == EntityAt(t, u))
    && (forall p, u :: u != uid ==> SlotAt(t2, p, u) == SlotAt(t, p, u))
  }

  /** Merging touches nothing but the record's own id. */
  lemma MergeFrame(t: Tree, rec: Record, classify: Record -> Option<Platform>)
    ensures SameExcept(t, MergeRecord(t, rec, classify).0, RecordId(t.deviceId, rec))
  {
  }

  /** `dict.update` semantics: every field of the record is stored with the
      record's value. A registered id has its entry replaced outright; an
      unregistered one keeps the fields the record does not mention. */
  lemma MergeStoresRecord(t: Tree, rec: Record, classify: Record -> Option<Platform>)
    ensures var t2 := MergeRecord(t, rec, classify).0;
      var uid := RecordId(t.deviceId, rec);
      && uid in t2.entities
      && (forall k :: k in rec ==> k in t2.entities[uid] && t2.entities[uid][k] == rec[k])
      && (uid in t.registered ==> t2.entities[uid] == rec)
      && (uid !in t.registered ==> forall k :: k !in rec ==>
            (k in t2.entities[uid] <==> uid in t.entities && k in t.entities[uid])
            && (k in t2.entities[uid] ==> t2.entities[uid][k] == t.entities[uid][k]))
  {
  }

  /** Which callbacks fire: a registered entity is handed the record; for an
      unregistered id the discovery callback fires exactly when the stored
      record classifies to a platform that has a listener, and it is handed
      that platform's stored entry. */
  lemma MergeEvents(t: Tree, rec: Record, classify: Record -> Option<Platform>)
    ensures var (t2, events) := MergeRecord(t, rec, classify);
      var uid := RecordId(t.deviceId, rec);
      && (uid in t.registered ==> events == [Notified(uid, rec)])
      && (uid !in t.registered && uid in t2.entities ==>
            var platform := classify(t2.entities[uid]);
            && (platform.None? ==> events == [] && t2.byPlatform == t.byPlatform)
            && (platform.Some? ==>
                  && SlotAt(t2, platform.value, uid).Some?
                  && (forall k :: k in rec ==>
                        k in SlotAt(t2, platform.value, uid).value
                        && SlotAt(t2, platform.value, uid).value[k] == rec[k])
                  && (events != [] <==> platform.value in t.listeners)
                  && (events != [] ==> events == [Discovered(platform.value, SlotAt(t2, platform.value, uid).value)])))
  {
  }

  lemma UnionAgain(m: Record, rec: Record)
    ensures (m + rec) + rec == m + rec
  {
  }

  /** Merging the same record twice leaves the tree as after one merge. */
  lemma MergeIdempotent(t: Tree, rec: Record, classify: Record -> Option<Platform>)
    ensures var t1 := MergeRecord(t, rec, classify).0;
      MergeRecord(t1, rec, classify).0 == t1
  {
    var t1 := MergeRecord(t, rec, classify).0;
    MergeEstablishesSettled(t, rec, classify);
    SettledIsFixpoint(t1, rec, classify);
  }

  /** `rec` has been absorbed: merging it again would change nothing. */
  predicate Settled(t: Tree, rec: Record, classify: Record -> Option<Platform>)
  {
    var uid := RecordId(t.deviceId, rec);
    && uid in t.entities
    && (uid in t.registered ==> t.entities[uid] == rec)
    && (uid !in t.registered ==>
          && t.entities[uid] + rec == t.entities[uid]
          && (classify(t.entities[uid]).Some? ==>
                var p := classify(t.entities[uid]).value;
                SlotAt(t, p, uid).Some? && SlotAt(t, p, uid).value + rec == SlotAt(t, p, uid).value))
  }

  lemma SettledIsFixpoint(t: Tree, rec: Record, classify: Record -> Option<Platform>)
    requires Settled(t, rec, classify)
    ensures MergeRecord(t, rec, classify).0 == t
  {
    var uid := RecordId(t.deviceId, rec);
    if uid in t.registered {
      assert t.entities[uid := rec] == t.entities;
    } else {
      assert t.entities[uid := t.entities[uid] + rec] == t.entities;
      var stored := t.entities[uid];
      if classify(stored).Some? {
        var p := classify(stored).value;
        var bucket := t.byPlatform[p];
        assert bucket[uid := bucket[uid] + rec] == bucket;
        assert t.byPlatform[p := bucket] == t.byPlatform;
      }
    }
  }

  lemma MergeEstablishesSettled(t: Tree, rec: Record, classify: Record -> Option<Platform>)
    ensures Settled(MergeRecord(t, rec, classify).0, rec, classify)
  {
    var uid := RecordId(t.deviceId, rec);
    if uid !in t.registered {
      var stored := Absorb(t.entities, uid, rec);
      UnionAgain(stored, rec);
      assert stored + rec == stored;
      if classify(stored).Some? {
        var p := classify(stored).value;
        var bucket := if p in t.byPlatform then t.byPlatform[p] else map[];
        var entry := Absorb(bucket, uid, rec);
        UnionAgain(entry, rec);
        assert entry + rec == entry;
      }
    }
  }

  /** Merging a record with a different id does not disturb a settled one. */
  lemma MergeKeepsSettled(t: Tree, rec: Record, other: Record, classify: Record -> Option<Platform>)
    requires Settled(t, rec, classify)
    requires RecordId(t.deviceId, other) != RecordId(t.deviceId, rec)
    ensures Settled(MergeRecord(t, other, classify).0, rec, classify)
  {
    var uid := RecordId(t.deviceId, rec);
    var t2 := MergeRecord(t, other, classify).0;
    MergeFrame(t, other, classify);
    assert EntityAt(t2, uid) == EntityAt(t, uid);
    if uid !in t.registered && classify(t.entities[uid]).Some? {
      var p := classify(t.entities[uid]).value;
      assert SlotAt(t2, p, uid) == SlotAt(t, p, uid);
    }
  }

  /** Merge a run of records in order. */
  function MergeAll(t: Tree, rs: seq<Record>, classify: Record -> Option<Platform>): (Tree, seq<Event>)
    decreases |rs|
  {
    if |rs| == 0 then (t, [])
    else
      var (t1, e1) := MergeRecord(t, rs[0], classify);
      var (t2, e2) := MergeAll(t1, rs[1..], classify);
      (t2, e1 + e2)
  }

  lemma {:induction false} MergeAllFrame(t: Tree, rs: seq<Record>, classify: Record -> Option<Platform>)
    ensures MergeAll(t, rs, classify).0.deviceId == t.deviceId
    ensures MergeAll(t, rs, classify).0.registered == t.registered
    ensures MergeAll(t, rs, classify).0.listeners == t.listeners
    decreases |rs|
  {
    if |rs| > 0 {
      MergeFrame(t, rs[0], classify);
      MergeAllFrame(MergeRecord(t, rs[0], classify).0, rs[1..], classify);
    }
  }

  lemma {:induction false} MergeAllAppend(t: Tree, a: seq<Record>, b: seq<Record>, classify: Record -> Option<Platform>)
    ensures MergeAll(t, a + b, classify).0 == MergeAll(MergeAll(t, a, classify).0, b, classify).0
    decreases |a|
  {
    if |a| == 0 {
      assert a + b == b;
    } else {
      assert (a + b)[0] == a[0] && (a + b)[1..] == a[1..] + b;
      MergeAllAppend(MergeRecord(t, a[0], classify).0, a[1..], b, classify);
    }
  }

  /** A run of merges leaves alone every id that none of its records has. */
  lemma {:induction false} MergeAllTouchesOnly(t: Tree, rs: seq<Record>, classify: Record -> Option<Platform>, uid: string)
    requires forall i :: 0 <= i < |rs| ==> RecordId(t.deviceId, rs[i]) != uid
    ensures EntityAt(MergeAll(t, rs, classify).0, uid) == EntityAt(t, uid)
    decreases |rs|
  {
    if |rs| > 0 {
      MergeFrame(t, rs[0], classify);
      var t1 := MergeRecord(t, rs[0], classify).0;
      MergeAllTouchesOnly(t1, rs[1..], classify, uid);
    }
  }

  /** No two records of the run share an id. */
  predicate DistinctIds(dev: string, rs: seq<Record>)
  {
    forall i, j :: 0 <= i < j < |rs| ==> RecordId(dev, rs[i]) != RecordId(dev, rs[j])
  }

  lemma {:induction false} MergeAllKeepsSettled(t: Tree, rs: seq<Record>, rec: Record, classify: Record -> Option<Platform>)
    requires Settled(t, rec, classify)
    requires forall i :: 0 <= i < |rs| ==> RecordId(t.deviceId, rs[i]) != RecordId(t.deviceId, rec)
    ensures Settled(MergeAll(t, rs, classify).0, rec, classify)
    decreases |rs|
  {
    if |rs| > 0 {
      MergeKeepsSettled(t, rec, rs[0], classify);
      var t1 := MergeRecord(t, rs[0], classify).0;
      MergeFrame(t, rs[0], classify);
      MergeAllKeepsSettled(t1, rs[1..], rec, classify);
    }
  }

  lemma {:induction false} MergeAllSettles(t: Tree, rs: seq<Record>, classify: Record -> Option<Platform>)
    requires DistinctIds(t.deviceId, rs)
    ensures forall i :: 0 <= i < |rs| ==> Settled(MergeAll(t, rs, classify).0, rs[i], classify)
    decreases |rs|
  {
    if |rs| > 0 {
      var t1 := MergeRecord(t, rs[0], classify).0;
      MergeFrame(t, rs[0], classify);
      MergeEstablishesSettled(t, rs[0], classify);
      MergeAllKeepsSettled(t1, rs[1..], rs[0], classify);
      MergeAllSettles(t1, rs[1..], classify);
      forall i | 0 < i < |rs|
        ensures Settled(MergeAll(t, rs, classify).0, rs[i], classify)
      {
        assert rs[1..][i - 1] == rs[i];
      }
    }
  }

  lemma {:induction false} SettledRunIsFixpoint(t: Tree, rs: seq<Record>, classify: Record -> Option<Platform>)
    requires forall i :: 0 <= i < |rs| ==> Settled(t, rs[i], classify)
    ensures MergeAll(t, rs, classify).0 == t
    decreases |rs|
  {
    if |rs| > 0 {
      SettledIsFixpoint(t, rs[0], classify);
      SettledRunIsFixpoint(t, rs[1..], classify);
    }
  }

  /** Replaying a run of records with distinct ids changes nothing. */
  lemma MergeAllIdempotent(t: Tree, rs: seq<Record>, classify: Record -> Option<Platform>)
    requires DistinctIds(t.deviceId, rs)
    ensures var t1 := MergeAll(t, rs, classify).0;
      MergeAll(t1, rs, classify).0 == t1
  {
    MergeAllSettles(t, rs, classify);
    SettledRunIsFixpoint(MergeAll(t, rs, classify).0, rs, classify);
  }

  /** `register_entity`: an entity with a type claims its unique id. */
  function Register(t: Tree, uid: string, worltyType: Value): (r: Tree)
  {
    if worltyType != Null then t.(registered := t.registered + {uid}) else t
  }

  /** `register_add_listener`. */
  function AddListener(t: Tree, p: Platform): Tree
  {
    t.(listeners := t.listeners + {p})
  }

  /** Once an entity with a type is registered for a record's id, the next
      merge of that record is delivered to it and replaces the stored entry;
      an entity without a type never claims the id. */
  lemma RegisteredEntityReceivesUpdates(t: Tree, rec: Record, worltyType: Value,
                                        classify: Record -> Option<Platform>)
    ensures var uid := RecordId(t.deviceId, rec);
      var (t2, events) := MergeRecord(Register(t, uid, worltyType), rec, classify);
      (worltyType != Null ==> events == [Notified(uid, rec)] && t2.entities[uid] == rec)
      && (worltyType == Null ==> Register(t, uid, worltyType) == t)
  {
  }
}

=== FILE: values.dfy ===
/** JSON-like values as the gateway integration sees them after decoding,
    plus the few Python built-ins the integration leans on: truthiness,
    `str()` of scalars and `int()` of decimal strings. */
module Values {

  datatype Option<+T> = None | Some(value: T)
  {
    /** `dict.get(key, default)` style access on an optional value. */
    function GetOr(default: T): T
    {
      match this
      case Some(v) => v
      case None => default
    }
  }

  /** A decoded JSON value. Floating-point numbers are modelled as exact reals. */
  datatype Value =
    | Null
    | Bool(b: bool)
    | Int(i: int)
    | Real(r: real)
    | Str(s: string)
    | List(items: seq<Value>)
    | Obj(fields: map<string, Value>)

  /** A JSON object, which is what the integration calls a dict. */
  type Record = map<string, Value>

  /** A list or an object: a value Python cannot hash, so using it as a
      dict key raises `TypeError`. */
  predicate Unhashable(v: Value)
  {
    v.List? || v.Obj?
  }

  /** What a lookup or an entity property returns: a value, Python's
      `None`, or the exception raised while computing it. */
  datatype Reading<T> = Reads(v: T) | Nothing | Raises

  /** `d.get(k)`: the value under `k`, or `None` when the key is absent. */
  function Get(d: Record, k: string): (r: Value)
    ensures k !in d ==> r == Null
    ensures k in d ==> r == d[k]
  {
    if k in d then d[k] else Null
  }

  /** Python truthiness of a JSON value. */
  predicate Truthy(v: Value)
  {
    match v
    case Null => false
    case Bool(b) => b
    case Int(i) => i != 0
    case Real(r) => r != 0.0
    case Str(s) => |s| > 0
    case List(xs) => |xs| > 0
    case Obj(m) => |m| > 0
  }

  predicate IsDigit(c: char)
  {
    '0' <= c <= '9'
  }

  function DigitChar(d: nat): (c: char)
    requires d < 10
    ensures IsDigit(c)
  {
    ('0' as int + d) as char
  }

  function DigitValue(c: char): (d: nat)
    requires IsDigit(c)
    ensures d < 10
    ensures DigitChar(d) == c
  {
    c as int - '0' as int
  }

  /** Decimal digits of a natural number, without leading zeros. */
  function NatToString(n: nat): (s: string)
    ensures |s| >= 1
    ensures forall i :: 0 <= i < |s| ==> IsDigit(s[i])
    ensures n >= 10 ==> |s| >= 2
    ensures n < 10 ==> |s| == 1
    decreases n
  {
    if n < 10 then [DigitChar(n)] else NatToString(n / 10) + [DigitChar(n % 10)]
  }

  /** `str(i)` for a Python int. */
  function IntToString(i: int): (s: string)
    ensures |s| >= 1
    ensures forall k :: 0 <= k < |s| ==> IsDigit(s[k]) || (k == 0 && s[k] == '-')
    ensures s[0] == '-' <==> i < 0
  {
    if i < 0 then "-" + NatToString(-i) else NatToString(i)
  }

  /** Value of a non-empty run of decimal digits. */
  function DigitsValue(s: string): (n: nat)
    requires forall i :: 0 <= i < |s| ==> IsDigit(s[i])
  {
    if |s| == 0 then 0 else DigitsValue(s[..|s| - 1]) * 10 + DigitValue(s[|s| - 1])
  }

  predicate AllDigits(s: string)
  {
    forall i :: 0 <= i < |s| ==> IsDigit(s[i])
  }

  /** `int(s)` for an optionally signed run of ASCII digits; `None` where
      Python raises `ValueError` on such a string. */
  function ParseInt(s: string): (r: Option<int>)
    ensures r.Some? ==> |s| >= 1
  {
    if |s| >= 2 && (s[0] == '-' || s[0] == '+') && AllDigits(s[1..]) then
      var m: int := DigitsValue(s[1..]);
      Some(if s[0] == '-' then -m else m)
    else if |s| >= 1 && AllDigits(s) then
      Some(DigitsValue(s))
    else
      None
  }

  lemma {:induction false} DigitsOfNat(n: nat)
    ensures DigitsValue(NatToString(n)) == n
    decreases n
  {
    if n >= 10 {
      DigitsOfNat(n / 10);
      var s := NatToString(n);
      assert s[..|s| - 1] == NatToString(n / 10);
    }
  }

  /** A run of digits parses to its value. */
  lemma DigitsParse(s: string)
    requires |s| >= 1 && AllDigits(s)
    ensures ParseInt(s) == Some(DigitsValue(s))
  {
    assert IsDigit(s[0]);
  }

  /** A minus sign and a run of digits parse to the negated value. */
  lemma NegativeParse(s: string)
    requires |s| >= 2 && s[0] == '-' && AllDigits(s[1..])
    ensures ParseInt(s) == Some(-(DigitsValue(s[1..]) as int))
  {
  }

  lemma NatRoundTrip(n: nat)
    ensures ParseInt(NatToString(n)) == Some(n)
  {
    DigitsOfNat(n);
    DigitsParse(NatToString(n));
  }

  lemma NegativeRoundTrip(n: nat)
    requires n > 0
    ensures ParseInt("-" + NatToString(n)) == Some(-(n as int))
  {
    var s := "-" + NatToString(n);
    assert s[1..] == NatToString(n);
    DigitsOfNat(n);
    NegativeParse(s);
  }

  /** `int(str(i)) == i`: the decimal rendering of an integer reads back. */
  lemma ParseIntRoundTrip(i: int)
    ensures ParseInt(IntToString(i)) == Some(i)
  {
    if i < 0 {
      assert IntToString(i) == "-" + NatToString(-i);
      NegativeRoundTrip(-i);
    } else {
      assert IntToString(i) == NatToString(i);
      NatRoundTrip(i);
    }
  }

  /** Distinct naturals render to distinct digit strings. */
  lemma NatToStringInjective(a: nat, b: nat)
    requires NatToString(a) == NatToString(b)
    ensures a == b
  {
    DigitsOfNat(a);
    DigitsOfNat(b);
  }

  /** Distinct integers render to distinct strings. */
  lemma IntToStringInjective(a: int, b: int)
    requires IntToString(a) == IntToString(b)
    ensures a == b
  {
    ParseIntRoundTrip(a);
    ParseIntRoundTrip(b);
  }

  /** `str(v)` (the f-string rendering) of a scalar JSON value; `None` for
      lists and objects, whose Python rendering is not modelled. */
  function ScalarText(v: Value): (r: Option<string>)
    ensures v.Str? ==> r == Some(v.s)
    ensures v.Null? ==> r == Some("None")
    ensures v.Int? ==> r == Some(IntToString(v.i))
    ensures r.None? <==> v.List? || v.Obj? || v.Real?
  {
    match v
    case Null => Some("None")
    case Bool(b) => Some(if b then "True" else "False")
    case Int(i) => Some(IntToString(i))
    case Str(s) => Some(s)
    case _ => None
  }
}

=== FILE: waterheater.dfy ===
/** The water heater entity: one table of ten modes (the climate modes
    followed by the presets), away mode as mode 6, and an operation that is
    `gas` while the device is on. */
module WaterHeater {
  import opened Values
  import opened ModeTables

  const ModeTable: Table := [(0, "off"), (1, "heat"), (2, "cool"), (3, "auto"), (4, "dry"), (5, "fan_only"),
                             (6, "away"), (7, "eco"), (8, "sleep"), (9, "boost")]

  lemma ModeTableAscending() ensures Ascending(ModeTable) {}
  lemma ModeTableInjective() ensures Injective(ModeTable) {}

  /** The named keys the commands use. */
  lemma NamedKeys()
    ensures ToKey(ModeTable, "away") == Some(6)
    ensures ToKey(ModeTable, "heat") == Some(1)
  {
  }

  datatype Feature = OnOff | TargetTemperature | OperationMode | AwayMode

  const AllFeatures: set<Feature> := {OnOff, TargetTemperature, OperationMode, AwayMode}

  datatype Capabilities = Capabilities(modes: seq<string>, features: set<Feature>)

  /** `_update_entity`. `None` when `sm` is not an integer. */
  function Update(a: Record): Option<Capabilities>
  {
    var sm := MaskOf(a, "sm");
    if sm.None? then None
    else
      var modes := ["off"] + Decode(ModeTable, sm.value);
      Some(Capabilities(modes, set f | f in AllFeatures && (f == AwayMode ==> "away" in modes)))
  }

  /** `is_away_mode_on`. */
  predicate IsAwayModeOn(a: Record)
  {
    Truthy(Get(a, "stt")) && Get(a, "m") == Int(6)
  }

  /** `current_operation`. */
  function CurrentOperation(a: Record): string
  {
    if Truthy(Get(a, "stt")) then "gas" else "off"
  }

  /** `async_set_temperature`: switches on in heating mode. */
  function SetTemperature(kwargs: Record): Record
  {
    map["stt" := Bool(true), "m" := Int(1), "tt" := Get(kwargs, "temperature")]
  }

  function AwayModeOn(): Record
  {
    map["stt" := Bool(true), "m" := KeyValue(ToKey(ModeTable, "away"))]
  }

  function AwayModeOff(): Record
  {
    map["stt" := Bool(true), "m" := KeyValue(ToKey(ModeTable, "heat"))]
  }

  /** `async_set_operation_mode`: on exactly for `gas`. */
  function SetOperationMode(operation: string): Record
  {
    map["stt" := Bool(operation == "gas")]
  }

  function TurnOnCommand(): Record { map["stt" := Bool(true)] }

  function TurnOffCommand(): Record { map["stt" := Bool(false)] }

  // ---------------------------------------------------------------------
  // Properties
  // ---------------------------------------------------------------------

  /** Every mode maps back to its key; a name outside the table has none. */
  lemma ToKeyInvertsTable(k: int, name: string)
    ensures Lookup(ModeTable, k).Some? ==> ToKey(ModeTable, Lookup(ModeTable, k).value) == Some(k)
    ensures ToKey(ModeTable, name).None? <==> forall i :: 0 <= i < |ModeTable| ==> ModeTable[i].1 != name
  {
    ModeTableInjective();
    InvertsAt(ModeTable, k);
    ToKeyExact(ModeTable, name);
  }

  lemma UpdateParts(a: Record)
    requires MaskOf(a, "sm").Some?
    ensures var c := Update(a).value;
      && c.modes == ["off"] + Decode(ModeTable, MaskOf(a, "sm").value)
      && (forall f :: f in c.features <==> f in AllFeatures && (f == AwayMode ==> "away" in c.modes))
  {
  }

  /** The mode list is `off` and then exactly the modes whose bit is set, in
      key order. */
  lemma UpdateModes(a: Record)
    ensures Update(a).None? <==> MaskOf(a, "sm").None?
    ensures Update(a).Some? ==>
      var c := Update(a).value;
      var sm := MaskOf(a, "sm").value;
      && c.modes[0] == "off"
      && (forall name :: name in c.modes[1..] <==> ToKey(ModeTable, name).Some? && BitSet(sm, ToKey(ModeTable, name).value))
      && KeysAscend(ModeTable, c.modes[1..])
  {
    if Update(a).Some? {
      var sm := MaskOf(a, "sm").value;
      UpdateParts(a);
      ModeTableAscending();
      ModeTableInjective();
      DecodeSpec(ModeTable, sm);
      assert Update(a).value.modes[1..] == Decode(ModeTable, sm);
    }
  }

  /** The three base features are always offered, away mode exactly when
      bit 6 of `sm` is set. */
  lemma UpdateFeatures(a: Record)
    requires MaskOf(a, "sm").Some?
    ensures var f := Update(a).value.features;
      && OnOff in f && TargetTemperature in f && OperationMode in f
      && (AwayMode in f <==> BitSet(MaskOf(a, "sm").value, 6))
  {
    var sm := MaskOf(a, "sm").value;
    UpdateParts(a);
    ModeTableAscending();
    ModeTableInjective();
    DecodeSpec(ModeTable, sm);
    NamedKeys();
    assert "away" in Update(a).value.modes <==> "away" in Decode(ModeTable, sm);
  }

  /** Away mode on reads back as away; away mode off and a temperature
      write read back as not away, in heating mode. */
  lemma AwayRoundTrip(a: Record, kwargs: Record)
    ensures IsAwayModeOn(a + AwayModeOn())
    ensures !IsAwayModeOn(a + AwayModeOff()) && Get(a + AwayModeOff(), "m") == Int(1)
    ensures !IsAwayModeOn(a + SetTemperature(kwargs)) && Get(a + SetTemperature(kwargs), "tt") == Get(kwargs, "temperature")
  {
    NamedKeys();
    assert "m" in AwayModeOn() && "stt" in AwayModeOn();
    assert "m" in AwayModeOff();
    assert "m" in SetTemperature(kwargs) && "tt" in SetTemperature(kwargs);
  }

  /** Away mode implies the heater is on, and turning it off ends away mode. */
  lemma AwayNeedsPower(a: Record)
    ensures IsAwayModeOn(a) ==> CurrentOperation(a) == "gas"
    ensures IsAwayModeOn(a + TurnOffCommand()) == false
  {
  }

  /** Setting the operation reads back as `gas` exactly when `gas` was
      asked for; any other operation switches the heater off. */
  lemma OperationRoundTrip(a: Record, operation: string)
    ensures CurrentOperation(a + SetOperationMode(operation)) == (if operation == "gas" then "gas" else "off")
    ensures CurrentOperation(a + TurnOnCommand()) == "gas" && CurrentOperation(a + TurnOffCommand()) == "off"
  {
  }
}
